=== FILE: README.md ===
# A verified model of the video editor's render and export core

This project models, in Dafny, the logic of the react-video-editor that turns
a timeline of track items into render instructions, together with the small
state machines around it:

- **the compositor** of the offline render: the validity filter, the
  type-rank sort, millisecond-to-frame placement and the drop rule, and the
  `renderItem` dispatch;
- **the source windows** of a clip: `startFrom`/`endAt`, volume, playback
  rate, crop and source resolution, both in the offline renderer (video and
  audio) and in the editor preview, plus `calculateMetadata`;
- **caption word highlighting**: the current time of a frame, the
  active/appeared/keyword colour of each word and the container border;
- **the audio visualisation cache**: the LRU-then-TTL sweep, loading and
  suppression, the id-diffing `setItems`/`updateItem`/`validateUpdateItems`,
  the per-frame memo and the bucket-wise maximum combiner;
- **the export pipeline**: item source and validation, local-path
  collection, `src` rewriting, the maximum duration, the render request, and
  the poll step with its error messages;
- **the render infrastructure**: the single-slot site cache with its
  hit/lookup/deploy decision, get-or-deploy of the render function, the
  bucket, function and site order, render defaults and the progress mapping;
- **the API routes** for rendering, transcription, S3 media upload, local
  uploads and URL uploads;
- **the smaller pure pieces**: layer deletion and player events, and
  caption preset labelling.

Modules follow the program: `Timeline` (track items and clips), `FrameMath`,
`StableSort` (the stable sort `Array.prototype.sort` performs),
`Compositor`, `Root`, `SourceWindow`, `Caption`, `AudioCache`, `Export`,
`Lambda`, `RenderRoute`, `TranscribeRoute`, `UploadMediaRoute`,
`UploadsRoute`, `UploadUrlRoute`, `TimelineEvents` and `PresetCaption`.
`Strings` and `Common` hold shared helpers.

The outside world enters as parameters:

- every network, S3, Lambda, speech-service and file-system answer;
- the clock and the random suffix;
- URL encoding and decoding, JSON and base64;
- `visualizeAudio`.

Three facts about the code shape the model:

- The site cache is one slot (`src/lib/remotion-lambda.ts:36-42`): a hit
  needs the same bucket and, when a site name is asked for, the same name.
- Only the site step of setup consults a cache
  (`src/lib/remotion-lambda.ts:434-456`); the bucket and function steps
  run on every setup.
- Video and audio sort after the overlays
  (`remotion/compositions/video-with-captions.tsx:68-71`); this is a
  finding below.

## Model

| member | source | states |
|---|---|---|
| Compositor.Validate | remotion/compositions/video-with-captions.tsx:23-58 | An entry is kept iff it is an item with non-empty id and type, a display window, `from >= 0` and `to > from`; a kept clip is well formed and carries the item unchanged |
| Compositor.ValidItems | remotion/compositions/video-with-captions.tsx:23-58 | The kept clips are exactly the entries that validate, each one well formed and taken from the input |
| Compositor.ValidItemsAppend | remotion/compositions/video-with-captions.tsx:23-58 | Filtering works item by item, so it distributes over concatenation and keeps the input order |
| Compositor.RankAsWritten | remotion/compositions/video-with-captions.tsx:68-71 | The sort key `order[type] \|\| 99` gives image 1, text 2, caption 3, and video, audio and the other editor item types all 99, because rank 0 is falsy |
| StableSort.Sort | remotion/compositions/video-with-captions.tsx:68-71 | The sorted list is a permutation of its input, non-decreasing by key, and keeps the input order among items of equal key (stability) |
| StableSort.InsertPermutes | remotion/compositions/video-with-captions.tsx:68-71 | Inserting one item adds exactly that item to the multiset of the list |
| StableSort.InsertSorted | remotion/compositions/video-with-captions.tsx:68-71 | Inserting into a key-sorted list keeps it sorted |
| StableSort.InsertWithKey | remotion/compositions/video-with-captions.tsx:68-71 | Insertion puts the new item ahead of every item with the same key, so their relative order is kept |
| StableSort.WithKeyAppend | remotion/compositions/video-with-captions.tsx:68-71 | Selecting the items of one key distributes over concatenation |
| FrameMath.MsToFrames | remotion/compositions/video-with-captions.tsx:85-87 | The frame of a millisecond time is the floor of `ms * fps / 1000`: the unique `f` with `f * 1000 <= ms * fps < (f + 1) * 1000` |
| FrameMath.MsToFramesMonotone | remotion/compositions/video-with-captions.tsx:85-87 | For non-negative fps, a later time never maps to an earlier frame |
| Compositor.Place | remotion/compositions/video-with-captions.tsx:85-87 | A clip starts at the floored frame of `from` and ends at the floored frame of `to` |
| Compositor.KeepVisible | remotion/compositions/video-with-captions.tsx:89-92 | The emitted clips are exactly those with a positive frame duration |
| Compositor.Plan | remotion/compositions/video-with-captions.tsx:23-92 | Every planned entry is a well-formed valid clip with positive duration placed by the floor rule, and the plan is ordered by the as-written rank |
| Compositor.PlanMembership | remotion/compositions/video-with-captions.tsx:23-92 | A clip is in the plan iff it is a valid item whose frame duration is positive |
| Compositor.PlanEntryValid | remotion/compositions/video-with-captions.tsx:23-92 | Each plan entry comes from a valid item and is placed by the floor rule |
| Compositor.KeepVisibleSorted | remotion/compositions/video-with-captions.tsx:68-92 | Dropping sub-frame clips keeps a rank-sorted list sorted |
| Compositor.PlanStable | remotion/compositions/video-with-captions.tsx:68-92 | For every rank, the plan's clips of that rank are the valid items of that rank in input order, less the dropped ones |
| Compositor.VideoDrawnAboveOverlays | remotion/compositions/video-with-captions.tsx:68-71 | As written, every image, text or caption entry comes before every video or audio entry, so video is drawn on top |
| Compositor.AbuttingClipsAbut | remotion/compositions/video-with-captions.tsx:85-87 | Two clips with `a.to == b.from` get abutting frame ranges |
| Compositor.DurationNonNegative | remotion/compositions/video-with-captions.tsx:85-92 | A well-formed clip at positive fps never gets a negative frame duration; a sub-frame clip gets zero and is dropped |
| Compositor.RenderItem | remotion/compositions/video-with-captions.tsx:112-127 | The five known types dispatch to their renderers, one each, and any other type renders nothing |
| Timeline.TypeOf | remotion/compositions/video-with-captions.tsx:112-127 | A type string is unknown iff it is none of video, audio, image, text and caption |
| Compositor.VideoSortsAfterCaption | remotion/compositions/video-with-captions.tsx:68-71 | A video at [0, 5000) ms listed before a caption at [1000, 4000) ms, at 30 fps, is planned after the caption |
| Compositor.PlanIntended | remotion/compositions/video-with-captions.tsx:68-92 | With video and audio at rank 0, the plan is ordered video/audio, image, text, caption, with placement and dropping unchanged |
| Compositor.IntendedVideoBeneathOverlays | remotion/compositions/video-with-captions.tsx:68-71 | With the intended ranks, every video or audio entry comes before every image, text or caption entry |
| Compositor.IntendedScenario | remotion/compositions/video-with-captions.tsx:68-71 | On the same video and caption, the intended plan puts the video first |
| Root.CalculateMetadata | remotion/root.tsx:34-44 | The composition length is `ceil(seconds * fps)` frames; fps, width and height come from the props; the props pass through unchanged |
| Root.DefaultsAgree | remotion/root.tsx:17-44 | Metadata computed from the default props equals the static defaults: 30 fps, 1080x1920, 300 frames |
| Root.PlanFitsComposition | remotion/root.tsx:34-44 | When the duration is the latest end of the valid items, every planned entry lies within the composition's frames |
| Root.ClipFitsFrames | remotion/root.tsx:34-44 | A well-formed clip ending by the maximum duration is placed within `ceil(seconds * fps)` frames |
| SourceWindow.ResolveSource | remotion/components/render-video.tsx:22 | A src beginning with `http` is used as-is; any other src is resolved as a static file |
| SourceWindow.RendererWindow | remotion/components/render-video.tsx:30-41 | Without a trim the window is `[0, floor(displayLen * fps / 1000)]`. With a trim the start is the floored `trim.from` when truthy, else 0, and the end is the floored `trim.to` when truthy, else unbounded |
| SourceWindow.TrimmedWindowIgnoresDisplay | remotion/components/render-video.tsx:30-41 | With a trim, two clips with different display slots get the same source window |
| SourceWindow.UntrimmedFitsSlot | remotion/components/render-audio.tsx:33-38 | An untrimmed clip's window ends at or before its display length in frames |
| SourceWindow.RenderVolume | remotion/components/render-video.tsx:16 | The volume defaults to 100 and is passed divided by 100 |
| SourceWindow.RenderRate | remotion/components/render-video.tsx:15 | The playback rate defaults to 1 and is otherwise passed unchanged |
| SourceWindow.RenderVideo | remotion/components/render-video.tsx:15-81 | A video renders exactly when it has details and a src (a missing one throws a `TypeError`), with the resolved src, the trim window, the crop defaulting to the full frame, volume/100 and the rate |
| SourceWindow.RenderAudio | remotion/components/render-audio.tsx:15-47 | An audio clip renders exactly when it has details and a src (a missing one throws a `TypeError`), with the resolved src, the trim window, volume/100 and the rate |
| SourceWindow.AudioMatchesVideo | remotion/components/render-audio.tsx:19-45 | For the same clip, the audio renderer's src, window, volume and rate equal the video renderer's |
| SourceWindow.RateDoesNotMoveWindow | remotion/components/render-video.tsx:30-41 | Changing the playback rate never changes the window |
| SourceWindow.EffectiveSrc | src/features/editor/player/items/video.tsx:34-45 | A cross-origin src in the browser is routed through the proxy endpoint with the src encoded; any other src is kept |
| SourceWindow.PreviewRate | src/features/editor/player/items/video.tsx:18 | A missing or zero rate becomes 1; the preview rate is never 0 |
| SourceWindow.PreviewBound | src/features/editor/player/items/video.tsx:84-89 | A preview bound is set iff the trim gives that bound, zero included, and it is the unfloored frame position |
| SourceWindow.Preview | src/features/editor/player/items/video.tsx:18-90 | The preview uses the effective src (an absent src stays absent), volume/100, the preview rate and unfloored trim bounds, and its current frame is the frame less the clip's unfloored start |
| SourceWindow.StartFloorsPreview | src/features/editor/player/items/video.tsx:84-86 | With a truthy `trim.from`, the renderer's start frame is the floor of the preview's |
| SourceWindow.EndFloorsPreview | src/features/editor/player/items/video.tsx:87-89 | With a truthy `trim.to`, the renderer's end frame is the floor of the preview's |
| SourceWindow.ZeroTrimEndDiverges | src/features/editor/player/items/video.tsx:87-89 | `trim.to = 0` ends the preview at frame 0 but leaves the render unbounded |
| SourceWindow.UntrimmedDiverges | src/features/editor/player/items/video.tsx:84-89 | Without a trim the preview sets no bounds, while the renderer clamps the window to the display length |
| SourceWindow.RateAgreesUnlessZero | src/features/editor/player/items/video.tsx:18 | Preview and render rates agree iff the item's rate is not 0 |
| SourceWindow.VolumeAgrees | src/features/editor/player/items/video.tsx:72-75 | Preview and render volumes agree |
| SourceWindow.CurrentFrameAtStart | src/features/editor/player/items/video.tsx:32 | At the clip's first rendered frame, the preview's relative frame lies in (-1, 0] |
| FrameMath.FloorOfFramePosition | src/features/editor/player/items/video.tsx:84-89 | Flooring the preview's unfloored frame position gives the renderer's frame |
| Caption.CurrentTime | remotion/components/render-caption.tsx:48-50 | At positive fps the time of frame `f` is one that frame `f` covers: `f * 1000 <= time * fps < (f + 1) * 1000`, so the clock agrees with the floor rule that placed the clip |
| Caption.ClockIntended | remotion/components/render-caption.tsx:17-50 | Reading the master-timeline frame, the clock shows `display.from` at the caption's first frame and is the same formula applied to the master frame |
| Caption.ClockAsWrittenLags | remotion/components/render-caption.tsx:17-50 | Fed the frame local to the clip's sequence, the clock runs `startFrame * 1000 / fps` ms behind the intended clock, and shows `display.from - startFrame * 1000 / fps` at the caption's first frame |
| Caption.CaptionClockScenario | remotion/components/render-caption.tsx:17-50 | A caption at `display.from = 1000` ms at 30 fps reads 0 ms at its first frame as written, so its word spanning [1000, 1500) ms is not highlighted there, where the intended clock highlights it |
| Caption.CurrentTimeAtStart | remotion/components/render-caption.tsx:48-50 | Fed the master-timeline start frame, the formula reads `display.from` |
| Caption.CurrentTimeMonotone | remotion/components/render-caption.tsx:48-50 | At positive fps, a later frame has a later time |
| Caption.PhasesExclusive | remotion/components/render-caption.tsx:76-77 | A word is never both active and appeared; before its start it is neither |
| Caption.PhasesAdvance | remotion/components/render-caption.tsx:76-77 | Once appeared a word stays appeared, and an active word has appeared by its end |
| Caption.WordColor | remotion/components/render-caption.tsx:79-89 | A coloured keyword always gets the keyword colour. Otherwise an active word gets the active colour when set, an appeared word the appeared colour when set, and every other word the base colour |
| Caption.WordColorFromPalette | remotion/components/render-caption.tsx:79-89 | Every word colour is one of the four configured colours |
| Caption.UpcomingWordPlain | remotion/components/render-caption.tsx:79-89 | A word that has not started and is not a coloured keyword gets the base colour |
| Caption.WordBackground | remotion/components/render-caption.tsx:95 | The word background is the active fill only when the word is active and the fill is set, else transparent |
| Caption.FontSize | remotion/components/render-caption.tsx:93 | A zero font size falls back to the default, so the size is never 0 |
| Caption.RenderWords | remotion/components/render-caption.tsx:108-112 | One span per word, in order, each styled for the current time |
| Caption.RenderKeepsWords | remotion/components/render-caption.tsx:108-112 | The spans' texts are exactly the caption's words |
| Caption.ContainerOf | remotion/components/render-caption.tsx:64-68 | The container background is the caption's background, or transparent when unset |
| Caption.ContainerBorder | remotion/components/render-caption.tsx:64-68 | A border exists iff `borderWidth > 0`, with that width and the border colour, defaulting to black |
| AudioCache.Zeros | src/features/editor/player/lib/audio-data.ts:180-181 | The silent vector is all zeros |
| AudioCache.LookupFinds | src/features/editor/player/lib/audio-data.ts:174-193 | The lookup finds an entry iff the id is cached, and with distinct ids it is that id's entry |
| AudioCache.LookupPut | src/features/editor/player/lib/audio-data.ts:41-46 | After storing under an id, that id looks up the new entry and every other id looks up what it did before |
| AudioCache.CleanupKeepsAll | src/features/editor/player/lib/audio-data.ts:84-104 | With at most 10 entries, none expired, cleanup deletes nothing |
| AudioCache.LookupFilterOutside | src/features/editor/player/lib/audio-data.ts:114-118 | Removing a set of ids makes exactly those look up nothing; every other id keeps its entry |
| AudioCache.Put | src/features/editor/player/lib/audio-data.ts:41-46 | Storing under an id keeps every other id's entry and adds the new one |
| AudioCache.PutDistinct | src/features/editor/player/lib/audio-data.ts:41-46 | Storing keeps the ids distinct, and the stored id maps to the new entry only |
| AudioCache.Cleanup | src/features/editor/player/lib/audio-data.ts:84-104 | The survivors are exactly the entries that are neither LRU victims nor expired, unchanged |
| AudioCache.CleanupBounded | src/features/editor/player/lib/audio-data.ts:84-96 | After cleanup at most 10 entries remain |
| AudioCache.VictimsAreOldest | src/features/editor/player/lib/audio-data.ts:88-96 | With n > 10 entries, the first n - 10 by last access are evicted |
| AudioCache.SurvivorsAreNewest | src/features/editor/player/lib/audio-data.ts:88-96 | Every survivor is among the 10 most recently accessed entries |
| AudioCache.NonVictimIsNewest | src/features/editor/player/lib/audio-data.ts:88-96 | An entry spared by the LRU pass sits among the last 10 in access order |
| AudioCache.VictimIsOldest | src/features/editor/player/lib/audio-data.ts:88-96 | An evicted entry sits among the first n - 10 in access order |
| AudioCache.CleanupEvictsOldest | src/features/editor/player/lib/audio-data.ts:88-96 | No evicted entry was accessed later than a kept one |
| AudioCache.FreshEntrySurvives | src/features/editor/player/lib/audio-data.ts:84-104 | The entry just stored, strictly newer than all others, survives cleanup |
| AudioCache.Initial | src/features/editor/player/lib/audio-data.ts:11-19 | The empty manager satisfies the cache invariant |
| AudioCache.Load | src/features/editor/player/lib/audio-data.ts:36-82 | Loading never fails. A suppressed effective src changes nothing. A failed decode changes nothing but adding the raw src to the suppressed set. A decode stores the data stamped now under the id, then cleans the cache, and nothing else changes |
| AudioCache.LoadStores | src/features/editor/player/lib/audio-data.ts:36-82 | A successful load of the newest entry leaves it cached under its id with the decoded data and the current time |
| AudioCache.SuppressionOnlySameOrigin | src/features/editor/player/lib/audio-data.ts:39-57 | A failure records the raw src, but the skip check looks up the effective src, so only a same-origin failure suppresses later loads |
| AudioCache.RemoveItem | src/features/editor/player/lib/audio-data.ts:145-148 | Removing drops that id's entry, keeps every other id's entry and their distinctness, and clears the frame memo |
| AudioCache.SetItems | src/features/editor/player/lib/audio-data.ts:106-131 | Ids no longer present look up nothing, entries are only kept or newly loaded for added ids, the item list is replaced and the memo cleared. When no cleanup can evict, ids on both or neither list keep their entries and an added id whose load succeeds holds its decoded data |
| AudioCache.RemoveAll | src/features/editor/player/lib/audio-data.ts:114-118 | The result keeps exactly the slots whose ids are not in the list, in order; the memo is cleared when the list is non-empty and kept otherwise |
| AudioCache.LoadAdded | src/features/editor/player/lib/audio-data.ts:120-128 | Only the added ids gain entries, stamped now; with no source to load nothing changes. When no cleanup can evict, other ids keep their entries and each added id whose load succeeds holds its decoded data |
| AudioCache.ReplaceById | src/features/editor/player/lib/audio-data.ts:151-159 | The item with the same id is replaced; length, order and every other item are kept |
| AudioCache.UpdateItem | src/features/editor/player/lib/audio-data.ts:150-161 | The item is replaced by id and the memo cleared. An unchanged src leaves everything else as it was; a changed src of the only item with that id has exactly the cache effect of loading the new src under that id |
| AudioCache.Reload | src/features/editor/player/lib/audio-data.ts:153-155 | No src change leaves the manager as it was; a changed src of the only item with that id is exactly one load of the new src under that id |
| AudioCache.UpdateEach | src/features/editor/player/lib/audio-data.ts:137-141 | The items become those replaced by id with the given one. Nothing changes when no item is stale against it. When one is, the memo is cleared, and the cache is untouched if no src changed. If the src of the only item with that id changed, the cache is exactly that of one load of the new src |
| AudioCache.ValidateUpdateItems | src/features/editor/player/lib/audio-data.ts:133-143 | The items become those replaced by each given item in turn. Nothing changes when none is stale, and the frame memo is cleared when one is. When no given item changes a src, the decoded entries and the suppressed set are untouched. When each given id is carried by at most one item, the cache is exactly one load per given item whose src differs from the items as replaced so far |
| AudioCache.NoSrcChangeStep | src/features/editor/player/lib/audio-data.ts:136-155 | When no given item changes a src, the items as replaced so far never give the next item's id a different src, so no `updateItem` in the pass reloads |
| AudioCache.ReplaceAllItems | src/features/editor/player/lib/audio-data.ts:133-143 | After `validateUpdateItems`, an item whose id is among the given items is the last given item with that id. Every other item is unchanged, in its place |
| AudioCache.ReplacedSettles | src/features/editor/player/lib/audio-data.ts:137-141 | Once replaced by an item, no item is stale against it and no src differs from it, so later `updateItem` calls with it in the same pass change nothing |
| AudioCache.ColumnMaxIsMax | src/features/editor/player/lib/audio-data.ts:163-170 | Each combined bucket is the maximum of 0 and that bucket of every source |
| AudioCache.CombineValues | src/features/editor/player/lib/audio-data.ts:163-170 | The combined vector is the bucket-wise maximum of the sources, never negative |
| AudioCache.ColumnMaxOfZeros | src/features/editor/player/lib/audio-data.ts:163-170 | Combining silent vectors gives silence |
| AudioCache.ItemBars | src/features/editor/player/lib/audio-data.ts:183-204 | An item contributes silence when it has no entry or the frame is outside its inclusive window, otherwise the visualisation at its frame time |
| AudioCache.Touch | src/features/editor/player/lib/audio-data.ts:195-204 | Exactly the entries of items heard at this frame get their last access set to now; ids and data are kept |
| AudioCache.TouchKeepsIds | src/features/editor/player/lib/audio-data.ts:195-204 | Touching keeps the set of cached ids and their distinctness |
| AudioCache.MemoLookup | src/features/editor/player/lib/audio-data.ts:174-177 | A memo hit returns a stored vector for that frame; a miss means no entry for the frame |
| AudioCache.MemoInsert | src/features/editor/player/lib/audio-data.ts:213-221 | The memo gains the frame's vector; at 100 entries the first-inserted is evicted, so it never exceeds 100 |
| AudioCache.GetAudioDataForFrame | src/features/editor/player/lib/audio-data.ts:172-224 | A memo hit returns the stored vector and changes nothing. Otherwise the vector is the bucket-wise maximum over the items, heard entries are touched, and the memo is the old one with the vector inserted for that frame |
| AudioCache.SilentFrame | src/features/editor/player/lib/audio-data.ts:179-193 | With no item in window and cached, every bucket is 0 |
| Export.ItemsOf | src/features/editor/store/use-download-state.ts:84-96 | Items come from the item map when present, else from the flattened tracks, else none |
| Export.Flatten | src/features/editor/store/use-download-state.ts:92-95 | The flattened list holds exactly the items of the tracks that have items |
| Export.ExportFilterMatchesRenderer | src/features/editor/store/use-download-state.ts:106-149 | An entry passes the export filter iff it passes the renderer's filter |
| Export.ValidTrackItems | src/features/editor/store/use-download-state.ts:106-149 | The kept items are exactly the entries passing the filter |
| Export.ValidTrackItemsAgree | src/features/editor/store/use-download-state.ts:106-149 | The export's valid items are, position by position, the renderer's valid items |
| Export.LocalFilePaths | src/features/editor/store/use-download-state.ts:171-179 | The local paths are exactly the srcs under `/api/uploads/file/` |
| Export.LocalFilePathsInOrder | src/features/editor/store/use-download-state.ts:171-179 | The local paths keep item order, duplicates included |
| Export.RewriteSrc | src/features/editor/store/use-download-state.ts:205-241 | An S3 map entry wins. Otherwise an `http(s)` src is kept, and a root-relative non-`//` src becomes `baseUrl + src` off localhost |
| Export.OffLocalhostAbsolute | src/features/editor/store/use-download-state.ts:205-241 | Off localhost, with an `http` base, no rewritten src is root-relative |
| Export.UploadedNoLongerLocal | src/features/editor/store/use-download-state.ts:182-241 | Once every local path is in the S3 map with a non-local URL, no rewritten src is local |
| Export.TransformItem | src/features/editor/store/use-download-state.ts:205-241 | Only `details.src` changes, and it changes to the rewritten src |
| Export.TransformItems | src/features/editor/store/use-download-state.ts:205-241 | The transform maps item by item, keeping length and order |
| Export.MaxDuration | src/features/editor/store/use-download-state.ts:254-259 | The maximum duration is 0 or some item's end, and no item ends later |
| Export.RequestOf | src/features/editor/store/use-download-state.ts:279-295 | The request carries the items, 30 fps, the design's size and background, and the fixed retries, chunk size, codec, format, privacy and site name |
| Export.Abort | src/features/editor/store/use-download-state.ts:382-386 | An abort stops exporting, resets progress and alerts the message |
| Export.UploadMap | src/features/editor/store/use-download-state.ts:171-203 | No upload happens, and the map is empty, unless on localhost with local paths |
| Export.StartExport | src/features/editor/store/use-download-state.ts:48-67 | A missing payload aborts; a JSON export finishes at progress 100 with JSON output and no request; an MP4 export goes on to render; a started job is exporting at progress 1 |
| Export.Mp4Export | src/features/editor/store/use-download-state.ts:165-311 | Uploads happen iff on localhost with local paths. A failed upload alerts and sends nothing. The request is built from the rewritten items, and a job starts only with all three ids |
| Export.Submit | src/features/editor/store/use-download-state.ts:298-311 | A job starts iff the reply is accepted with non-empty render id, bucket and function; otherwise export stops with an alert, the server's message when given |
| Export.ExportedItemsAllValid | src/features/editor/store/use-download-state.ts:205-241 | Every item the export sends passes the renderer's filter |
| Export.ExportedPlanFits | src/features/editor/store/use-download-state.ts:254-295 | Every clip the renderer plans for an exported request lies within the composition's frames |
| Export.ErrorText | src/features/editor/store/use-download-state.ts:357-361 | An error is described by its message, else its stack, else its JSON |
| Export.FailureMessage | src/features/editor/store/use-download-state.ts:357-361 | No errors give the fixed Lambda message; otherwise the prefix is followed by the error texts joined by newlines |
| Export.SingleErrorMessage | src/features/editor/store/use-download-state.ts:357-361 | One error gives the prefix followed by that error's text |
| Export.ProgressPercent | src/features/editor/store/use-download-state.ts:341 | The percentage is the rounded progress times 100, within 0..100 for progress in [0, 1] |
| Export.PollStep | src/features/editor/store/use-download-state.ts:314-378 | A failed status request stops with its message. COMPLETED with a URL finishes with MP4 output at 100. FAILED or fatal stops with the failure message. Anything else updates progress and polls again |
| Export.PollOfRemoteProgress | src/features/editor/store/use-download-state.ts:314-378 | A finished render with an output file ends the export with that MP4 file; an unfinished one with a fatal error alerts the failure message and stops; any other unfinished one polls again |
| Export.DoneWithoutOutputPollsAgain | src/features/editor/store/use-download-state.ts:345-372 | A render reported done without an output file keeps polling |
| Common.FindFirst | src/lib/remotion-lambda.ts:144 | `find` returns the first element satisfying the test, and nothing iff no element does; the site lookup and the item lookup of the audio cache both use it |
| Lambda.Lookup | src/lib/remotion-lambda.ts:136-164 | A listing error finds nothing; a found site is listed with the requested id |
| Lambda.DeployRemotionSite | src/lib/remotion-lambda.ts:114-215 | A cache hit makes no call and returns the cached site. A forced call only deploys. Success caches exactly the returned site with its bucket; failure leaves the cache alone |
| Lambda.ExistingSiteReused | src/lib/remotion-lambda.ts:136-164 | On a miss, a listed site with the requested name is reused after one listing call, without deploying |
| Lambda.ListingErrorDeploys | src/lib/remotion-lambda.ts:136-164 | A listing error is swallowed and the site is deployed |
| Lambda.RepeatHits | src/lib/remotion-lambda.ts:121-133 | After a success, asking again for the same bucket with no or the same site name hits the cache with no call |
| Lambda.ClearSiteCache | src/lib/remotion-lambda.ts:421-424 | The cleared cache can never hit |
| Lambda.ClearedCacheMisses | src/lib/remotion-lambda.ts:421-424 | After clearing, the next site request makes a remote call |
| Lambda.EnsureLambdaFunction | src/lib/remotion-lambda.ts:362-415 | The functions are listed first; the first one is returned without deploying; a deploy happens only when none is usable; an empty deployed name is an error |
| Lambda.SetupRemotionInfrastructure | src/lib/remotion-lambda.ts:434-470 | Success carries the bucket, the function from the function step and the site deployed into that bucket, and caches that site |
| Lambda.SetupOrder | src/lib/remotion-lambda.ts:434-470 | Calls run bucket, then function, then site, and every site call uses the bucket from the first step |
| Lambda.RenderOptions | src/lib/remotion-lambda.ts:223-268 | Render defaults are h264, jpeg, public, `maxRetries ?? 1` and `framesPerLambda ?? 20`; given values are kept |
| Lambda.ZeroRetriesKept | src/lib/remotion-lambda.ts:249-254 | An explicit 0 retries is kept, not defaulted |
| Lambda.StatusOf | src/lib/remotion-lambda.ts:306-316 | Done is COMPLETED even when fatal; otherwise fatal is FAILED; otherwise PROCESSING |
| Lambda.Report | src/lib/remotion-lambda.ts:306-316 | The report carries the status, progress, errors and fatal flag, with the output file as the output URL |
| Lambda.CheckRenderProgress | src/lib/remotion-lambda.ts:278-321 | A progress query fails iff the remote query fails, otherwise it reports the remote progress |
| RenderRoute.InputProps | src/app/api/remotion/render/route.ts:65-75 | Track items pass unchanged; background, width, height, fps and duration default via `\|\|`, so 0 also takes 1080, 1920, 30 and 10 |
| RenderRoute.EmptyBodyGetsDefaults | src/app/api/remotion/render/route.ts:65-75 | A body with only track items yields the composition's default props |
| RenderRoute.RenderParamsOf | src/app/api/remotion/render/route.ts:79-89 | The render uses the VideoWithCaptions composition, the set-up function and site, and the request's options |
| RenderRoute.Post | src/app/api/remotion/render/route.ts:23-111 | Missing track items or credentials are 400 before any call, every other failure is a 500. A render is started only for an array of items, with a non-empty serve URL and the defaulted props; when setup succeeds for the requested or default site with a serve URL and the render starts, the answer is 200 with setup's cache and calls |
| RenderRoute.PostAnswersFromSetupAndRender | src/app/api/remotion/render/route.ts:49-100 | A 200 carries the function and site from setup, and the render id and bucket from the render |
| RenderRoute.Get | src/app/api/remotion/render/route.ts:125-137 | Missing any of render id, bucket or function is 400; otherwise a successful query answers its report |
| TimelineEvents.Without | src/features/editor/hooks/use-timeline-events.ts:87-89 | The remaining ids are exactly the old ids not being deleted |
| TimelineEvents.PruneTracks | src/features/editor/hooks/use-timeline-events.ts:96-99 | Every track keeps its fields, with its items filtered the same way |
| TimelineEvents.LayerDelete | src/features/editor/hooks/use-timeline-events.ts:79-113 | With no state or no selection nothing happens. Otherwise the deleted keys leave the map, all other keys keep their values, tracks keep their count, selection is cleared, and history is recorded as `layer:delete` |
| TimelineEvents.DeletedEverywhere | src/features/editor/hooks/use-timeline-events.ts:87-99 | A deleted id is gone from the id list, the map and every track |
| TimelineEvents.SurvivorsKept | src/features/editor/hooks/use-timeline-events.ts:87-99 | Survivors keep their order in the id list and in each track, and track fields are kept |
| TimelineEvents.DeleteThenDeleteIsNoop | src/features/editor/hooks/use-timeline-events.ts:79-84 | A second delete right after one does nothing, because the selection is empty |
| TimelineEvents.SeekTarget | src/features/editor/hooks/use-timeline-events.ts:30-42 | A seek to `time` ms goes to frame `time / 1000 * fps` |
| TimelineEvents.Handle | src/features/editor/hooks/use-timeline-events.ts:29-60 | Seeks with a number go to the frame of the time; seek-by goes to `round(current) + frames`; play and pause set the state; toggle flips it; without a player nothing happens |
| TimelineEvents.ToggleTwice | src/features/editor/hooks/use-timeline-events.ts:47-52 | Toggling twice restores the player |
| TimelineEvents.SeekMatchesFramePosition | src/features/editor/hooks/use-timeline-events.ts:38-42 | Seeking to a millisecond time lands on the preview's frame position for it |
| TimelineEvents.SeekByComposes | src/features/editor/hooks/use-timeline-events.ts:53-58 | Two integer seek-bys equal one by their sum |
| PresetCaption.Sanitize | src/features/editor/control-item/common/preset-caption.tsx:57-77 | Present fields are kept and only missing ones take the fixed defaults |
| PresetCaption.SanitizeKeepsPresent | src/features/editor/control-item/common/preset-caption.tsx:57-77 | Sanitising a fully specified style returns it unchanged |
| PresetCaption.SanitizeEmpty | src/features/editor/control-item/common/preset-caption.tsx:57-77 | Sanitising an empty style gives the defaults |
| PresetCaption.EqualBoxShadow | src/features/editor/control-item/common/preset-caption.tsx:79-85 | Two absent shadows are equal, one absent is unequal, two present compare colour, x, y and blur |
| PresetCaption.EqualBoxShadowIsEquality | src/features/editor/control-item/common/preset-caption.tsx:79-85 | The comparison is exactly equality of the optional shadows |
| PresetCaption.OrElse | src/features/editor/control-item/common/preset-caption.tsx:98-103 | A falsy string takes the fallback |
| PresetCaption.AppliedPresetMatches | src/features/editor/control-item/common/preset-caption.tsx:87-106 | Details that carry every field of a complete preset match that preset |
| PresetCaption.MissingColorMatchesNothing | src/features/editor/control-item/common/preset-caption.tsx:87-106 | Details without a colour match no preset, because the colour is compared strictly |
| PresetCaption.FindMatch | src/features/editor/control-item/common/preset-caption.tsx:114-116 | The index found is the first matching preset, or -1 when none matches |
| PresetCaption.DetailsOf | src/features/editor/control-item/common/preset-caption.tsx:54-55 | Details come from the group's first caption when there is one, else from the item; when the one chosen has no details the style is empty |
| PresetCaption.Label | src/features/editor/control-item/common/preset-caption.tsx:108-121 | "None" iff the none preset matches. Otherwise "Preset k+1" for the first matching k, and "Custom" iff nothing matches |
| PresetCaption.PresetNamesDistinct | src/features/editor/control-item/common/preset-caption.tsx:114-121 | The preset labels are distinct from each other and from "None" and "Custom" |
| PresetCaption.AppliedPresetLabelled | src/features/editor/control-item/common/preset-caption.tsx:108-121 | Applying a preset not shadowed by "None" or an earlier preset labels the item with that preset's name |
| Strings.ToSafeFilename | src/app/api/uploads/route.ts:15-17 | Same length; every safe character is kept and every other one becomes `_`, so the result is safe |
| Strings.ToSafeFilenameIdempotent | src/app/api/uploads/route.ts:15-17 | Sanitising twice equals sanitising once |
| Strings.SafeNameUnchanged | src/app/api/uploads/route.ts:15-17 | An already safe name is unchanged |
| Strings.NatToStringRoundTrip | src/app/api/uploads/route.ts:37-41 | The decimal text of a timestamp reads back as the same number |
| UploadsRoute.UniqueName | src/app/api/uploads/route.ts:37-41 | The stored name is the stem, a dash, the timestamp and the random suffix, then the extension. It stays safe and is longer by exactly the inserted part |
| UploadsRoute.UniqueNameKeepsExtension | src/app/api/uploads/route.ts:37-41 | The stored name keeps the upload's extension |
| UploadsRoute.StoredFile | src/app/api/uploads/route.ts:36-51 | The record holds the unique name (from `upload.bin` when unnamed), its path and URL, and the file's type or octet-stream |
| UploadsRoute.Post | src/app/api/uploads/route.ts:19-67 | Multipart is checked first. A missing or empty-string `file` entry is 400, and a stored file answers its record. A form that does not parse, a non-empty string entry (it has no `arrayBuffer`) and a failed write are 500 with the thrown message. JSON is echoed, and an unparsable JSON body is 500. Any other type is 415 |
| UploadsRoute.StoredNameIsSafe | src/app/api/uploads/route.ts:37-44 | Every stored name is safe and every URL is under the file endpoint |
| UploadUrlRoute.DownloadName | src/app/api/uploads/url/route.ts:57-58 | The name is the sanitised basename, or `download.bin` when empty |
| UploadUrlRoute.Download | src/app/api/uploads/url/route.ts:52-74 | A URL yields a result iff its fetch is ok and the write succeeds; the result records the original URL, the stored name and its URL |
| UploadUrlRoute.DownloadedNameSafe | src/app/api/uploads/url/route.ts:57-62 | Every stored name is safe |
| UploadUrlRoute.DownloadAll | src/app/api/uploads/url/route.ts:52-74 | Results are in input order, one per successful URL, each recording its own URL, and failures are skipped |
| UploadUrlRoute.Post | src/app/api/uploads/url/route.ts:22-87 | A missing user id or empty URL list is 400 and a failed mkdir 500; otherwise the results of exactly the successful URLs, in order |
| UploadUrlRoute.AllSucceedKeepsPositions | src/app/api/uploads/url/route.ts:52-74 | When every URL succeeds there is one result per URL, at its position |
| UploadUrlRoute.Get | src/app/api/uploads/url/route.ts:90-116 | No `u` is 400; a fetch error is 500; a non-ok or bodiless upstream answers its own status, except a status a JSON response cannot carry (204, 205, 304, or outside 200..599), where building that answer throws and the catch answers 500; an ok body is streamed uncached with its content type |
| UploadUrlRoute.ProxyErrorStatusCarried | src/app/api/uploads/url/route.ts:98-114 | Every error the proxy answers carries a status a JSON response can have: an upstream 204, 205 or 304, always bodiless under fetch, is answered 500, never with its own status |
| TranscribeRoute.SafeFileName | src/app/api/transcribe/route.ts:54-56 | The looked-up name is the sanitised, decoded last URL segment |
| TranscribeRoute.MimeType | src/app/api/transcribe/route.ts:73-81 | mp4, mov, webm, mp3, wav and m4a map to their media types, and anything else is audio/mpeg |
| TranscribeRoute.MimeTypeIsMedia | src/app/api/transcribe/route.ts:73-81 | Every file is announced as audio or video |
| TranscribeRoute.ServiceRequestFor | src/app/api/transcribe/route.ts:89-99 | The request names the safe file and its type, asks for word and segment timings, and sends the language lowercased only when given |
| TranscribeRoute.CaptionWords | src/app/api/transcribe/route.ts:109-120 | One caption word per service word, in order, times copied, confidence 1 |
| TranscribeRoute.CaptionWordsAppend | src/app/api/transcribe/route.ts:109-120 | Mapping words distributes over concatenation |
| TranscribeRoute.TransformedOf | src/app/api/transcribe/route.ts:109-128 | The result records the request URL, the mapped words (none when missing) and the service's own fields |
| TranscribeRoute.FailureStatus | src/app/api/transcribe/route.ts:146-166 | An API error answers with its own status, or 500 when it has none; any other error answers 500 |
| TranscribeRoute.Post | src/app/api/transcribe/route.ts:25-166 | No URL is 400; no key is 500; a missing file is 404; an existing name that does not read as a file is 500; success answers a `data:application/json;base64,` URL holding the encoded result. Once the file reads, a service answer is a 200 with that URL, and a service failure is an error with the API's own status, or 500 when it has none or is not an API error |
| TranscribeRoute.FindsUploadedFile | src/app/api/transcribe/route.ts:54-67 | A file stored under a safe name is found again from its upload URL |
| UploadMediaRoute.Region | src/app/api/remotion/upload-media/route.ts:7 | The configured region, or us-east-1 when unset |
| UploadMediaRoute.ContentType | src/app/api/remotion/upload-media/route.ts:82-91 | Known extensions map to their types, jpg and jpeg both to image/jpeg, anything else to octet-stream |
| UploadMediaRoute.ContentTypeAgreesWithTranscription | src/app/api/remotion/upload-media/route.ts:82-91 | For the audio and video extensions both routes know, both give the same type |
| UploadMediaRoute.S3Key | src/app/api/remotion/upload-media/route.ts:94 | The key is under `uploads/` and ends with a dash and the file name |
| UploadMediaRoute.PublicUrl | src/app/api/remotion/upload-media/route.ts:106 | The URL is an https address ending with the key |
| UploadMediaRoute.UploadOne | src/app/api/remotion/upload-media/route.ts:62-113 | A path is copied iff its last segment is non-empty, the file exists and the put succeeds; then it answers the public URL of the key |
| UploadMediaRoute.CollectIsLastPresent | src/app/api/remotion/upload-media/route.ts:62-113 | A path is in the result iff one of its positions succeeded, and it maps to its last success |
| UploadMediaRoute.CollectKeysListed | src/app/api/remotion/upload-media/route.ts:62-113 | Every key of the result is one of the input paths |
| UploadMediaRoute.UploadedUrls | src/app/api/remotion/upload-media/route.ts:62-113 | Each answered path maps to the https URL of its last successful copy |
| UploadMediaRoute.Post | src/app/api/remotion/upload-media/route.ts:19-130 | A missing or empty path array is 400, and missing credentials are 400; with a bucket the answer is the map of copied paths |
| UploadMediaRoute.CopiedSourcesLeaveLocalServer | src/app/api/remotion/upload-media/route.ts:106-107 | Every answered URL is remote, so the export's rewrite leaves no copied source local |

## Left out

- Network, S3, Lambda, the speech service and the file system: their answers are parameters (`Aws`, `Env`, `ExportEnv` records of results and functions), not behaviour.
- `getAudioData` and `visualizeAudio` are parameters; the decoded data is opaque.
- `Date.now` and `Math.random` are parameters (a timestamp and a suffix string).
- URL parsing, `encodeURIComponent`/`decodeURIComponent`, JSON serialisation and base64 are parameters, so the transcription result is stated up to those encoders.
- Floating point: display times are integer milliseconds and frame math is exact floor/ceil; preview positions, volumes and rates are reals, with no IEEE rounding.
- Asynchrony: the loads of `setItems` run one after another, the fire-and-forget reload of `updateItem` is run at once, and the `setTimeout` poll loop is one `PollStep`.
- `alert` and console logging become an alert value or are dropped.
- The error-name and regex classification in `loadAudioData`: every branch ends in the same skip, so a failed decode is one case.
- React rendering, CSS styles, positions, rotation and font loading; only the values the components compute are modelled.
- The proxy's streamed body, and the download of a stored file: `UploadUrlRoute.Get` models the status and headers only.
- `getCompatibleFunctionName` and the function listing are folded into `EnsureLambdaFunction`, which sees the compatible names as one list; `getOrCreateRemotionBucket` is the `bucket` result.
- `Strings.ToLowerAscii`: lowercases ASCII letters only, not the full Unicode case mapping of `toLowerCase`.
- `Strings.BaseName`: approximates Node's `path.basename` on URL pathnames by dropping trailing slashes and taking the last segment.
- Joined file paths are written `dir + "/" + name`, without `path.join` normalisation.
- `UploadMediaRoute.Post`: every element of `filePaths` is taken to be a string; other JSON values are not modelled.
- `Compositor.PlanIntended`: the corrected plan's fit within the composition is not restated, since placement and dropping are shared with `Compositor.Plan`, whose fit `Root.PlanFitsComposition` proves.
- `Export.ProgressPercent`: rounding is round-half-up over exact reals, not `Math.round` over doubles.
- `SetItems` / `LoadAdded`: the frame and loaded-entry promises are stated only when the cache has room for every load and nothing in it has expired, so that no cleanup evicts; when a cleanup does evict, only the upper bound (entries are kept or freshly loaded) is promised.
- `UpdateItem` / `Reload`: the exact cache effect is stated when one item carries the id, as the editor's unique ids guarantee; with duplicate ids only the unchanged-src case is exact.
- `UpdateEach`: likewise, the exact cache effect of a changed src is stated when one item carries the id.
- `ValidateUpdateItems`: likewise, the cache as a fold of loads is stated when each given id is carried by at most one item; without that premise only the no-src-change case is exact.
- `Compositor.RankAsWritten`: a type naming an `Object.prototype` member (`constructor`, `toString`, `__proto__`, ...) reads a function or object from `order`, so the comparator returns `NaN`, is inconsistent, and the resulting order is implementation-defined; the model ranks such a type 99 and sorts it deterministically.
- `UploadUrlRoute.Get` / `UploadsRoute.Post`: the texts of the errors the runtime throws (a refused JSON status, `arrayBuffer` missing on a string entry) are parameters, since they are the engine's wording, not the program's.
- `AudioCache.Put` appends a new id after the existing ones, as insertion into an object does for ordinary string keys. `Object.entries` lists integer-like keys first, in numeric order, so for such ids the LRU pass may break ties of equal access time differently from the model.
- UI-only files, configuration files, the deploy script and the pass-through routes (site, deploy, functions, bucket) are not part of this model.

## Findings

| source | as written | input that shows it | evidently intended | confidence | as-written member | corrected member |
|---|---|---|---|---|---|---|
| remotion/compositions/video-with-captions.tsx:68-71 | The rank `order[type] \|\| 99` turns the 0 given to video and audio into 99, so they sort after image, text and caption and are drawn on top of them | A video at [0, 5000) ms listed before a caption at [1000, 4000) ms, at 30 fps: the caption is planned first and the video after it, covering the caption | Video and audio at rank 0, drawn beneath images, text and captions, as the comment above the sort says | not executed | Compositor.VideoSortsAfterCaption | Compositor.IntendedVideoBeneathOverlays |
| remotion/components/render-caption.tsx:17-50 | The clock reads `useCurrentFrame()`, which inside the clip's `Sequence` (remotion/compositions/video-with-captions.tsx:95-102) counts from the clip's first frame, yet subtracts the clip's start frame again, so it runs `startFrame * 1000 / fps` ms behind | A caption at `display.from = 1000` ms at 30 fps: at its first frame the clock reads 0 ms, so a word spanning [1000, 1500) ms is not highlighted while it is spoken | The clock reads `display.from` at the caption's first frame and advances 1000/fps ms per frame | not executed | Caption.ClockAsWrittenLags | Caption.ClockIntended |

=== FILE: audio_cache.dfy ===
/**
  The preview's audio-visualisation cache (`AudioDataManager`): decoded audio
  per item id with a least-recently-used bound and an expiry sweep, a set of
  sources whose decoding failed, and a bounded per-frame memo of the combined
  bar heights.

  The decoded-data object is a sequence of slots in `Object.entries` order
  (insertion order); ids are distinct, as object keys are.
 */
module AudioCache {
  import opened Common
  import StableSort
  import SourceWindow

  const MaxCacheSize: nat := 10
  /** Five minutes in milliseconds. */
  const CacheTtl: int := 1000 * 60 * 5
  const NumberOfSamples: nat := 512
  const MaxFrameMemo: nat := 100

  /** The result of `getAudioData`, left uninterpreted except for being a value. */
  datatype AudioData = AudioData(channelWaveforms: seq<seq<real>>, sampleRate: int)

  /** One visualisation: exactly `numberOfSamples` bar heights. */
  type Bars = s: seq<real> | |s| == NumberOfSamples witness seq(512, _ => 0.0)

  function Zeros(): (z: Bars)
    ensures forall i :: 0 <= i < |z| ==> z[i] == 0.0
  {
    seq(NumberOfSamples, _ => 0.0)
  }

  datatype CacheEntry = CacheEntry(data: AudioData, lastAccessed: int)
  datatype Slot = Slot(id: string, entry: CacheEntry)

  function LastAccessed(s: Slot): int {
    s.entry.lastAccessed
  }

  predicate DistinctIds(s: seq<Slot>) {
    forall i, j :: 0 <= i < j < |s| ==> s[i].id != s[j].id
  }

  function Ids(s: seq<Slot>): (r: set<string>)
    ensures forall i :: 0 <= i < |s| ==> s[i].id in r
    ensures forall id :: id in r ==> exists i :: 0 <= i < |s| && s[i].id == id
    ensures |r| <= |s|
  {
    if |s| == 0 then {} else {s[0].id} + Ids(s[1..])
  }

  lemma {:induction false} IdsOfDistinct(s: seq<Slot>)
    requires DistinctIds(s)
    ensures |Ids(s)| == |s|
  {
    if |s| > 0 {
      IdsOfDistinct(s[1..]);
      assert forall i :: 0 <= i < |s[1..]| ==> s[1..][i].id != s[0].id;
    }
  }

  /** A slot in front of distinct slots with other ids keeps the ids distinct. */
  lemma DistinctCons(x: Slot, rest: seq<Slot>)
    requires DistinctIds(rest)
    requires forall i :: 0 <= i < |rest| ==> rest[i].id != x.id
    ensures DistinctIds([x] + rest)
  {
    var r := [x] + rest;
    forall i, j | 0 <= i < j < |r| ensures r[i].id != r[j].id {
      assert r[j] == rest[j - 1];
      if i > 0 {
        assert r[i] == rest[i - 1];
      }
    }
  }

  lemma DistinctTail(s: seq<Slot>)
    requires DistinctIds(s) && |s| > 0
    ensures DistinctIds(s[1..])
    ensures forall i :: 0 <= i < |s[1..]| ==> s[1..][i].id != s[0].id
  {
    forall i | 0 <= i < |s[1..]| ensures s[1..][i].id != s[0].id {
      assert s[1..][i] == s[i + 1];
    }
    forall i, j | 0 <= i < j < |s[1..]| ensures s[1..][i].id != s[1..][j].id {
      assert s[1..][i] == s[i + 1] && s[1..][j] == s[j + 1];
    }
  }

  lemma {:induction false} FilterDistinct(s: seq<Slot>, p: Slot -> bool)
    ensures DistinctIds(s) ==> DistinctIds(Filter(s, p))
  {
    if |s| > 0 && DistinctIds(s) {
      DistinctTail(s);
      FilterDistinct(s[1..], p);
      FilterContents(s[1..], p);
      var rest := Filter(s[1..], p);
      forall k | 0 <= k < |rest| ensures rest[k].id != s[0].id {
        var i :| 0 <= i < |s[1..]| && s[1..][i] == rest[k];
      }
      if p(s[0]) {
        DistinctCons(s[0], rest);
        assert Filter(s, p) == [s[0]] + rest;
      } else {
        assert Filter(s, p) == rest;
      }
    }
  }

  /** `this.audioDatas[id]`: the entry stored under `id`, if any. */
  function Lookup(s: seq<Slot>, id: string): Option<CacheEntry> {
    if |s| == 0 then None
    else if s[0].id == id then Some(s[0].entry)
    else Lookup(s[1..], id)
  }

  /** A key is found iff some slot carries it; what is found is stored under it, and with distinct ids it is that slot's entry. */
  lemma {:induction false} LookupFinds(s: seq<Slot>, id: string)
    ensures Lookup(s, id).None? <==> id !in Ids(s)
    ensures Lookup(s, id).Some? ==> Slot(id, Lookup(s, id).value) in s
    ensures DistinctIds(s) ==> forall i :: 0 <= i < |s| && s[i].id == id ==> Lookup(s, id) == Some(s[i].entry)
  {
    if |s| > 0 {
      LookupFinds(s[1..], id);
      if DistinctIds(s) {
        DistinctTail(s);
      }
    }
  }

  /** `this.audioDatas[id] = e`: an existing key keeps its place, a new key goes last. */
  function Put(s: seq<Slot>, id: string, e: CacheEntry): (r: seq<Slot>)
    ensures Slot(id, e) in r
    ensures forall i :: 0 <= i < |r| ==> r[i] == Slot(id, e) || r[i] in s
    ensures forall i :: 0 <= i < |s| && s[i].id != id ==> s[i] in r
    ensures |r| <= |s| + 1
  {
    if |s| == 0 then [Slot(id, e)]
    else if s[0].id == id then [Slot(id, e)] + s[1..]
    else [s[0]] + Put(s[1..], id, e)
  }

  /** Writing under a key keeps the keys distinct and leaves one entry under it. */
  lemma {:induction false} PutDistinct(s: seq<Slot>, id: string, e: CacheEntry)
    requires DistinctIds(s)
    ensures DistinctIds(Put(s, id, e))
    ensures forall i :: 0 <= i < |Put(s, id, e)| && Put(s, id, e)[i].id == id ==> Put(s, id, e)[i] == Slot(id, e)
  {
    if |s| > 0 {
      DistinctTail(s);
      if s[0].id == id {
        DistinctCons(Slot(id, e), s[1..]);
        assert Put(s, id, e) == [Slot(id, e)] + s[1..];
      } else {
        var rest := Put(s[1..], id, e);
        PutDistinct(s[1..], id, e);
        forall i | 0 <= i < |rest| ensures rest[i].id != s[0].id {
          if rest[i] != Slot(id, e) {
            var k :| 0 <= k < |s[1..]| && s[1..][k] == rest[i];
          }
        }
        DistinctCons(s[0], rest);
        assert Put(s, id, e) == [s[0]] + rest;
      }
    }
  }

  /** After writing under `id`, looking up `id` finds the new entry and every other key finds what it found before. */
  lemma {:induction false} LookupPut(s: seq<Slot>, id: string, e: CacheEntry, x: string)
    ensures Lookup(Put(s, id, e), x) == if x == id then Some(e) else Lookup(s, x)
  {
    if |s| > 0 && s[0].id != id {
      LookupPut(s[1..], id, e, x);
    }
  }

  // ---- cleanupCache ----

  /** The ids deleted for size: those of the `n - 10` least recently used entries, ties in key order. */
  function LruVictims(s: seq<Slot>): set<string> {
    if |s| > MaxCacheSize then Ids(StableSort.Sort(s, LastAccessed)[..|s| - MaxCacheSize]) else {}
  }

  /** Strictly older than the time-to-live. */
  predicate Expired(s: Slot, now: int) {
    now - LastAccessed(s) > CacheTtl
  }

  /**
    `cleanupCache`: first delete the least recently used entries beyond ten,
    then every entry of the same snapshot that has expired. Nothing else
    changes: survivors keep their entry and their order.
   */
  function Cleanup(s: seq<Slot>, now: int): (r: seq<Slot>)
    ensures |r| <= |s|
    ensures forall i :: 0 <= i < |r| ==> r[i] in s && r[i].id !in LruVictims(s) && !Expired(r[i], now)
    ensures forall i :: 0 <= i < |s| && s[i].id !in LruVictims(s) && !Expired(s[i], now) ==> s[i] in r
    ensures DistinctIds(s) ==> DistinctIds(r)
  {
    var victims := LruVictims(s);
    var keep := (x: Slot) => x.id !in victims && !Expired(x, now);
    FilterDistinct(s, keep);
    FilterContents(s, keep);
    Filter(s, keep)
  }

  /** With at most ten entries, none of them expired, a cleanup deletes nothing. */
  lemma CleanupKeepsAll(s: seq<Slot>, now: int)
    requires |s| <= MaxCacheSize
    requires forall i :: 0 <= i < |s| ==> !Expired(s[i], now)
    ensures Cleanup(s, now) == s
  {
    var victims := LruVictims(s);
    FilterAll(s, (x: Slot) => x.id !in victims && !Expired(x, now));
  }

  lemma InSorted(s: seq<Slot>, x: Slot)
    requires x in s
    ensures exists m :: 0 <= m < |s| && StableSort.Sort(s, LastAccessed)[m] == x
  {
    assert x in multiset(s);
    assert x in multiset(StableSort.Sort(s, LastAccessed));
  }

  lemma FromSorted(s: seq<Slot>, m: int)
    requires 0 <= m < |s|
    ensures StableSort.Sort(s, LastAccessed)[m] in s
  {
    var sorted := StableSort.Sort(s, LastAccessed);
    assert sorted[m] in multiset(sorted);
  }

  /** Every entry in the first `n - 10` places of the recency order is a victim. */
  lemma VictimsAreOldest(s: seq<Slot>)
    requires |s| > MaxCacheSize
    ensures var sorted := StableSort.Sort(s, LastAccessed);
      forall m :: 0 <= m < |s| - MaxCacheSize ==> sorted[m].id in LruVictims(s)
  {
    var sorted := StableSort.Sort(s, LastAccessed);
    var head := sorted[..|s| - MaxCacheSize];
    forall m | 0 <= m < |s| - MaxCacheSize ensures sorted[m].id in LruVictims(s) {
      assert head[m] == sorted[m];
    }
  }

  /** After a cleanup at most ten entries remain. */
  lemma CleanupBounded(s: seq<Slot>, now: int)
    requires DistinctIds(s)
    ensures |Cleanup(s, now)| <= MaxCacheSize
  {
    var r := Cleanup(s, now);
    if |s| > MaxCacheSize {
      IdsOfDistinct(r);
      var tail := StableSort.Sort(s, LastAccessed)[|s| - MaxCacheSize..];
      SurvivorsAreNewest(s, now);
      SubsetCard(Ids(r), Ids(tail));
    }
  }

  /** Whatever survives a cleanup sits in the last ten places of the recency order. */
  lemma SurvivorsAreNewest(s: seq<Slot>, now: int)
    requires |s| > MaxCacheSize
    ensures Ids(Cleanup(s, now)) <= Ids(StableSort.Sort(s, LastAccessed)[|s| - MaxCacheSize..])
  {
    var r := Cleanup(s, now);
    forall id | id in Ids(r) ensures id in Ids(StableSort.Sort(s, LastAccessed)[|s| - MaxCacheSize..]) {
      var k :| 0 <= k < |r| && r[k].id == id;
      NonVictimIsNewest(s, r[k]);
    }
  }

  /** An entry that is not a victim is found in the last ten places of the recency order. */
  lemma NonVictimIsNewest(s: seq<Slot>, x: Slot)
    requires |s| > MaxCacheSize && x in s && x.id !in LruVictims(s)
    ensures exists m :: |s| - MaxCacheSize <= m < |s| && StableSort.Sort(s, LastAccessed)[m] == x
    ensures x.id in Ids(StableSort.Sort(s, LastAccessed)[|s| - MaxCacheSize..])
  {
    var sorted := StableSort.Sort(s, LastAccessed);
    InSorted(s, x);
    VictimsAreOldest(s);
    var m :| 0 <= m < |s| && sorted[m] == x;
    var tail := sorted[|s| - MaxCacheSize..];
    assert tail[m - (|s| - MaxCacheSize)] == x;
  }

  /** A victim is found in the first `n - 10` places of the recency order. */
  lemma VictimIsOldest(s: seq<Slot>, i: int)
    requires DistinctIds(s) && 0 <= i < |s| && s[i].id in LruVictims(s)
    ensures exists k :: 0 <= k < |s| - MaxCacheSize && StableSort.Sort(s, LastAccessed)[k] == s[i]
  {
    var sorted := StableSort.Sort(s, LastAccessed);
    var head := sorted[..|s| - MaxCacheSize];
    var k :| 0 <= k < |head| && head[k].id == s[i].id;
    FromSorted(s, k);
    var i2 :| 0 <= i2 < |s| && s[i2] == sorted[k];
    assert s[i2].id == s[i].id;
    assert i2 == i;
  }

  lemma SubsetCard<T>(a: set<T>, b: set<T>)
    requires a <= b
    ensures |a| <= |b|
  {
    assert b == a + (b - a);
  }

  /** Size eviction takes the oldest first: no deleted entry was used more recently than a kept one. */
  lemma CleanupEvictsOldest(s: seq<Slot>, i: int, j: int)
    requires DistinctIds(s)
    requires 0 <= i < |s| && 0 <= j < |s|
    requires s[i].id in LruVictims(s) && s[j].id !in LruVictims(s)
    ensures LastAccessed(s[i]) <= LastAccessed(s[j])
  {
    var sorted := StableSort.Sort(s, LastAccessed);
    VictimIsOldest(s, i);
    NonVictimIsNewest(s, s[j]);
    var k :| 0 <= k < |s| - MaxCacheSize && sorted[k] == s[i];
    var m :| |s| - MaxCacheSize <= m < |s| && sorted[m] == s[j];
    assert StableSort.SortedBy(sorted, LastAccessed);
  }

  /**
    With every other entry last used strictly before `now`, an entry written
    at `now` survives the cleanup that follows it.
   */
  lemma FreshEntrySurvives(s: seq<Slot>, x: Slot, now: int)
    requires DistinctIds(s) && x in s && LastAccessed(x) == now
    requires forall i :: 0 <= i < |s| && s[i].id != x.id ==> LastAccessed(s[i]) < now
    ensures x in Cleanup(s, now)
  {
    var xi :| 0 <= xi < |s| && s[xi] == x;
    if x.id in LruVictims(s) {
      SomeSlotKept(s);
      var j :| 0 <= j < |s| && s[j].id !in LruVictims(s);
      CleanupEvictsOldest(s, xi, j);
    }
  }

  /** Size eviction never takes every entry: with distinct ids at least ten are kept. */
  lemma SomeSlotKept(s: seq<Slot>)
    requires DistinctIds(s) && |s| > MaxCacheSize
    ensures exists j :: 0 <= j < |s| && s[j].id !in LruVictims(s)
  {
    var victims := LruVictims(s);
    assert |victims| <= |s| - MaxCacheSize;
    IdsOfDistinct(s);
    var ids := Ids(s);
    SubsetCard(ids * victims, victims);
    assert ids == (ids - victims) + (ids * victims);
    assert |ids - victims| > 0;
    var id :| id in ids - victims;
    var j :| 0 <= j < |s| && s[j].id == id;
  }

  // ---- The manager's state ----

  /**
    The properties of an item the manager never reads (volume, playback rate,
    `trim.to`, name and every other field), kept so that deep equality sees
    a change to any of them.
   */
  datatype ItemRest = ItemRest(volume: Option<real>, playbackRate: Option<real>, trimTo: Option<int>, others: map<string, string>)

  /** A video or audio track item: the fields the manager reads and the rest; `==` is lodash's `isEqual`. */
  datatype MediaItem = MediaItem(id: string, src: string, displayFrom: int, displayTo: int, trimFrom: Option<int>, rest: ItemRest)

  datatype MemoEntry = MemoEntry(frame: int, bars: Bars)

  datatype Manager = Manager(
    fps: int,
    items: seq<MediaItem>,
    slots: seq<Slot>,
    memo: seq<MemoEntry>,
    suppressed: set<string>)

  /** The frame memo has at most one entry per frame and at most 100 entries. */
  predicate MemoValid(memo: seq<MemoEntry>) {
    && |memo| <= MaxFrameMemo
    && forall i, j :: 0 <= i < j < |memo| ==> memo[i].frame != memo[j].frame
  }

  predicate Valid(m: Manager) {
    DistinctIds(m.slots) && MemoValid(m.memo)
  }

  /** A fresh manager: 30 fps, nothing loaded. */
  function Initial(): (m: Manager)
    ensures Valid(m)
  {
    Manager(30, [], [], [], {})
  }

  /**
    The world a load runs in: the browser (for the proxy rewrite), the
    percent-encoder, `getAudioData` (`None` when it rejects) and the clock.
   */
  datatype Env = Env(
    browser: SourceWindow.Browser,
    encode: string -> string,
    decode: string -> Option<AudioData>,
    now: int)

  /** `toEffectiveSrc`: the same rewrite as the preview video's. */
  function Effective(src: string, env: Env): string {
    SourceWindow.EffectiveSrc(src, env.browser, env.encode)
  }

  /** The load is skipped outright because its effective source failed before. */
  predicate Skips(m: Manager, src: string, env: Env) {
    Effective(src, env) in m.suppressed
  }

  /** `getAudioData` resolves for the source's effective URL. */
  predicate Decodes(src: string, env: Env) {
    env.decode(Effective(src, env)).Some?
  }

  /** The entry a successful load of `src` writes: the decoded data, used at `now`. */
  function Decoded(src: string, env: Env): CacheEntry
    requires Decodes(src, env)
  {
    CacheEntry(env.decode(Effective(src, env)).value, env.now)
  }

  /**
    `loadAudioData`, which never throws: a suppressed effective source is
    skipped; a decoded source is stored under `id` at `now` and the cache is
    cleaned; a failure stores nothing and records the RAW source.
   */
  function Load(m: Manager, src: string, id: string, env: Env): (r: Manager)
    requires DistinctIds(m.slots)
    ensures DistinctIds(r.slots)
    ensures r.fps == m.fps && r.items == m.items && r.memo == m.memo
    ensures Skips(m, src, env) ==> r == m
    ensures r.suppressed == m.suppressed || r.suppressed == m.suppressed + {src}
    ensures r.suppressed != m.suppressed ==> r.slots == m.slots && env.decode(Effective(src, env)).None?
    ensures forall i :: 0 <= i < |r.slots| ==>
      r.slots[i] in m.slots || (r.slots[i].id == id && LastAccessed(r.slots[i]) == env.now)
    ensures r.slots != m.slots ==> |r.slots| <= MaxCacheSize
    ensures !Skips(m, src, env) && !Decodes(src, env) ==> r == m.(suppressed := m.suppressed + {src})
    ensures !Skips(m, src, env) && Decodes(src, env) ==>
      r == m.(slots := Cleanup(Put(m.slots, id, Decoded(src, env)), env.now))
  {
    var effective := Effective(src, env);
    if effective in m.suppressed then m
    else
      match env.decode(effective)
      case Some(data) =>
        var put := Put(m.slots, id, CacheEntry(data, env.now));
        PutDistinct(m.slots, id, CacheEntry(data, env.now));
        CleanupBounded(put, env.now);
        m.(slots := Cleanup(put, env.now))
      case None => m.(suppressed := m.suppressed + {src})
  }

  /**
    A successful load is visible afterwards when every other entry was last
    used before `now`: the entry under `id` is the decoded data at `now`.
   */
  lemma LoadStores(m: Manager, src: string, id: string, env: Env)
    requires DistinctIds(m.slots) && !Skips(m, src, env) && env.decode(Effective(src, env)).Some?
    requires forall i :: 0 <= i < |m.slots| && m.slots[i].id != id ==> LastAccessed(m.slots[i]) < env.now
    ensures Lookup(Load(m, src, id, env).slots, id) == Some(CacheEntry(env.decode(Effective(src, env)).value, env.now))
  {
    var e := CacheEntry(env.decode(Effective(src, env)).value, env.now);
    var put := Put(m.slots, id, e);
    PutDistinct(m.slots, id, e);
    forall i | 0 <= i < |put| && put[i].id != id ensures LastAccessed(put[i]) < env.now {
      var k :| 0 <= k < |m.slots| && m.slots[k] == put[i];
    }
    FreshEntrySurvives(put, Slot(id, e), env.now);
    var r := Cleanup(put, env.now);
    var k :| 0 <= k < |r| && r[k] == Slot(id, e);
    LookupFinds(r, id);
  }

  /**
    After a failed load the next load of the same source is skipped exactly
    when the source was not rewritten: the skip test reads the effective
    source, the failure records the raw one.
   */
  lemma SuppressionOnlySameOrigin(m: Manager, src: string, id: string, env: Env)
    requires DistinctIds(m.slots) && !Skips(m, src, env) && env.decode(Effective(src, env)).None?
    ensures src in Load(m, src, id, env).suppressed
    ensures Skips(Load(m, src, id, env), src, env) <==> Effective(src, env) == src
  {
  }

  /** A sequence of slots drawn from another has no ids the other lacks. */
  lemma IdsSubset(a: seq<Slot>, b: seq<Slot>)
    requires forall i :: 0 <= i < |a| ==> a[i] in b
    ensures Ids(a) <= Ids(b)
  {
    forall id | id in Ids(a) ensures id in Ids(b) {
      var i :| 0 <= i < |a| && a[i].id == id;
      var j :| 0 <= j < |b| && b[j] == a[i];
    }
  }

  /** Keeps the slots whose id is not in `ids`. */
  function Outside(ids: set<string>): Slot -> bool {
    (s: Slot) => s.id !in ids
  }

  /** The ids a list names, as a set. */
  function Elems(s: seq<string>): set<string> {
    if |s| == 0 then {} else Elems(s[..|s| - 1]) + {s[|s| - 1]}
  }

  lemma {:induction false} ElemsMembership(s: seq<string>, x: string)
    ensures x in Elems(s) <==> x in s
  {
    if |s| > 0 {
      ElemsMembership(s[..|s| - 1], x);
      assert s == s[..|s| - 1] + [s[|s| - 1]];
    }
  }

  /** `removeItem`: drop the entry under `id` and clear the frame memo; every other key keeps its entry. */
  function RemoveItem(m: Manager, id: string): (r: Manager)
    ensures forall x :: Lookup(r.slots, x) == if x == id then None else Lookup(m.slots, x)
    ensures DistinctIds(m.slots) ==> DistinctIds(r.slots)
    ensures r.memo == [] && r.items == m.items && r.fps == m.fps && r.suppressed == m.suppressed
  {
    FilterDistinct(m.slots, Outside({id}));
    LookupFilterOutside(m.slots, {id});
    m.(slots := Filter(m.slots, Outside({id})), memo := [])
  }

  /** One more `removeItem` extends the removed prefix of `ids` by one. */
  lemma RemoveStep(s: seq<Slot>, ids: seq<string>, i: nat)
    requires i < |ids|
    ensures Filter(Filter(s, Outside(Elems(ids[..i]))), Outside({ids[i]})) == Filter(s, Outside(Elems(ids[..i + 1])))
  {
    FilterOutsideTwice(s, Elems(ids[..i]), {ids[i]});
    assert ids[..i + 1][..i] == ids[..i];
  }

  /** Removing the ids of `a` and then those of `b` removes the ids of both. */
  lemma {:induction false} FilterOutsideTwice(s: seq<Slot>, a: set<string>, b: set<string>)
    ensures Filter(Filter(s, Outside(a)), Outside(b)) == Filter(s, Outside(a + b))
  {
    if |s| > 0 {
      FilterOutsideTwice(s[1..], a, b);
      var once := Filter(s, Outside(a));
      if s[0].id !in a {
        assert once == [s[0]] + Filter(s[1..], Outside(a));
        assert once[1..] == Filter(s[1..], Outside(a));
      } else {
        assert once == Filter(s[1..], Outside(a));
      }
    }
  }

  function ItemIds(items: seq<MediaItem>): (r: seq<string>)
    ensures |r| == |items|
    ensures forall i :: 0 <= i < |items| ==> r[i] == items[i].id
  {
    if |items| == 0 then [] else [items[0].id] + ItemIds(items[1..])
  }

  /** `items.find(item => item.id === id)?.details.src`: the source of the first item with this id, `""` when there is none. */
  function SourceOf(items: seq<MediaItem>, id: string): string {
    if |items| == 0 then ""
    else if items[0].id == id then items[0].src
    else SourceOf(items[1..], id)
  }

  /**
    Loading `id` succeeds: its item has a source, the source was not
    suppressed, and it decodes. Suppression only grows, so naming the final
    suppressed set here covers every earlier one.
   */
  predicate LoadSucceeds(items: seq<MediaItem>, id: string, suppressed: set<string>, env: Env) {
    var src := SourceOf(items, id);
    src != "" && Effective(src, env) !in suppressed && Decodes(src, env)
  }

  /**
    No cleanup can evict: there is room for `extra` more entries and nothing
    has expired. Under it every load only adds or overwrites.
   */
  predicate Roomy(slots: seq<Slot>, extra: nat, now: int) {
    && |slots| + extra <= MaxCacheSize
    && forall i :: 0 <= i < |slots| ==> !Expired(slots[i], now)
  }

  /**
    `setItems`: delete the entries of ids that left, load (one after the
    other) every newly added id whose item has a source, take the new list
    and clear the frame memo. When no cleanup can evict, an id present in
    both lists or in neither keeps its entry, and every added id whose load
    succeeds holds its freshly decoded data.
   */
  method SetItems(m: Manager, items: seq<MediaItem>, env: Env) returns (r: Manager)
    requires DistinctIds(m.slots)
    ensures r.items == items && r.memo == [] && r.fps == m.fps
    ensures DistinctIds(r.slots) && m.suppressed <= r.suppressed
    ensures forall id :: id in ItemIds(m.items) && id !in ItemIds(items) ==> Lookup(r.slots, id).None?
    ensures forall i :: 0 <= i < |r.slots| ==> (r.slots[i] in m.slots
      || (r.slots[i].id in ItemIds(items) && r.slots[i].id !in ItemIds(m.items) && LastAccessed(r.slots[i]) == env.now))
    ensures Roomy(m.slots, |items|, env.now) ==>
      forall id :: (id in ItemIds(m.items) <==> id in ItemIds(items)) ==> Lookup(r.slots, id) == Lookup(m.slots, id)
    ensures Roomy(m.slots, |items|, env.now) ==>
      forall id :: (id in ItemIds(items) && id !in ItemIds(m.items) && LoadSucceeds(items, id, r.suppressed, env))
        ==> Lookup(r.slots, id) == Some(Decoded(SourceOf(items, id), env))
  {
    var newIds := ItemIds(items);
    var currentIds := ItemIds(m.items);
    var leaving := (id: string) => id !in newIds;
    var arriving := (id: string) => id !in currentIds;
    var removeIds := Filter(currentIds, leaving);
    var addIds := Filter(newIds, arriving);
    var removed := RemoveAll(m, removeIds);
    FilterContents(m.slots, Outside(Elems(removeIds)));
    var roomy := Roomy(m.slots, |items|, env.now);
    if roomy {
      RoomySubset(m.slots, removed.slots, |items|, |addIds|, env.now);
    }
    var loaded := LoadAdded(removed, items, addIds, env);
    LookupFilterOutside(m.slots, Elems(removeIds));
    forall id | id in currentIds && id !in newIds ensures Lookup(loaded.slots, id).None? {
      FilterMembership(currentIds, leaving, id);
      ElemsMembership(removeIds, id);
      FilterMembership(newIds, arriving, id);
      AbsentStaysAbsent(removed.slots, loaded.slots, addIds, env.now, id);
    }
    forall i | 0 <= i < |loaded.slots| ensures loaded.slots[i] in m.slots
      || (loaded.slots[i].id in newIds && loaded.slots[i].id !in currentIds && LastAccessed(loaded.slots[i]) == env.now)
    {
      if loaded.slots[i] !in removed.slots {
        FilterMembership(newIds, arriving, loaded.slots[i].id);
      }
    }
    if roomy {
      forall id ensures id in Elems(removeIds) <==> id in currentIds && id !in newIds {
        ElemsMembership(removeIds, id);
        FilterMembership(currentIds, leaving, id);
      }
      forall id ensures id in addIds <==> id in newIds && id !in currentIds {
        FilterMembership(newIds, arriving, id);
      }
      SetItemsRoomy(m.slots, removed.slots, loaded, items, currentIds, newIds, Elems(removeIds), addIds, env);
    }
    r := loaded.(items := items, memo := []);
  }

  /** The lookups `setItems` promises when no cleanup can evict, from what its two loops promise. */
  lemma SetItemsRoomy(
    before: seq<Slot>, removed: seq<Slot>, loaded: Manager, items: seq<MediaItem>,
    currentIds: seq<string>, newIds: seq<string>, gone: set<string>, addIds: seq<string>, env: Env)
    requires forall id :: id in gone <==> id in currentIds && id !in newIds
    requires forall id :: id in addIds <==> id in newIds && id !in currentIds
    requires forall x :: Lookup(removed, x) == if x in gone then None else Lookup(before, x)
    requires forall x :: x !in addIds ==> Lookup(loaded.slots, x) == Lookup(removed, x)
    requires forall k :: 0 <= k < |addIds| && LoadSucceeds(items, addIds[k], loaded.suppressed, env) ==>
      Lookup(loaded.slots, addIds[k]) == Some(Decoded(SourceOf(items, addIds[k]), env))
    ensures forall id :: (id in currentIds <==> id in newIds) ==> Lookup(loaded.slots, id) == Lookup(before, id)
    ensures forall id ::
              id in newIds && id !in currentIds && LoadSucceeds(items, id, loaded.suppressed, env) ==>
              Lookup(loaded.slots, id) == Some(Decoded(SourceOf(items, id), env))
  {
    forall id | id in newIds && id !in currentIds && LoadSucceeds(items, id, loaded.suppressed, env)
      ensures Lookup(loaded.slots, id) == Some(Decoded(SourceOf(items, id), env))
    {
      var k :| 0 <= k < |addIds| && addIds[k] == id;
    }
  }

  /** A key absent before a run of loads that never wrote it is absent after. */
  lemma AbsentStaysAbsent(before: seq<Slot>, after: seq<Slot>, added: seq<string>, now: int, id: string)
    requires forall k :: 0 <= k < |after| ==> after[k] in before || (after[k].id in added && LastAccessed(after[k]) == now)
    requires Lookup(before, id).None? && id !in added
    ensures Lookup(after, id).None?
  {
    LookupFinds(before, id);
    LookupFinds(after, id);
  }

  /** Fewer entries, all drawn from a roomy cache, with fewer loads to come, are roomy too. */
  lemma RoomySubset(a: seq<Slot>, b: seq<Slot>, extraA: nat, extraB: nat, now: int)
    requires Roomy(a, extraA, now) && |b| <= |a| && extraB <= extraA
    requires forall k :: 0 <= k < |b| ==> b[k] in a
    ensures Roomy(b, extraB, now)
  {
    forall k | 0 <= k < |b| ensures !Expired(b[k], now) {
      var j :| 0 <= j < |a| && a[j] == b[k];
    }
  }

  /** The first loop of `setItems`: `removeItem` for each id in turn, which keeps exactly the other ids' slots. */
  method RemoveAll(m: Manager, ids: seq<string>) returns (r: Manager)
    requires DistinctIds(m.slots)
    ensures r.fps == m.fps && r.items == m.items && r.suppressed == m.suppressed && DistinctIds(r.slots)
    ensures r.slots == Filter(m.slots, Outside(Elems(ids)))
    ensures r.memo == if |ids| == 0 then m.memo else []
  {
    r := m;
    var i := 0;
    FilterAll(m.slots, Outside({}));
    while i < |ids|
      invariant 0 <= i <= |ids|
      invariant r.fps == m.fps && r.items == m.items && r.suppressed == m.suppressed
      invariant r.slots == Filter(m.slots, Outside(Elems(ids[..i])))
      invariant r.memo == if i == 0 then m.memo else []
    {
      RemoveStep(m.slots, ids, i);
      r := RemoveItem(r, ids[i]);
      i := i + 1;
    }
    assert ids[..|ids|] == ids;
    FilterDistinct(m.slots, Outside(Elems(ids)));
  }

  /** Removing the ids of `gone` empties exactly their keys and leaves every other key's entry. */
  lemma {:induction false} LookupFilterOutside(s: seq<Slot>, gone: set<string>)
    ensures forall x :: Lookup(Filter(s, Outside(gone)), x) == if x in gone then None else Lookup(s, x)
  {
    if |s| > 0 {
      LookupFilterOutside(s[1..], gone);
      if s[0].id !in gone {
        assert Filter(s, Outside(gone)) == [s[0]] + Filter(s[1..], Outside(gone));
      } else {
        assert Filter(s, Outside(gone)) == Filter(s[1..], Outside(gone));
      }
    }
  }

  /** The slots written at `now`. */
  function SlotsAt(s: seq<Slot>, now: int): (r: seq<Slot>)
    ensures forall i :: 0 <= i < |r| ==> r[i] in s && LastAccessed(r[i]) == now
    ensures forall i :: 0 <= i < |s| && LastAccessed(s[i]) == now ==> s[i] in r
  {
    FilterContents(s, (x: Slot) => LastAccessed(x) == now);
    Filter(s, (x: Slot) => LastAccessed(x) == now)
  }

  /**
    The second loop of `setItems`: load each added id whose item (the first
    with that id) has a source. Entries only come from loads, suppression
    only grows, and an id list without sources changes nothing. When no
    cleanup can evict, every other key keeps its entry and every id whose
    load succeeds holds its freshly decoded data.
   */
  method LoadAdded(m: Manager, items: seq<MediaItem>, ids: seq<string>, env: Env) returns (r: Manager)
    requires DistinctIds(m.slots)
    ensures r.fps == m.fps && r.items == m.items && r.memo == m.memo && DistinctIds(r.slots)
    ensures m.suppressed <= r.suppressed
    ensures forall k :: 0 <= k < |r.slots| ==> r.slots[k] in m.slots || (r.slots[k].id in ids && LastAccessed(r.slots[k]) == env.now)
    ensures (forall k :: 0 <= k < |ids| ==> SourceOf(items, ids[k]) == "") ==> r == m
    ensures Roomy(m.slots, |ids|, env.now) ==>
      forall x :: x !in ids ==> Lookup(r.slots, x) == Lookup(m.slots, x)
    ensures Roomy(m.slots, |ids|, env.now) ==>
      forall k :: 0 <= k < |ids| && LoadSucceeds(items, ids[k], r.suppressed, env) ==>
        Lookup(r.slots, ids[k]) == Some(Decoded(SourceOf(items, ids[k]), env))
  {
    r := m;
    var i := 0;
    var roomy := Roomy(m.slots, |ids|, env.now);
    while i < |ids|
      invariant 0 <= i <= |ids|
      invariant r.fps == m.fps && r.items == m.items && r.memo == m.memo && DistinctIds(r.slots)
      invariant m.suppressed <= r.suppressed
      invariant forall k :: 0 <= k < |r.slots| ==> r.slots[k] in m.slots || (r.slots[k].id in ids && LastAccessed(r.slots[k]) == env.now)
      invariant (forall k :: 0 <= k < i ==> SourceOf(items, ids[k]) == "") ==> r == m
      invariant roomy ==> |r.slots| <= |m.slots| + i
      invariant roomy ==> forall k :: 0 <= k < |r.slots| ==> !Expired(r.slots[k], env.now)
      invariant roomy ==> forall x :: x !in ids ==> Lookup(r.slots, x) == Lookup(m.slots, x)
      invariant roomy ==> forall k :: 0 <= k < i && LoadSucceeds(items, ids[k], r.suppressed, env) ==>
        Lookup(r.slots, ids[k]) == Some(Decoded(SourceOf(items, ids[k]), env))
    {
      var src := SourceOf(items, ids[i]);
      if src != "" {
        var next := Load(r, src, ids[i], env);
        if roomy {
          LoadRoomy(r, src, ids[i], env);
          LoadStepLookups(r, next, items, ids, i, env);
        }
        r := next;
      } else if roomy {
        assert !LoadSucceeds(items, ids[i], r.suppressed, env);
      }
      i := i + 1;
    }
  }

  /** A write of a fresh entry into unexpired slots leaves every slot unexpired. */
  lemma {:induction false} PutKeepsFresh(s: seq<Slot>, id: string, e: CacheEntry, now: int)
    requires forall k :: 0 <= k < |s| ==> !Expired(s[k], now)
    requires !Expired(Slot(id, e), now)
    ensures forall k :: 0 <= k < |Put(s, id, e)| ==> !Expired(Put(s, id, e)[k], now)
  {
    if |s| > 0 && s[0].id != id {
      PutKeepsFresh(s[1..], id, e, now);
    }
  }

  /** One load when no cleanup can evict: on success it writes its own key, otherwise the slots stay. */
  lemma LoadRoomy(r: Manager, src: string, id: string, env: Env)
    requires DistinctIds(r.slots) && |r.slots| < MaxCacheSize
    requires forall k :: 0 <= k < |r.slots| ==> !Expired(r.slots[k], env.now)
    ensures forall x ::
              Lookup(Load(r, src, id, env).slots, x) ==
              if !Skips(r, src, env) && Decodes(src, env) && x == id then Some(Decoded(src, env)) else Lookup(r.slots, x)
    ensures |Load(r, src, id, env).slots| <= |r.slots| + 1
    ensures forall k :: 0 <= k < |Load(r, src, id, env).slots| ==> !Expired(Load(r, src, id, env).slots[k], env.now)
  {
    if !Skips(r, src, env) && Decodes(src, env) {
      var put := Put(r.slots, id, Decoded(src, env));
      PutKeepsFresh(r.slots, id, Decoded(src, env), env.now);
      CleanupKeepsAll(put, env.now);
      forall x {
        LookupPut(r.slots, id, Decoded(src, env), x);
      }
    }
  }

  /** What one load of `setItems` does to lookups when it cannot evict: only its own key can change, to its data. */
  lemma LoadStepLookups(r: Manager, next: Manager, items: seq<MediaItem>, ids: seq<string>, i: nat, env: Env)
    requires i < |ids| && r.suppressed <= next.suppressed
    requires forall x ::
               Lookup(next.slots, x) ==
               if !Skips(r, SourceOf(items, ids[i]), env) && Decodes(SourceOf(items, ids[i]), env) && x == ids[i]
               then Some(Decoded(SourceOf(items, ids[i]), env)) else Lookup(r.slots, x)
    requires forall k :: 0 <= k < i && LoadSucceeds(items, ids[k], r.suppressed, env) ==>
      Lookup(r.slots, ids[k]) == Some(Decoded(SourceOf(items, ids[k]), env))
    ensures forall x :: x !in ids ==> Lookup(next.slots, x) == Lookup(r.slots, x)
    ensures forall k :: 0 <= k <= i && LoadSucceeds(items, ids[k], next.suppressed, env) ==>
      Lookup(next.slots, ids[k]) == Some(Decoded(SourceOf(items, ids[k]), env))
  {
    assert ids[i] in ids;
    forall k | 0 <= k <= i && LoadSucceeds(items, ids[k], next.suppressed, env)
      ensures Lookup(next.slots, ids[k]) == Some(Decoded(SourceOf(items, ids[k]), env))
    {
      if ids[k] != ids[i] {
        assert LoadSucceeds(items, ids[k], r.suppressed, env);
      }
    }
  }

  /** `this.items.map(item => item.id === newItem.id ? newItem : item)`. */
  function ReplaceById(items: seq<MediaItem>, newItem: MediaItem): (r: seq<MediaItem>)
    ensures |r| == |items|
    ensures forall i {:trigger r[i]} :: 0 <= i < |items| ==> r[i] == (if items[i].id == newItem.id then newItem else items[i])
  {
    if |items| == 0 then []
    else [if items[0].id == newItem.id then newItem else items[0]] + ReplaceById(items[1..], newItem)
  }

  /** An item with the new item's id has a different source, so `updateItem` reloads. */
  predicate SrcChanged(items: seq<MediaItem>, newItem: MediaItem) {
    exists k :: 0 <= k < |items| && items[k].id == newItem.id && items[k].src != newItem.src
  }

  /** At most one item carries `id`, which the editor's unique track-item ids guarantee. */
  predicate AtMostOne(items: seq<MediaItem>, id: string) {
    forall j, k :: 0 <= j < |items| && 0 <= k < |items| && items[j].id == id && items[k].id == id ==> j == k
  }

  /**
    `updateItem`: every item with the new item's id is replaced by it, and
    for each such item whose source differs the new source is loaded under
    that id; the frame memo is cleared.
   */
  method UpdateItem(m: Manager, newItem: MediaItem, env: Env) returns (r: Manager)
    requires DistinctIds(m.slots)
    ensures r.items == ReplaceById(m.items, newItem)
    ensures r.memo == [] && r.fps == m.fps && DistinctIds(r.slots)
    ensures !SrcChanged(m.items, newItem) ==> r == m.(items := ReplaceById(m.items, newItem), memo := [])
    ensures SrcChanged(m.items, newItem) && AtMostOne(m.items, newItem.id) ==>
      var l := Load(m, newItem.src, newItem.id, env); r.slots == l.slots && r.suppressed == l.suppressed
  {
    var st := Reload(m, newItem, env);
    r := st.(items := ReplaceById(m.items, newItem), memo := []);
  }

  /** The loads `updateItem` starts, one per item whose source changes. */
  method Reload(m: Manager, newItem: MediaItem, env: Env) returns (st: Manager)
    requires DistinctIds(m.slots)
    ensures st.fps == m.fps && st.items == m.items && st.memo == m.memo && DistinctIds(st.slots)
    ensures !SrcChanged(m.items, newItem) ==> st == m
    ensures SrcChanged(m.items, newItem) && AtMostOne(m.items, newItem.id) ==> st == Load(m, newItem.src, newItem.id, env)
  {
    st := m;
    var i := 0;
    var loaded := false;
    ghost var changed := 0;
    while i < |m.items|
      invariant 0 <= i <= |m.items|
      invariant st.fps == m.fps && st.items == m.items && st.memo == m.memo && DistinctIds(st.slots)
      invariant !loaded ==> st == m
      invariant !loaded ==> forall k :: 0 <= k < i && m.items[k].id == newItem.id ==> m.items[k].src == newItem.src
      invariant loaded ==> 0 <= changed < i && m.items[changed].id == newItem.id && m.items[changed].src != newItem.src
      invariant loaded && AtMostOne(m.items, newItem.id) ==> st == Load(m, newItem.src, newItem.id, env)
    {
      var item := m.items[i];
      if item.id == newItem.id && item.src != newItem.src {
        st := Load(st, newItem.src, item.id, env);
        if !loaded {
          changed := i;
        }
        loaded := true;
      }
      i := i + 1;
    }
  }

  /** Some current item has `v`'s id but differs from `v`. */
  predicate Stale(items: seq<MediaItem>, v: MediaItem) {
    exists k :: 0 <= k < |items| && items[k] != v && items[k].id == v.id
  }

  /**
    `validateUpdateItems`: for each given item, update once for every current
    item with its id that is not deep-equal to it.
   */
  method ValidateUpdateItems(m: Manager, vs: seq<MediaItem>, env: Env) returns (r: Manager)
    requires DistinctIds(m.slots)
    ensures DistinctIds(r.slots) && r.fps == m.fps
    ensures r.items == ReplaceAll(m.items, vs)
    ensures (forall j :: 0 <= j < |vs| ==> !Stale(m.items, vs[j])) ==> r == m
    ensures (exists j :: 0 <= j < |vs| && Stale(m.items, vs[j])) ==> r.memo == []
    ensures NoSrcChange(m.items, vs) ==> r.slots == m.slots && r.suppressed == m.suppressed
    ensures UniqueIds(m.items, vs) ==>
      var l := Reloads(m, vs, env); r.slots == l.slots && r.suppressed == l.suppressed
  {
    r := m;
    var j := 0;
    var cleared := false;
    while j < |vs|
      invariant 0 <= j <= |vs|
      invariant DistinctIds(r.slots) && r.fps == m.fps
      invariant r.items == ReplaceAll(m.items, vs[..j])
      invariant cleared == AnyStale(m.items, vs[..j])
      invariant !cleared ==> r == m
      invariant cleared ==> r.memo == []
      invariant NoSrcChange(m.items, vs) ==> r.slots == m.slots && r.suppressed == m.suppressed
      invariant UniqueIds(m.items, vs) ==>
        var l := Reloads(m, vs[..j], env); r.slots == l.slots && r.suppressed == l.suppressed
    {
      var stale := Stale(m.items, vs[j]);
      ReplaceAllStep(m.items, vs, j, r.items);
      AnyStaleStep(m.items, vs, j);
      ReloadsStep(m, vs, j, env);
      if NoSrcChange(m.items, vs) {
        NoSrcChangeStep(m.items, vs, j);
      }
      if UniqueIds(m.items, vs) {
        ReplaceAllKeepsIds(m.items, vs[..j]);
        AtMostOneKept(m.items, r.items, vs[j].id);
        LoadAgrees(r, Reloads(m, vs[..j], env), vs[j].src, vs[j].id, env);
      }
      r := UpdateEach(r, vs[j], env);
      cleared := cleared || stale;
      j := j + 1;
    }
    assert vs[..|vs|] == vs;
    AnyStaleSome(m.items, vs);
  }

  /** No given item changes the src of a current item with its id. */
  predicate NoSrcChange(items: seq<MediaItem>, vs: seq<MediaItem>) {
    forall j, k :: 0 <= j < |vs| && 0 <= k < |items| && items[k].id == vs[j].id ==> items[k].src == vs[j].src
  }

  /** Each given item's id is carried by at most one current item. */
  predicate UniqueIds(items: seq<MediaItem>, vs: seq<MediaItem>) {
    forall j :: 0 <= j < |vs| ==> AtMostOne(items, vs[j].id)
  }

  /**
    The cache after `validateUpdateItems(vs)`: for each given item in turn,
    one load of its src under its id when the items, as replaced so far,
    give that id a different src.
   */
  function Reloads(m: Manager, vs: seq<MediaItem>, env: Env): (r: Manager)
    requires DistinctIds(m.slots)
    ensures DistinctIds(r.slots) && r.items == m.items
  {
    if |vs| == 0 then m
    else
      var init, v := vs[..|vs| - 1], vs[|vs| - 1];
      var p := Reloads(m, init, env);
      if SrcChanged(ReplaceAll(m.items, init), v) then Load(p, v.src, v.id, env) else p
  }

  /** One more given item: one more load when its src changes. */
  lemma ReloadsStep(m: Manager, vs: seq<MediaItem>, j: int, env: Env)
    requires DistinctIds(m.slots) && 0 <= j < |vs|
    ensures var p := Reloads(m, vs[..j], env);
      Reloads(m, vs[..j + 1], env)
      == if SrcChanged(ReplaceAll(m.items, vs[..j]), vs[j]) then Load(p, vs[j].src, vs[j].id, env) else p
  {
    assert vs[..j + 1][..j] == vs[..j];
  }

  /** A load reads only the entries and the suppressed set, so managers agreeing on both load alike. */
  lemma LoadAgrees(a: Manager, b: Manager, src: string, id: string, env: Env)
    requires DistinctIds(a.slots) && a.slots == b.slots && a.suppressed == b.suppressed
    ensures Load(a, src, id, env).slots == Load(b, src, id, env).slots
    ensures Load(a, src, id, env).suppressed == Load(b, src, id, env).suppressed
  {
  }

  /** Replacing by id keeps every item's id in its place. */
  lemma {:induction false} ReplaceAllKeepsIds(items: seq<MediaItem>, vs: seq<MediaItem>)
    ensures |ReplaceAll(items, vs)| == |items|
    ensures forall i :: 0 <= i < |items| ==> ReplaceAll(items, vs)[i].id == items[i].id
  {
    if |vs| > 0 {
      ReplaceAllKeepsIds(items, vs[..|vs| - 1]);
    }
  }

  /** Lists with the same ids, place by place, agree on whether an id is carried at most once. */
  lemma AtMostOneKept(items: seq<MediaItem>, replaced: seq<MediaItem>, id: string)
    requires |replaced| == |items|
    requires forall i :: 0 <= i < |items| ==> replaced[i].id == items[i].id
    ensures AtMostOne(replaced, id) == AtMostOne(items, id)
  {
  }

  /**
    When no given item changes a src, the items as replaced so far never
    give the next one's id a different src, so no step reloads.
   */
  lemma NoSrcChangeStep(items: seq<MediaItem>, vs: seq<MediaItem>, j: int)
    requires NoSrcChange(items, vs) && 0 <= j < |vs|
    ensures !SrcChanged(ReplaceAll(items, vs[..j]), vs[j])
  {
    var done := ReplaceAll(items, vs[..j]);
    ReplaceAllItems(items, vs[..j]);
    forall k | 0 <= k < |done| && done[k].id == vs[j].id
      ensures done[k].src == vs[j].src
    {
      var last := LastWithId(vs[..j], items[k].id);
      if last >= 0 {
        assert vs[..j][last] == vs[last];
      }
    }
  }

  /** Some element of `vs` is stale against `items`. */
  function AnyStale(items: seq<MediaItem>, vs: seq<MediaItem>): bool {
    |vs| > 0 && (AnyStale(items, vs[..|vs| - 1]) || Stale(items, vs[|vs| - 1]))
  }

  /** One more element of `vs`: stale so far, or stale now. */
  lemma AnyStaleStep(items: seq<MediaItem>, vs: seq<MediaItem>, j: int)
    requires 0 <= j < |vs|
    ensures AnyStale(items, vs[..j + 1]) == (AnyStale(items, vs[..j]) || Stale(items, vs[j]))
  {
    assert vs[..j + 1][..j] == vs[..j];
  }

  /** `AnyStale` holds exactly when some element of `vs` is stale. */
  lemma {:induction false} AnyStaleSome(items: seq<MediaItem>, vs: seq<MediaItem>)
    ensures AnyStale(items, vs) <==> exists j :: 0 <= j < |vs| && Stale(items, vs[j])
  {
    if |vs| > 0 {
      var init := vs[..|vs| - 1];
      AnyStaleSome(items, init);
      if exists j :: 0 <= j < |vs| && Stale(items, vs[j]) {
        var j :| 0 <= j < |vs| && Stale(items, vs[j]);
        if j < |vs| - 1 {
          assert init[j] == vs[j];
        }
      }
      if exists j :: 0 <= j < |init| && Stale(items, init[j]) {
        var j :| 0 <= j < |init| && Stale(items, init[j]);
        assert vs[j] == init[j];
      }
    }
  }

  /** One more element of `vs`: one more replacement. */
  lemma ReplaceAllStep(items: seq<MediaItem>, vs: seq<MediaItem>, j: int, done: seq<MediaItem>)
    requires 0 <= j < |vs| && done == ReplaceAll(items, vs[..j])
    ensures ReplaceById(done, vs[j]) == ReplaceAll(items, vs[..j + 1])
  {
    assert vs[..j + 1][..j] == vs[..j];
  }

  /** Replacing by `v` where nothing is stale against `v` changes nothing. */
  lemma ReplaceFresh(items: seq<MediaItem>, v: MediaItem)
    requires !Stale(items, v)
    ensures ReplaceById(items, v) == items
  {
    var r := ReplaceById(items, v);
    forall i | 0 <= i < |items| ensures r[i] == items[i] {
      if items[i].id == v.id && items[i] != v {
        assert Stale(items, v);
      }
    }
  }

  /** After replacing by `v`, every item with `v`'s id is `v`: nothing is stale and no src differs. */
  lemma ReplacedSettles(items: seq<MediaItem>, v: MediaItem)
    ensures !Stale(ReplaceById(items, v), v) && !SrcChanged(ReplaceById(items, v), v)
    ensures ReplaceById(ReplaceById(items, v), v) == ReplaceById(items, v)
  {
    var r := ReplaceById(items, v);
    forall k | 0 <= k < |r| && r[k].id == v.id
      ensures r[k] == v
    {
      assert items[k].id == v.id;
    }
    ReplaceFresh(r, v);
  }

  /**
    The inner loop of `validateUpdateItems`: one `updateItem(v)` per current
    item `v` makes stale. The first such call replaces the items and starts
    the load; every later one finds the items already replaced.
   */
  method UpdateEach(m: Manager, v: MediaItem, env: Env) returns (r: Manager)
    requires DistinctIds(m.slots)
    ensures DistinctIds(r.slots) && r.fps == m.fps
    ensures r.items == ReplaceById(m.items, v)
    ensures !Stale(m.items, v) ==> r == m
    ensures Stale(m.items, v) ==> r.memo == []
    ensures Stale(m.items, v) && !SrcChanged(m.items, v) ==> r.slots == m.slots && r.suppressed == m.suppressed
    ensures Stale(m.items, v) && SrcChanged(m.items, v) && AtMostOne(m.items, v.id) ==>
      var l := Load(m, v.src, v.id, env); r.slots == l.slots && r.suppressed == l.suppressed
  {
    r := m;
    var i := 0;
    while i < |m.items| && !(m.items[i] != v && m.items[i].id == v.id)
      invariant 0 <= i <= |m.items|
      invariant forall k :: 0 <= k < i && m.items[k].id == v.id ==> m.items[k] == v
    {
      i := i + 1;
    }
    if i == |m.items| {
      ReplaceFresh(m.items, v);
      return;
    }
    r := UpdateItem(m, v, env);
    ghost var first := r;
    ReplacedSettles(m.items, v);
    i := i + 1;
    while i < |m.items|
      invariant r == first
    {
      if m.items[i] != v && m.items[i].id == v.id {
        r := UpdateItem(r, v, env);
      }
      i := i + 1;
    }
  }

  /** The items after `validateUpdateItems(vs)`: replaced by each element of `vs` in turn. */
  function ReplaceAll(items: seq<MediaItem>, vs: seq<MediaItem>): seq<MediaItem> {
    if |vs| == 0 then items else ReplaceById(ReplaceAll(items, vs[..|vs| - 1]), vs[|vs| - 1])
  }

  /** The last position in `vs` with id `id`, or -1 when there is none. */
  function LastWithId(vs: seq<MediaItem>, id: string): (k: int)
    ensures -1 <= k < |vs|
    ensures k >= 0 ==> vs[k].id == id
    ensures forall l :: k < l < |vs| ==> vs[l].id != id
  {
    if |vs| == 0 then -1
    else if vs[|vs| - 1].id == id then |vs| - 1
    else LastWithId(vs[..|vs| - 1], id)
  }

  /**
    After replacing by each of `vs` in turn, an item whose id occurs in `vs`
    is the last element of `vs` with that id, and every other item is
    unchanged, in its place.
   */
  lemma {:induction false} ReplaceAllItems(items: seq<MediaItem>, vs: seq<MediaItem>)
    ensures |ReplaceAll(items, vs)| == |items|
    ensures forall i :: 0 <= i < |items| ==>
              ReplaceAll(items, vs)[i] == (var k := LastWithId(vs, items[i].id); if k < 0 then items[i] else vs[k])
  {
    if |vs| > 0 {
      var init := vs[..|vs| - 1];
      ReplaceAllItems(items, init);
      forall i | 0 <= i < |items|
        ensures ReplaceAll(items, vs)[i] == (var k := LastWithId(vs, items[i].id); if k < 0 then items[i] else vs[k])
      {
        var k0 := LastWithId(init, items[i].id);
        assert k0 >= 0 ==> init[k0] == vs[k0];
      }
    }
  }

  // ---- combineValues ----

  /** `sources.reduce((acc, s) => Math.max(acc, s[i]), 0)`. */
  function ColumnMax(sources: seq<Bars>, i: nat): real
    requires i < NumberOfSamples
  {
    if |sources| == 0 then 0.0
    else
      var acc, x := ColumnMax(sources[..|sources| - 1], i), sources[|sources| - 1][i];
      if acc >= x then acc else x
  }

  /** The fold is the least upper bound of 0 and the column: it bounds each source and is 0 or one of them. */
  lemma {:induction false} ColumnMaxIsMax(sources: seq<Bars>, i: nat)
    requires i < NumberOfSamples
    ensures ColumnMax(sources, i) >= 0.0
    ensures forall j :: 0 <= j < |sources| ==> ColumnMax(sources, i) >= sources[j][i]
    ensures ColumnMax(sources, i) == 0.0 || exists j :: 0 <= j < |sources| && ColumnMax(sources, i) == sources[j][i]
  {
    if |sources| > 0 {
      var init := sources[..|sources| - 1];
      ColumnMaxIsMax(init, i);
      forall j | 0 <= j < |init| ensures init[j] == sources[j] { }
      if ColumnMax(sources, i) != 0.0 && ColumnMax(sources, i) != sources[|sources| - 1][i] {
        var j :| 0 <= j < |init| && ColumnMax(init, i) == init[j][i];
        assert ColumnMax(sources, i) == sources[j][i];
      }
    }
  }

  /** `combineValues(numberOfSamples, sources)`, column by column. */
  method CombineValues(sources: seq<Bars>) returns (r: Bars)
    ensures forall i :: 0 <= i < NumberOfSamples ==> r[i] == ColumnMax(sources, i)
    ensures forall i :: 0 <= i < NumberOfSamples ==> r[i] >= 0.0
    ensures forall i, j :: 0 <= i < NumberOfSamples && 0 <= j < |sources| ==> r[i] >= sources[j][i]
  {
    var out: seq<real> := [];
    var i := 0;
    while i < NumberOfSamples
      invariant 0 <= i <= NumberOfSamples && |out| == i
      invariant forall k :: 0 <= k < i ==> out[k] == ColumnMax(sources, k)
    {
      var acc := 0.0;
      var j := 0;
      while j < |sources|
        invariant 0 <= j <= |sources|
        invariant acc == ColumnMax(sources[..j], i)
      {
        assert sources[..j + 1][..j] == sources[..j];
        acc := if acc >= sources[j][i] then acc else sources[j][i];
        j := j + 1;
      }
      assert sources[..|sources|] == sources;
      out := out + [acc];
      i := i + 1;
    }
    r := out;
    forall i | 0 <= i < NumberOfSamples ensures r[i] >= 0.0 && forall j :: 0 <= j < |sources| ==> r[i] >= sources[j][i] {
      ColumnMaxIsMax(sources, i);
    }
  }

  /** With every source silent the combination is silent. */
  lemma {:induction false} ColumnMaxOfZeros(sources: seq<Bars>, i: nat)
    requires i < NumberOfSamples
    requires forall j :: 0 <= j < |sources| ==> sources[j] == Zeros()
    ensures ColumnMax(sources, i) == 0.0
  {
    if |sources| > 0 {
      ColumnMaxOfZeros(sources[..|sources| - 1], i);
    }
  }

  // ---- getAudioDataForFrame ----

  /** The item's display window, inclusive at both ends, in fractional frames. */
  predicate InWindow(it: MediaItem, frame: int, fps: int) {
    && (it.displayFrom * fps) as real / 1000.0 <= frame as real
    && frame as real <= (it.displayTo * fps) as real / 1000.0
  }

  /** The frame of the source to visualise: local frame plus the trim offset (`trim.from || 0`). */
  function FrameTime(it: MediaItem, frame: int, fps: int): real {
    frame as real - (it.displayFrom * fps) as real / 1000.0 + (it.trimFrom.GetOr(0) * fps) as real / 1000.0
  }

  /** `visualizeAudio({ audioData, frame, fps, numberOfSamples: 512 })`, supplied by the caller. */
  type Visualize = (AudioData, real, int) -> Bars

  /** The bars one item contributes: zeros without decoded data or outside its window. */
  function ItemBars(slots: seq<Slot>, it: MediaItem, frame: int, fps: int, visualize: Visualize): (b: Bars)
    ensures Lookup(slots, it.id).None? || !InWindow(it, frame, fps) ==> b == Zeros()
    ensures Lookup(slots, it.id).Some? && InWindow(it, frame, fps) ==>
      b == visualize(Lookup(slots, it.id).value.data, FrameTime(it, frame, fps), fps)
  {
    var e := Lookup(slots, it.id);
    if e.None? || !InWindow(it, frame, fps) then Zeros()
    else visualize(e.value.data, FrameTime(it, frame, fps), fps)
  }

  function AllBars(slots: seq<Slot>, items: seq<MediaItem>, frame: int, fps: int, visualize: Visualize): (r: seq<Bars>)
    ensures |r| == |items|
    ensures forall k :: 0 <= k < |items| ==> r[k] == ItemBars(slots, items[k], frame, fps, visualize)
  {
    if |items| == 0 then [] else [ItemBars(slots, items[0], frame, fps, visualize)] + AllBars(slots, items[1..], frame, fps, visualize)
  }

  /** Some item with this id was visualised at this frame. */
  predicate Heard(items: seq<MediaItem>, id: string, frame: int, fps: int) {
    exists k :: 0 <= k < |items| && items[k].id == id && InWindow(items[k], frame, fps)
  }

  /** `cache.lastAccessed = Date.now()` for every entry that was visualised. */
  function Touch(slots: seq<Slot>, items: seq<MediaItem>, frame: int, fps: int, now: int): (r: seq<Slot>)
    ensures |r| == |slots|
    ensures forall i :: 0 <= i < |slots| ==> r[i].id == slots[i].id && r[i].entry.data == slots[i].entry.data
    ensures forall i :: 0 <= i < |slots| ==>
      LastAccessed(r[i]) == (if Heard(items, slots[i].id, frame, fps) then now else LastAccessed(slots[i]))
  {
    if |slots| == 0 then []
    else
      var s := slots[0];
      var t := if Heard(items, s.id, frame, fps) then Slot(s.id, s.entry.(lastAccessed := now)) else s;
      [t] + Touch(slots[1..], items, frame, fps, now)
  }

  /** Slot sequences with the same ids position by position have the same id set. */
  lemma {:induction false} SameIds(a: seq<Slot>, b: seq<Slot>)
    requires |a| == |b| && forall i :: 0 <= i < |a| ==> a[i].id == b[i].id
    ensures Ids(a) == Ids(b)
  {
    if |a| > 0 {
      SameIds(a[1..], b[1..]);
    }
  }

  lemma TouchKeepsIds(slots: seq<Slot>, items: seq<MediaItem>, frame: int, fps: int, now: int)
    ensures Ids(Touch(slots, items, frame, fps, now)) == Ids(slots)
    ensures DistinctIds(slots) ==> DistinctIds(Touch(slots, items, frame, fps, now))
  {
    SameIds(Touch(slots, items, frame, fps, now), slots);
  }

  function MemoLookup(memo: seq<MemoEntry>, frame: int): (r: Option<Bars>)
    ensures r.Some? ==> MemoEntry(frame, r.value) in memo
    ensures r.None? ==> forall i :: 0 <= i < |memo| ==> memo[i].frame != frame
  {
    if |memo| == 0 then None
    else if memo[0].frame == frame then Some(memo[0].bars)
    else MemoLookup(memo[1..], frame)
  }

  /** `frameCache.set(frame, bars)` for a new key, then drop the first-inserted key beyond 100. */
  function MemoInsert(memo: seq<MemoEntry>, frame: int, bars: Bars): (r: seq<MemoEntry>)
    requires MemoValid(memo) && MemoLookup(memo, frame).None?
    ensures MemoValid(r)
    ensures MemoLookup(r, frame) == Some(bars)
    ensures |memo| < MaxFrameMemo ==> r == memo + [MemoEntry(frame, bars)]
    ensures |memo| == MaxFrameMemo ==> r == memo[1..] + [MemoEntry(frame, bars)]
  {
    var grown := memo + [MemoEntry(frame, bars)];
    var r := if |grown| > MaxFrameMemo then grown[1..] else grown;
    assert r[|r| - 1] == MemoEntry(frame, bars);
    MemoLookupLast(r, frame, bars);
    r
  }

  lemma {:induction false} MemoLookupLast(memo: seq<MemoEntry>, frame: int, bars: Bars)
    requires |memo| > 0 && memo[|memo| - 1] == MemoEntry(frame, bars)
    requires forall i :: 0 <= i < |memo| - 1 ==> memo[i].frame != frame
    ensures MemoLookup(memo, frame) == Some(bars)
  {
    if |memo| > 1 {
      MemoLookupLast(memo[1..], frame, bars);
    }
  }

  /**
    `getAudioDataForFrame`: a memoised frame is answered from the memo with
    no other effect. Otherwise each item contributes its visualisation (zeros
    without data or outside its window), the bars are the column-wise maximum
    with 0, visualised entries are marked used at `now`, and the answer is
    memoised.
   */
  method GetAudioDataForFrame(m: Manager, frame: int, now: int, visualize: Visualize) returns (r: Manager, bars: Bars)
    requires Valid(m)
    ensures Valid(r)
    ensures MemoLookup(m.memo, frame).Some? ==> bars == MemoLookup(m.memo, frame).value && r == m
    ensures MemoLookup(m.memo, frame).None? ==>
      && MemoLookup(r.memo, frame) == Some(bars)
      && r.memo == MemoInsert(m.memo, frame, bars)
      && r.items == m.items && r.fps == m.fps && r.suppressed == m.suppressed
      && r.slots == Touch(m.slots, m.items, frame, m.fps, now)
      && forall i :: 0 <= i < NumberOfSamples ==> bars[i] == ColumnMax(AllBars(m.slots, m.items, frame, m.fps, visualize), i)
  {
    var hit := MemoLookup(m.memo, frame);
    if hit.Some? {
      return m, hit.value;
    }
    var sources := AllBars(m.slots, m.items, frame, m.fps, visualize);
    bars := CombineValues(sources);
    TouchKeepsIds(m.slots, m.items, frame, m.fps, now);
    r := m.(slots := Touch(m.slots, m.items, frame, m.fps, now), memo := MemoInsert(m.memo, frame, bars));
  }

  /** A frame where no item has decoded data inside its window is all zeros. */
  lemma SilentFrame(m: Manager, frame: int, visualize: Visualize, i: nat)
    requires i < NumberOfSamples
    requires forall k :: 0 <= k < |m.items| ==> Lookup(m.slots, m.items[k].id).None? || !InWindow(m.items[k], frame, m.fps)
    ensures ColumnMax(AllBars(m.slots, m.items, frame, m.fps, visualize), i) == 0.0
  {
    ColumnMaxOfZeros(AllBars(m.slots, m.items, frame, m.fps, visualize), i);
  }
}

=== FILE: caption.dfy ===
/**
  Caption word highlighting (`RenderCaption`): the caption's clock is derived
  from the frame, and every word is coloured by where that clock stands
  relative to the word's `[start, end)` window.
 */
module Caption {
  import opened Common
  import FrameMath

  /** A transcribed word; `start` and `end` are milliseconds on the master timeline. */
  datatype CaptionWord = CaptionWord(word: string, start: real, end: real, isKeyword: bool)

  /**
    The caption `details` the renderer reads. Optional colours are `""` when
    unset; `fontSize` is 0 when unset (both are falsy, which is all the code
    asks of them).
   */
  datatype CaptionDetails = CaptionDetails(
    words: seq<CaptionWord>,
    fontFamily: string,
    fontSize: real,
    color: string,
    activeColor: string,
    activeFillColor: string,
    appearedColor: string,
    backgroundColor: string,
    borderWidth: real,
    borderColor: string,
    isKeywordColor: string,
    preservedColorKeyWord: bool)

  /**
    The clock formula of `RenderCaption` in milliseconds, applied to the
    frame `frame` it is given: the display start plus the time elapsed since
    the caption's start frame. Whatever the origin of `frame`, the clock
    falls inside that frame's own millisecond interval. A caption is only
    rendered inside a `Sequence` of positive length, which needs a nonzero
    frame rate.
   */
  function CurrentTime(displayFrom: int, frame: int, fps: int): (t: real)
    requires fps != 0
    ensures fps > 0 ==> (frame * 1000) as real <= t * fps as real < ((frame + 1) * 1000) as real
  {
    var startFrame := FrameMath.MsToFrames(displayFrom, fps);
    var t := displayFrom as real + ((frame - startFrame) as real / fps as real) * 1000.0;
    assert (t - displayFrom as real) * fps as real == ((frame - startFrame) * 1000) as real;
    t
  }

  /**
    The caption clock as the component computes it: `useCurrentFrame()` is
    read inside the caption's `Sequence`, so the frame fed to the formula is
    the local one, 0 at the caption's first frame, and the start frame is
    then subtracted a second time.
   */
  function CurrentTimeAsWritten(displayFrom: int, localFrame: int, fps: int): real
    requires fps != 0
  {
    CurrentTime(displayFrom, localFrame, fps)
  }

  /**
    The clock the component evidently means: `display.from` at the caption's
    first frame, advancing 1000/fps ms per local frame. It is the formula fed
    the master-timeline frame, which is the local frame shifted by the
    caption's start frame.
   */
  function ClockIntended(displayFrom: int, localFrame: int, fps: int): (t: real)
    requires fps != 0
    ensures t == CurrentTime(displayFrom, FrameMath.MsToFrames(displayFrom, fps) + localFrame, fps)
    ensures localFrame == 0 ==> t == displayFrom as real
  {
    displayFrom as real + (localFrame as real / fps as real) * 1000.0
  }

  /**
    As written the clock lags the intended one by the time of the caption's
    start frame, so at the caption's first frame it reads
    `display.from - startFrame * 1000 / fps` instead of `display.from`.
   */
  lemma ClockAsWrittenLags(displayFrom: int, localFrame: int, fps: int)
    requires fps != 0
    ensures CurrentTimeAsWritten(displayFrom, localFrame, fps)
      == ClockIntended(displayFrom, localFrame, fps) - (FrameMath.MsToFrames(displayFrom, fps) * 1000) as real / fps as real
    ensures CurrentTimeAsWritten(displayFrom, 0, fps)
      == displayFrom as real - (FrameMath.MsToFrames(displayFrom, fps) * 1000) as real / fps as real
  {
    var s := FrameMath.MsToFrames(displayFrom, fps);
    assert (localFrame - s) as real / fps as real * 1000.0
      == (localFrame as real / fps as real) * 1000.0 - (s * 1000) as real / fps as real;
  }

  /**
    A caption displayed from 1000 ms at 30 fps: on its first frame the clock
    as written reads 0, so a word spoken over [1000, 1500) ms is not yet
    highlighted, while the intended clock reads 1000 and highlights it.
   */
  lemma CaptionClockScenario()
    ensures CurrentTimeAsWritten(1000, 0, 30) == 0.0
    ensures ClockIntended(1000, 0, 30) == 1000.0
    ensures !IsActive(CurrentTimeAsWritten(1000, 0, 30), CaptionWord("hello", 1000.0, 1500.0, false))
    ensures IsActive(ClockIntended(1000, 0, 30), CaptionWord("hello", 1000.0, 1500.0, false))
  {
    assert FrameMath.MsToFrames(1000, 30) == 30;
  }

  /** Fed the master-timeline frame at which the caption starts, the formula reads exactly the display start. */
  lemma CurrentTimeAtStart(displayFrom: int, fps: int)
    requires fps != 0
    ensures CurrentTime(displayFrom, FrameMath.MsToFrames(displayFrom, fps), fps) == displayFrom as real
  {
  }

  /** With a positive frame rate the clock runs forward with the frame. */
  lemma CurrentTimeMonotone(displayFrom: int, f1: int, f2: int, fps: int)
    requires fps > 0 && f1 < f2
    ensures CurrentTime(displayFrom, f1, fps) < CurrentTime(displayFrom, f2, fps)
  {
    var s := FrameMath.MsToFrames(displayFrom, fps);
    var d := (f2 - s) as real / fps as real - (f1 - s) as real / fps as real;
    assert d * (fps as real) == (f2 - f1) as real;
  }

  predicate IsActive(t: real, w: CaptionWord) {
    w.start <= t < w.end
  }

  predicate HasAppeared(t: real, w: CaptionWord) {
    t >= w.end
  }

  /** A word is never both being spoken and already spoken; before `start` it is neither. */
  lemma PhasesExclusive(t: real, w: CaptionWord)
    ensures !(IsActive(t, w) && HasAppeared(t, w))
    ensures t < w.start && w.start <= w.end ==> !IsActive(t, w) && !HasAppeared(t, w)
  {
  }

  /** Once a word has appeared it stays appeared; an active word is appeared by its end. */
  lemma PhasesAdvance(t1: real, t2: real, w: CaptionWord)
    requires t1 <= t2
    ensures HasAppeared(t1, w) ==> HasAppeared(t2, w)
    ensures IsActive(t1, w) && t2 >= w.end ==> HasAppeared(t2, w)
  {
  }

  /** The keyword colour applies: the word is a keyword, the colour is set and not suppressed. */
  predicate KeywordColoured(d: CaptionDetails, w: CaptionWord) {
    w.isKeyword && d.isKeywordColor != "" && !d.preservedColorKeyWord
  }

  /**
    The text colour of a word at clock `t`: the keyword colour when it
    applies; otherwise the active colour while active, the appeared colour
    once spoken, each only when set, and the base colour in every other case.
   */
  function WordColor(d: CaptionDetails, w: CaptionWord, t: real): (c: string)
    ensures KeywordColoured(d, w) ==> c == d.isKeywordColor
    ensures !KeywordColoured(d, w) && IsActive(t, w) && d.activeColor != "" ==> c == d.activeColor
    ensures !KeywordColoured(d, w) && HasAppeared(t, w) && d.appearedColor != "" ==> c == d.appearedColor
    ensures (!KeywordColoured(d, w) && !(IsActive(t, w) && d.activeColor != "")
             && !(HasAppeared(t, w) && d.appearedColor != "")) ==> c == d.color
  {
    var base :=
      if IsActive(t, w) && d.activeColor != "" then d.activeColor
      else if HasAppeared(t, w) && d.appearedColor != "" then d.appearedColor
      else d.color;
    if KeywordColoured(d, w) then d.isKeywordColor else base
  }

  /** The colour is always one of the four the details name. */
  lemma WordColorFromPalette(d: CaptionDetails, w: CaptionWord, t: real)
    ensures WordColor(d, w, t) in {d.color, d.activeColor, d.appearedColor, d.isKeywordColor}
  {
  }

  /** A word not yet reached shows the base colour unless it is a coloured keyword. */
  lemma UpcomingWordPlain(d: CaptionDetails, w: CaptionWord, t: real)
    requires t < w.start && w.start <= w.end && !KeywordColoured(d, w)
    ensures WordColor(d, w, t) == d.color
  {
  }

  /** The highlight behind a word: `activeFillColor` only while the word is active. */
  function WordBackground(d: CaptionDetails, w: CaptionWord, t: real): (b: string)
    ensures IsActive(t, w) && d.activeFillColor != "" ==> b == d.activeFillColor
    ensures !(IsActive(t, w) && d.activeFillColor != "") ==> b == "transparent"
  {
    if IsActive(t, w) && d.activeFillColor != "" then d.activeFillColor else "transparent"
  }

  datatype WordStyle = WordStyle(fontFamily: string, fontSize: real, color: string, background: string)

  /** `fontSize || 48`. */
  function FontSize(d: CaptionDetails): (s: real)
    ensures s != 0.0
    ensures d.fontSize != 0.0 ==> s == d.fontSize
  {
    if d.fontSize != 0.0 then d.fontSize else 48.0
  }

  function StyleOf(d: CaptionDetails, w: CaptionWord, t: real): WordStyle {
    WordStyle(d.fontFamily, FontSize(d), WordColor(d, w, t), WordBackground(d, w, t))
  }

  datatype Span = Span(text: string, style: WordStyle)

  /** `details.words.map(...)`: one span per word, in word order. */
  function RenderWords(d: CaptionDetails, words: seq<CaptionWord>, t: real): (r: seq<Span>)
    ensures |r| == |words|
    ensures forall i :: 0 <= i < |words| ==> r[i] == Span(words[i].word, StyleOf(d, words[i], t))
  {
    if |words| == 0 then [] else [Span(words[0].word, StyleOf(d, words[0], t))] + RenderWords(d, words[1..], t)
  }

  /** The text of each span, in order. */
  function Texts(spans: seq<Span>): (r: seq<string>)
    ensures |r| == |spans|
    ensures forall i :: 0 <= i < |spans| ==> r[i] == spans[i].text
  {
    if |spans| == 0 then [] else [spans[0].text] + Texts(spans[1..])
  }

  function Words(words: seq<CaptionWord>): (r: seq<string>)
    ensures |r| == |words|
    ensures forall i :: 0 <= i < |words| ==> r[i] == words[i].word
  {
    if |words| == 0 then [] else [words[0].word] + Words(words[1..])
  }

  /** Rendering never drops, duplicates or reorders a word, whatever the clock reads. */
  lemma RenderKeepsWords(d: CaptionDetails, t: real)
    ensures Texts(RenderWords(d, d.words, t)) == Words(d.words)
  {
  }

  datatype Border = Border(width: real, color: string)

  /** The caption box: its background colour (`backgroundColor || 'transparent'`) and its border. */
  datatype Container = Container(background: string, border: Option<Border>)

  function ContainerOf(d: CaptionDetails): (c: Container)
    ensures c.border == ContainerBorder(d)
    ensures d.backgroundColor != "" ==> c.background == d.backgroundColor
    ensures d.backgroundColor == "" ==> c.background == "transparent"
  {
    Container(if d.backgroundColor != "" then d.backgroundColor else "transparent", ContainerBorder(d))
  }

  /** The container border: present exactly when `borderWidth > 0`, in `borderColor || '#000'`. */
  function ContainerBorder(d: CaptionDetails): (b: Option<Border>)
    ensures b.Some? <==> d.borderWidth > 0.0
    ensures b.Some? ==> b.value.width == d.borderWidth
    ensures b.Some? && d.borderColor != "" ==> b.value.color == d.borderColor
    ensures b.Some? && d.borderColor == "" ==> b.value.color == "#000"
  {
    if d.borderWidth > 0.0 then Some(Border(d.borderWidth, if d.borderColor != "" then d.borderColor else "#000"))
    else None
  }

}

=== FILE: common.dfy ===
/** Failure-carrying wrappers and a few sequence helpers shared by every module. */
module Common {

  /** A value that may be absent: JavaScript's `undefined` / `null`. */
  datatype Option<+T> = None | Some(value: T) {
    function GetOr(default: T): T {
      match this
      case Some(v) => v
      case None => default
    }
  }

  /** The outcome of a step that can throw: the thrown error's message on failure. */
  datatype Result<+T> = Ok(value: T) | Err(message: string)

  function Max(a: int, b: int): (r: int)
    ensures r >= a && r >= b
    ensures r == a || r == b
  {
    if a >= b then a else b
  }

  /** The elements of `s` that satisfy `p`, in their original order (`Array.prototype.filter`). */
  function Filter<T>(s: seq<T>, p: T -> bool): (r: seq<T>)
    ensures |r| <= |s|
  {
    if |s| == 0 then []
    else (if p(s[0]) then [s[0]] else []) + Filter(s[1..], p)
  }

  /** An element survives a filter iff it was there and satisfies the predicate. */
  lemma {:induction false} FilterMembership<T>(s: seq<T>, p: T -> bool, x: T)
    ensures x in Filter(s, p) <==> x in s && p(x)
  {
    if |s| > 0 {
      FilterMembership(s[1..], p, x);
      assert s == [s[0]] + s[1..];
    }
  }

  /** Every survivor was there and satisfies the predicate; every element that does survives. */
  lemma FilterContents<T>(s: seq<T>, p: T -> bool)
    ensures forall i :: 0 <= i < |Filter(s, p)| ==> Filter(s, p)[i] in s && p(Filter(s, p)[i])
    ensures forall i :: 0 <= i < |s| && p(s[i]) ==> s[i] in Filter(s, p)
  {
    forall i | 0 <= i < |Filter(s, p)| ensures Filter(s, p)[i] in s && p(Filter(s, p)[i]) {
      FilterMembership(s, p, Filter(s, p)[i]);
    }
    forall i | 0 <= i < |s| && p(s[i]) ensures s[i] in Filter(s, p) {
      FilterMembership(s, p, s[i]);
    }
  }

  /** Filtering with a predicate every element meets changes nothing. */
  lemma {:induction false} FilterAll<T>(s: seq<T>, p: T -> bool)
    requires forall i :: 0 <= i < |s| ==> p(s[i])
    ensures Filter(s, p) == s
  {
    if |s| > 0 {
      FilterAll(s[1..], p);
    }
  }

  lemma {:induction false} FilterAppend<T>(a: seq<T>, b: seq<T>, p: T -> bool)
    ensures Filter(a + b, p) == Filter(a, p) + Filter(b, p)
  {
    if |a| == 0 {
      assert a + b == b;
    } else {
      assert (a + b)[1..] == a[1..] + b;
      FilterAppend(a[1..], b, p);
      var head := if p(a[0]) then [a[0]] else [];
      calc {
        Filter(a + b, p);
        head + Filter(a[1..] + b, p);
        head + (Filter(a[1..], p) + Filter(b, p));
        (head + Filter(a[1..], p)) + Filter(b, p);
      }
    }
  }

  /**
    `Array.prototype.find`: the first element satisfying `p`, or nothing
    when none does.
   */
  function FindFirst<T>(s: seq<T>, p: T -> bool): (r: Option<T>)
    ensures r.Some? ==> r.value in s && p(r.value)
    ensures r.Some? ==> exists k :: 0 <= k < |s| && s[k] == r.value && forall j :: 0 <= j < k ==> !p(s[j])
    ensures r.None? <==> forall i :: 0 <= i < |s| ==> !p(s[i])
  {
    if |s| == 0 then None
    else if p(s[0]) then Some(s[0])
    else
      var r := FindFirst(s[1..], p);
      assert forall i :: 1 <= i < |s| ==> s[i] == s[1..][i - 1];
      r
  }

  /** `Array.prototype.join`. */
  function Join(parts: seq<string>, sep: string): (r: string)
    ensures |parts| == 0 ==> r == []
    ensures |parts| == 1 ==> r == parts[0]
  {
    if |parts| == 0 then []
    else if |parts| == 1 then parts[0]
    else parts[0] + sep + Join(parts[1..], sep)
  }
}

=== FILE: compositor.dfy ===
/**
  The render-side compositor (`VideoWithCaptions`): validate the incoming
  track items, order them by type rank, and place each on the frame grid as a
  `Sequence` with a start frame and a length, dropping those that come out
  empty.
 */
module Compositor {
  import opened Common
  import opened Timeline
  import FrameMath
  import StableSort

  /** An item the renderer accepts, stated on the data model rather than on the checks. */
  ghost predicate Displayable(it: TrackItem) {
    && it.display.Some?
    && it.display.value.from.Num?
    && it.display.value.to.Num?
    && WellFormed(Clip(it, it.display.value.from.ms, it.display.value.to.ms))
  }

  /**
    The filter: drop anything that is not an object with truthy `id` and
    `type`, a `display`, numeric `from`/`to`, `from >= 0` and `to > from`.
   */
  function Validate(e: Entry): (c: Option<Clip>)
    ensures c.Some? <==> e.Item? && Displayable(e.item)
    ensures c.Some? ==> WellFormed(c.value) && c.value.item == e.item
  {
    if e.NotObject? || e.item.id == "" || e.item.kind == "" then None
    else if e.item.display.None? then None
    else if !e.item.display.value.from.Num? || !e.item.display.value.to.Num? then None
    else
      var from := e.item.display.value.from.ms;
      var to := e.item.display.value.to.ms;
      if from < 0 || to <= from then None else Some(Clip(e.item, from, to))
  }

  /** `trackItems.filter(...)`: the validated items, in input order. */
  function ValidItems(entries: seq<Entry>): (r: seq<Clip>)
    ensures |r| <= |entries|
    ensures forall i :: 0 <= i < |r| ==> WellFormed(r[i]) && Item(r[i].item) in entries
    ensures forall i :: 0 <= i < |entries| && Validate(entries[i]).Some? ==> Validate(entries[i]).value in r
  {
    if |entries| == 0 then []
    else
      var head := Validate(entries[0]);
      (if head.Some? then [head.value] else []) + ValidItems(entries[1..])
  }

  /** Validation looks at each item on its own, so it keeps relative order. */
  lemma {:induction false} ValidItemsAppend(a: seq<Entry>, b: seq<Entry>)
    ensures ValidItems(a + b) == ValidItems(a) + ValidItems(b)
  {
    if |a| == 0 {
      assert a + b == b;
    } else {
      assert (a + b)[1..] == a[1..] + b;
      ValidItemsAppend(a[1..], b);
    }
  }

  /** The object literal `{ video: 0, audio: 0, image: 1, text: 2, caption: 3 }`, looked up by type. */
  function OrderTable(kind: string): Option<int> {
    if kind == "video" || kind == "audio" then Some(0)
    else if kind == "image" then Some(1)
    else if kind == "text" then Some(2)
    else if kind == "caption" then Some(3)
    else None
  }

  /** `order[type] || 99`: a missing entry AND the falsy rank 0 both become 99. */
  function Rank(kind: string): int {
    var o := OrderTable(kind);
    if o.Some? && o.value != 0 then o.value else 99
  }

  /** The ranks the sort actually uses: video and audio rank with unknown types, last. */
  lemma RankAsWritten(kind: string)
    ensures TypeOf(kind) == Image <==> Rank(kind) == 1
    ensures TypeOf(kind) == Text <==> Rank(kind) == 2
    ensures TypeOf(kind) == Caption <==> Rank(kind) == 3
    ensures TypeOf(kind) in {Video, Audio, Unknown} <==> Rank(kind) == 99
  {
  }

  function ClipRank(c: Clip): int {
    Rank(c.item.kind)
  }

  /** A `Sequence`: the item, its first frame and its length in frames. */
  datatype PlanEntry = PlanEntry(clip: Clip, fromFrame: int, durationInFrames: int)

  function Place(c: Clip, fps: int): (p: PlanEntry)
    ensures p.clip == c
    ensures p.fromFrame == FrameMath.MsToFrames(c.from, fps)
    ensures p.fromFrame + p.durationInFrames == FrameMath.MsToFrames(c.to, fps)
  {
    var fromFrame := FrameMath.MsToFrames(c.from, fps);
    var toFrame := FrameMath.MsToFrames(c.to, fps);
    PlanEntry(c, fromFrame, toFrame - fromFrame)
  }

  predicate Visible(c: Clip, fps: int) {
    Place(c, fps).durationInFrames > 0
  }

  /** The clips that survive the `durationInFrames <= 0` check, in order. */
  function KeepVisible(s: seq<Clip>, fps: int): (r: seq<Clip>)
    ensures |r| <= |s|
    ensures forall i :: 0 <= i < |r| ==> r[i] in s && Visible(r[i], fps)
    ensures forall i :: 0 <= i < |s| && Visible(s[i], fps) ==> s[i] in r
  {
    if |s| == 0 then []
    else (if Visible(s[0], fps) then [s[0]] else []) + KeepVisible(s[1..], fps)
  }

  function PlaceAll(s: seq<Clip>, fps: int): (r: seq<PlanEntry>)
    ensures |r| == |s|
    ensures forall i :: 0 <= i < |s| ==> r[i] == Place(s[i], fps)
  {
    if |s| == 0 then [] else [Place(s[0], fps)] + PlaceAll(s[1..], fps)
  }

  function SortedItems(entries: seq<Entry>): seq<Clip> {
    StableSort.Sort(ValidItems(entries), ClipRank)
  }

  /** The render plan: validated, rank-sorted (stably), placed, empty entries dropped. */
  function Plan(entries: seq<Entry>, fps: int): (r: seq<PlanEntry>)
    ensures |r| <= |entries|
    ensures forall i :: 0 <= i < |r| ==> r[i].durationInFrames > 0 && WellFormed(r[i].clip)
    ensures forall i :: 0 <= i < |r| ==> r[i] == Place(r[i].clip, fps)
    ensures forall i, j :: 0 <= i < j < |r| ==> ClipRank(r[i].clip) <= ClipRank(r[j].clip)
  {
    var sorted := SortedItems(entries);
    var kept := KeepVisible(sorted, fps);
    KeepVisibleSorted(sorted, fps);
    assert forall i :: 0 <= i < |kept| ==> WellFormed(kept[i]) by {
      forall i | 0 <= i < |kept| ensures WellFormed(kept[i]) {
        assert kept[i] in multiset(sorted);
      }
    }
    PlaceAll(kept, fps)
  }

  lemma {:induction false} KeepVisibleSorted(s: seq<Clip>, fps: int)
    requires StableSort.SortedBy(s, ClipRank)
    ensures StableSort.SortedBy(KeepVisible(s, fps), ClipRank)
  {
    if |s| > 0 {
      KeepVisibleSorted(s[1..], fps);
      var rest := KeepVisible(s[1..], fps);
      forall j | 0 <= j < |rest| ensures ClipRank(s[0]) <= ClipRank(rest[j]) {
        var i :| 0 <= i < |s[1..]| && s[1..][i] == rest[j];
        assert s[i + 1] == rest[j];
      }
      if Visible(s[0], fps) {
        StableSort.SortedCons(s[0], rest, ClipRank);
        assert KeepVisible(s, fps) == [s[0]] + rest;
      } else {
        assert KeepVisible(s, fps) == rest;
      }
    }
  }

  function Clips(p: seq<PlanEntry>): (r: seq<Clip>)
    ensures |r| == |p|
    ensures forall i :: 0 <= i < |p| ==> r[i] == p[i].clip
  {
    if |p| == 0 then [] else [p[0].clip] + Clips(p[1..])
  }

  /** A clip is in the plan exactly when it passed validation and covers at least one frame. */
  lemma PlanMembership(entries: seq<Entry>, fps: int, c: Clip)
    ensures c in Clips(Plan(entries, fps)) <==> c in ValidItems(entries) && Visible(c, fps)
  {
    var sorted := SortedItems(entries);
    assert Clips(Plan(entries, fps)) == KeepVisible(sorted, fps);
    assert c in sorted <==> c in multiset(ValidItems(entries));
  }

  /** Every entry of the plan is a validated item placed on the frame grid. */
  lemma PlanEntryValid(entries: seq<Entry>, fps: int, i: int)
    requires 0 <= i < |Plan(entries, fps)|
    ensures Plan(entries, fps)[i].clip in ValidItems(entries)
    ensures Plan(entries, fps)[i] == Place(Plan(entries, fps)[i].clip, fps)
    ensures WellFormed(Plan(entries, fps)[i].clip)
  {
    var c := Plan(entries, fps)[i].clip;
    assert c in Clips(Plan(entries, fps));
    PlanMembership(entries, fps, c);
  }

  lemma {:induction false} WithKeyKeepVisible(s: seq<Clip>, fps: int, k: int)
    ensures StableSort.WithKey(KeepVisible(s, fps), ClipRank, k)
         == KeepVisible(StableSort.WithKey(s, ClipRank, k), fps)
  {
    if |s| > 0 {
      WithKeyKeepVisible(s[1..], fps, k);
      var head := if Visible(s[0], fps) then [s[0]] else [];
      StableSort.WithKeyAppend(head, KeepVisible(s[1..], fps), ClipRank, k);
      var hk := if ClipRank(s[0]) == k then [s[0]] else [];
      KeepVisibleAppend(hk, StableSort.WithKey(s[1..], ClipRank, k), fps);
    }
  }

  lemma {:induction false} KeepVisibleAppend(a: seq<Clip>, b: seq<Clip>, fps: int)
    ensures KeepVisible(a + b, fps) == KeepVisible(a, fps) + KeepVisible(b, fps)
  {
    if |a| == 0 {
      assert a + b == b;
    } else {
      assert (a + b)[1..] == a[1..] + b;
      KeepVisibleAppend(a[1..], b, fps);
    }
  }

  /**
    Stability: for every rank, the plan lists the items of that rank in their
    input order; in particular video and audio items never swap with each other.
   */
  lemma PlanStable(entries: seq<Entry>, fps: int, k: int)
    ensures StableSort.WithKey(Clips(Plan(entries, fps)), ClipRank, k)
         == KeepVisible(StableSort.WithKey(ValidItems(entries), ClipRank, k), fps)
  {
    var sorted := SortedItems(entries);
    assert Clips(Plan(entries, fps)) == KeepVisible(sorted, fps);
    WithKeyKeepVisible(sorted, fps, k);
  }

  /** As written, every image, text and caption layer comes before (beneath) every video or audio layer. */
  lemma VideoDrawnAboveOverlays(entries: seq<Entry>, fps: int, i: int, j: int)
    requires var p := Plan(entries, fps); 0 <= i < |p| && 0 <= j < |p|
    requires TypeOf(Plan(entries, fps)[i].clip.item.kind) in {Image, Text, Caption}
    requires TypeOf(Plan(entries, fps)[j].clip.item.kind) in {Video, Audio}
    ensures i < j
  {
    var p := Plan(entries, fps);
    RankAsWritten(p[i].clip.item.kind);
    RankAsWritten(p[j].clip.item.kind);
  }

  /** A clip that ends where the next begins gets a frame range that ends where the next one starts. */
  lemma AbuttingClipsAbut(a: Clip, b: Clip, fps: int)
    requires a.to == b.from
    ensures Place(a, fps).fromFrame + Place(a, fps).durationInFrames == Place(b, fps).fromFrame
  {
  }

  /** For a validated clip and a positive frame rate the frame length is never negative. */
  lemma DurationNonNegative(c: Clip, fps: int)
    requires WellFormed(c) && fps > 0
    ensures Place(c, fps).durationInFrames >= 0
  {
    FrameMath.MsToFramesMonotone(c.from, c.to, fps);
  }

  /** The five renderers `renderItem` can choose. */
  datatype Renderer = VideoRenderer | CaptionRenderer | AudioRenderer | ImageRenderer | TextRenderer

  /** `renderItem`: one renderer per known type, nothing for any other type. */
  function RenderItem(kind: string): (r: Option<Renderer>)
    ensures r.None? <==> TypeOf(kind) == Unknown
    ensures r == Some(VideoRenderer) <==> TypeOf(kind) == Video
    ensures r == Some(AudioRenderer) <==> TypeOf(kind) == Audio
    ensures r == Some(ImageRenderer) <==> TypeOf(kind) == Image
    ensures r == Some(TextRenderer) <==> TypeOf(kind) == Text
    ensures r == Some(CaptionRenderer) <==> TypeOf(kind) == Caption
  {
    match TypeOf(kind)
    case Video => Some(VideoRenderer)
    case Caption => Some(CaptionRenderer)
    case Audio => Some(AudioRenderer)
    case Image => Some(ImageRenderer)
    case Text => Some(TextRenderer)
    case Unknown => None
  }

  // ---- The ordering the comment above the sort describes ----

  /** Videos first, then images, then text and captions: video and audio at rank 0. */
  function IntendedRank(kind: string): int {
    match TypeOf(kind)
    case Video => 0
    case Audio => 0
    case Image => 1
    case Text => 2
    case Caption => 3
    case Unknown => 99
  }

  function IntendedClipRank(c: Clip): int {
    IntendedRank(c.item.kind)
  }

  /** The plan with the intended ranks; placement and dropping are unchanged. */
  function PlanIntended(entries: seq<Entry>, fps: int): (r: seq<PlanEntry>)
    ensures forall i :: 0 <= i < |r| ==> r[i].durationInFrames > 0 && r[i] == Place(r[i].clip, fps)
    ensures forall i, j :: 0 <= i < j < |r| ==> IntendedClipRank(r[i].clip) <= IntendedClipRank(r[j].clip)
  {
    var sorted := StableSort.Sort(ValidItems(entries), IntendedClipRank);
    var kept := KeepVisibleBy(sorted, fps, IntendedClipRank);
    PlaceAll(kept, fps)
  }

  function KeepVisibleBy(s: seq<Clip>, fps: int, key: Clip -> int): (r: seq<Clip>)
    requires StableSort.SortedBy(s, key)
    ensures StableSort.SortedBy(r, key)
    ensures forall i :: 0 <= i < |r| ==> r[i] in s && Visible(r[i], fps)
  {
    if |s| == 0 then []
    else
      var rest := KeepVisibleBy(s[1..], fps, key);
      assert forall j :: 0 <= j < |rest| ==> key(s[0]) <= key(rest[j]) by {
        forall j | 0 <= j < |rest| ensures key(s[0]) <= key(rest[j]) {
          var i :| 0 <= i < |s[1..]| && s[1..][i] == rest[j];
          assert s[i + 1] == rest[j];
        }
      }
      StableSort.SortedCons(s[0], rest, key);
      (if Visible(s[0], fps) then [s[0]] else []) + rest
  }

  /** With the intended ranks, every video or audio layer comes before every overlay. */
  lemma IntendedVideoBeneathOverlays(entries: seq<Entry>, fps: int, i: int, j: int)
    requires var p := PlanIntended(entries, fps); 0 <= i < |p| && 0 <= j < |p|
    requires TypeOf(PlanIntended(entries, fps)[i].clip.item.kind) in {Video, Audio}
    requires TypeOf(PlanIntended(entries, fps)[j].clip.item.kind) in {Image, Text, Caption}
    ensures i < j
  {
    var p := PlanIntended(entries, fps);
    var ri := IntendedClipRank(p[i].clip);
    var rj := IntendedClipRank(p[j].clip);
    assert ri == 0 && rj >= 1;
  }

  /**
    The two-item scenario of a 5 s video under a 1 s..4 s caption at 30 fps:
    both land on the expected frames, but the caption is listed first, so the
    video is layered over it.
   */
  lemma VideoSortsAfterCaption()
    ensures Plan([Item(ScenarioVideo()), Item(ScenarioCaption())], 30)
         == [Place(ScenarioCaptionClip(), 30), Place(ScenarioVideoClip(), 30)]
    ensures Place(ScenarioCaptionClip(), 30) == PlanEntry(ScenarioCaptionClip(), 30, 90)
    ensures Place(ScenarioVideoClip(), 30) == PlanEntry(ScenarioVideoClip(), 0, 150)
  {
    var v := ScenarioVideoClip();
    var c := ScenarioCaptionClip();
    ScenarioSortedAsWritten();
    ScenarioPlaces();
    ScenarioKeepVisible();
    PlanUnfolds([Item(ScenarioVideo()), Item(ScenarioCaption())], 30);
    PlaceTwo(c, v, 30);
  }

  lemma ScenarioPlaces()
    ensures Place(ScenarioCaptionClip(), 30) == PlanEntry(ScenarioCaptionClip(), 30, 90)
    ensures Place(ScenarioVideoClip(), 30) == PlanEntry(ScenarioVideoClip(), 0, 150)
  {
  }

  lemma ScenarioKeepVisible()
    ensures KeepVisible([ScenarioCaptionClip(), ScenarioVideoClip()], 30) == [ScenarioCaptionClip(), ScenarioVideoClip()]
  {
    var v := ScenarioVideoClip();
    var c := ScenarioCaptionClip();
    ScenarioPlaces();
    assert [c, v][1..] == [v];
    assert [v][1..] == [];
  }

  lemma ScenarioSortedAsWritten()
    ensures SortedItems([Item(ScenarioVideo()), Item(ScenarioCaption())]) == [ScenarioCaptionClip(), ScenarioVideoClip()]
  {
    var v := ScenarioVideoClip();
    var c := ScenarioCaptionClip();
    ScenarioValid();
    assert ClipRank(v) == 99 && ClipRank(c) == 3;
    assert StableSort.Sort([c], ClipRank) == [c] by {
      assert [c][1..] == [];
    }
    assert [v, c][1..] == [c];
    assert StableSort.Insert(v, [c], ClipRank) == [c, v] by {
      assert [c][1..] == [];
    }
  }

  /** With the intended ranks the same two items come out video first. */
  lemma IntendedScenario()
    ensures PlanIntended([Item(ScenarioVideo()), Item(ScenarioCaption())], 30)
         == [Place(ScenarioVideoClip(), 30), Place(ScenarioCaptionClip(), 30)]
  {
    var v := ScenarioVideoClip();
    var c := ScenarioCaptionClip();
    var entries := [Item(ScenarioVideo()), Item(ScenarioCaption())];
    IntendedScenarioSorted();
    IntendedScenarioKept();
    PlanIntendedUnfolds(entries, 30);
    PlaceTwo(v, c, 30);
  }

  lemma PlanUnfolds(entries: seq<Entry>, fps: int)
    ensures Plan(entries, fps) == PlaceAll(KeepVisible(SortedItems(entries), fps), fps)
  {
  }

  lemma PlanIntendedUnfolds(entries: seq<Entry>, fps: int)
    ensures PlanIntended(entries, fps)
         == PlaceAll(KeepVisibleBy(StableSort.Sort(ValidItems(entries), IntendedClipRank), fps, IntendedClipRank), fps)
  {
  }

  lemma PlaceTwo(a: Clip, b: Clip, fps: int)
    ensures PlaceAll([a, b], fps) == [Place(a, fps), Place(b, fps)]
  {
  }

  lemma IntendedScenarioSorted()
    ensures StableSort.Sort(ValidItems([Item(ScenarioVideo()), Item(ScenarioCaption())]), IntendedClipRank)
         == [ScenarioVideoClip(), ScenarioCaptionClip()]
  {
    var v := ScenarioVideoClip();
    var c := ScenarioCaptionClip();
    ScenarioValid();
    assert IntendedClipRank(v) == 0 && IntendedClipRank(c) == 3;
    assert StableSort.Sort([c], IntendedClipRank) == [c] by {
      assert [c][1..] == [];
    }
    assert [v, c][1..] == [c];
    assert StableSort.Insert(v, [c], IntendedClipRank) == [v, c];
  }

  lemma IntendedScenarioKept()
    ensures KeepVisibleBy([ScenarioVideoClip(), ScenarioCaptionClip()], 30, IntendedClipRank)
         == [ScenarioVideoClip(), ScenarioCaptionClip()]
  {
    var v := ScenarioVideoClip();
    var c := ScenarioCaptionClip();
    ScenarioPlaces();
    assert IntendedClipRank(v) == 0 && IntendedClipRank(c) == 3;
    assert [v, c][1..] == [c];
    assert [c][1..] == [];
    assert KeepVisibleBy([c], 30, IntendedClipRank) == [c];
  }

  lemma ScenarioValid()
    ensures ValidItems([Item(ScenarioVideo()), Item(ScenarioCaption())]) == [ScenarioVideoClip(), ScenarioCaptionClip()]
  {
    var entries := [Item(ScenarioVideo()), Item(ScenarioCaption())];
    assert entries[1..] == [Item(ScenarioCaption())];
    assert entries[1..][1..] == [];
  }

  function ScenarioVideoClip(): Clip {
    Clip(ScenarioVideo(), 0, 5000)
  }

  function ScenarioCaptionClip(): Clip {
    Clip(ScenarioCaption(), 1000, 4000)
  }

  function ScenarioVideo(): TrackItem {
    TrackItem("A", "video", Some(Display(Num(0), Num(5000))), None, None, None)
  }

  function ScenarioCaption(): TrackItem {
    TrackItem("B", "caption", Some(Display(Num(1000), Num(4000))), None, None, None)
  }
}

=== FILE: export.dfy ===
/**
  The editor's export store (`use-download-state.ts`): `startExport` collects
  and validates the timeline's items, rewrites their sources so the remote
  renderer can fetch them, sizes the video and submits the render; each poll
  of the render's status is one step of a small state machine.

  Network answers (upload, submission, status) and the object URL of a JSON
  export are parameters.
 */
module Export {
  import opened Common
  import opened Timeline
  import opened Strings
  import FrameMath
  import Compositor
  import Root
  import Lambda
  import RenderRoute

  datatype ExportType = Json | Mp4

  datatype Output = Output(url: string, kind: string)

  datatype Size = Size(width: int, height: int)

  datatype Track = Track(items: Option<seq<Entry>>)

  /**
    The project being exported. `trackItemsMap` holds the map's values in
    `Object.values` order.
   */
  datatype Design = Design(
    trackItemsMap: Option<seq<Entry>>,
    tracks: Option<seq<Track>>,
    size: Option<Size>,
    background: Option<Root.Background>)

  datatype DownloadState = DownloadState(
    exporting: bool,
    exportType: ExportType,
    progress: int,
    output: Option<Output>,
    payload: Option<Design>,
    displayProgressModal: bool)

  function Initial(): DownloadState {
    DownloadState(false, Mp4, 0, None, None, false)
  }

  /** The items of every track, track after track (`tracks.flatMap(t => t.items || [])`). */
  function Flatten(tracks: seq<Track>): (r: seq<Entry>)
    ensures forall i, e :: 0 <= i < |tracks| && tracks[i].items.Some? && e in tracks[i].items.value ==> e in r
    ensures forall e :: e in r ==> exists i :: 0 <= i < |tracks| && tracks[i].items.Some? && e in tracks[i].items.value
  {
    if |tracks| == 0 then []
    else tracks[0].items.GetOr([]) + Flatten(tracks[1..])
  }

  /** The items to export: the map's values when there is a map (even an empty one), else the tracks' items. */
  function ItemsOf(d: Design): (r: seq<Entry>)
    ensures d.trackItemsMap.Some? ==> r == d.trackItemsMap.value
    ensures d.trackItemsMap.None? && d.tracks.Some? ==> r == Flatten(d.tracks.value)
    ensures d.trackItemsMap.None? && d.tracks.None? ==> r == []
  {
    if d.trackItemsMap.Some? then d.trackItemsMap.value
    else if d.tracks.Some? then Flatten(d.tracks.value)
    else []
  }

  /**
    The export's own filter, check by check: an object, with truthy `id` and
    `type`, with a `display`, numeric `from` and `to`, `from >= 0`, `to > from`.
   */
  predicate ExportKeeps(e: Entry) {
    if e.NotObject? then false
    else if e.item.id == "" || e.item.kind == "" then false
    else if e.item.display.None? then false
    else
      var d := e.item.display.value;
      if !d.from.Num? || !d.to.Num? then false
      else !(d.from.ms < 0 || d.to.ms <= d.from.ms)
  }

  /** The export's filter and the renderer's keep exactly the same items. */
  lemma ExportFilterMatchesRenderer(e: Entry)
    ensures ExportKeeps(e) <==> Compositor.Validate(e).Some?
  {
  }

  /** `validTrackItems`: the kept items, in order. */
  function ValidTrackItems(entries: seq<Entry>): (r: seq<TrackItem>)
    ensures |r| <= |entries|
    ensures forall i :: 0 <= i < |r| ==> Item(r[i]) in entries && ExportKeeps(Item(r[i]))
    ensures forall i :: 0 <= i < |entries| && ExportKeeps(entries[i]) ==> entries[i].item in r
  {
    if |entries| == 0 then []
    else (if ExportKeeps(entries[0]) then [entries[0].item] else []) + ValidTrackItems(entries[1..])
  }

  /** The export keeps the very items, in the very order, that the renderer's validation keeps. */
  lemma {:induction false} ValidTrackItemsAgree(entries: seq<Entry>)
    ensures |ValidTrackItems(entries)| == |Compositor.ValidItems(entries)|
    ensures forall i :: 0 <= i < |ValidTrackItems(entries)| ==>
      ValidTrackItems(entries)[i] == Compositor.ValidItems(entries)[i].item
  {
    if |entries| > 0 {
      ExportFilterMatchesRenderer(entries[0]);
      ValidTrackItemsAgree(entries[1..]);
    }
  }

  /** The `src` of an item's details, `""` when there are no details or no source. */
  function SrcOf(it: TrackItem): string {
    if it.details.Some? && it.details.value.src.Some? then it.details.value.src.value else ""
  }

  function Srcs(items: seq<TrackItem>): (r: seq<string>)
    ensures |r| == |items|
    ensures forall i :: 0 <= i < |items| ==> r[i] == SrcOf(items[i])
  {
    if |items| == 0 then [] else [SrcOf(items[0])] + Srcs(items[1..])
  }

  const LocalPrefix: string := "/api/uploads/file/"

  /** A file served by the editor's own upload endpoint. */
  predicate IsLocalPath(src: string) {
    StartsWith(src, LocalPrefix)
  }

  /** `localFilePaths`: the local sources, one per item that has one, in item order. */
  function LocalFilePaths(items: seq<TrackItem>): (r: seq<string>)
    ensures |r| <= |items|
    ensures forall i :: 0 <= i < |r| ==> IsLocalPath(r[i]) && r[i] in Srcs(items)
    ensures forall i :: 0 <= i < |items| && IsLocalPath(SrcOf(items[i])) ==> SrcOf(items[i]) in r
  {
    if |items| == 0 then []
    else
      var src := SrcOf(items[0]);
      (if src != "" && IsLocalPath(src) then [src] else []) + LocalFilePaths(items[1..])
  }

  /** Collecting local paths is filtering the item sources: nothing reordered, nothing added. */
  lemma {:induction false} LocalFilePathsInOrder(items: seq<TrackItem>)
    ensures LocalFilePaths(items) == Filter(Srcs(items), IsLocalPath)
  {
    if |items| > 0 {
      LocalFilePathsInOrder(items[1..]);
      assert Srcs(items)[1..] == Srcs(items[1..]);
    }
  }

  predicate IsLocalhost(baseUrl: string) {
    Contains(baseUrl, "localhost") || Contains(baseUrl, "127.0.0.1")
  }

  /** The upload map has a (truthy) replacement for this (truthy) source. */
  predicate S3Hit(s3: map<string, string>, src: string) {
    src != "" && src in s3 && s3[src] != ""
  }

  predicate IsHttp(src: string) {
    StartsWith(src, "http://") || StartsWith(src, "https://")
  }

  /** A path on the current origin: it starts with `/` but not with `//`. */
  predicate RootRelative(src: string) {
    StartsWith(src, "/") && !StartsWith(src, "//")
  }

  /**
    The new source of an item: the uploaded copy when there is one; else an
    absolute `http(s)` source as it is; else, off localhost, a root-relative
    path made absolute on the current origin; else the source unchanged.
   */
  function RewriteSrc(src: string, s3: map<string, string>, baseUrl: string, isLocalhost: bool): (r: string)
    ensures S3Hit(s3, src) ==> r == s3[src]
    ensures !S3Hit(s3, src) && !(RootRelative(src) && !IsHttp(src) && !isLocalhost) ==> r == src
    ensures !S3Hit(s3, src) && !IsHttp(src) && RootRelative(src) && !isLocalhost ==> r == baseUrl + src
  {
    if src == "" then src
    else if S3Hit(s3, src) then s3[src]
    else if IsHttp(src) then src
    else if RootRelative(src) && !isLocalhost then baseUrl + src
    else src
  }

  /**
    Off localhost, where nothing is uploaded, and on an `http(s)` origin,
    no rewritten source is left root-relative.
   */
  lemma OffLocalhostAbsolute(src: string, baseUrl: string)
    requires IsHttp(baseUrl)
    ensures !RootRelative(RewriteSrc(src, map[], baseUrl, false))
  {
    var r := RewriteSrc(src, map[], baseUrl, false);
    assert baseUrl[..7][0] == baseUrl[0] == 'h';
    if src != "" && IsHttp(src) {
      assert src[..7][0] == src[0] == 'h';
      assert r[..1][0] == 'h';
    } else if src != "" && RootRelative(src) {
      assert r == baseUrl + src && r[..1][0] == 'h';
    }
  }

  /**
    On localhost, once every local source of the items has been uploaded to
    a non-local address, no rewritten source points at the local file server.
   */
  lemma UploadedNoLongerLocal(src: string, s3: map<string, string>, baseUrl: string)
    requires IsLocalPath(src) ==> S3Hit(s3, src)
    requires S3Hit(s3, src) ==> !IsLocalPath(s3[src])
    ensures !IsLocalPath(RewriteSrc(src, s3, baseUrl, true))
  {
  }

  /** The item with its source rewritten; an item without details, or with an empty source, is returned as is. */
  function TransformItem(it: TrackItem, s3: map<string, string>, baseUrl: string, isLocalhost: bool): (r: TrackItem)
    ensures r.(details := it.details) == it
    ensures r.details.Some? <==> it.details.Some?
    ensures r.details.Some? ==> r.details.value.(src := it.details.value.src) == it.details.value
    ensures r.details.Some? ==> (r.details.value.src.Some? <==> it.details.value.src.Some?)
    ensures SrcOf(r) == RewriteSrc(SrcOf(it), s3, baseUrl, isLocalhost)
  {
    if it.details.None? || it.details.value.src.None? then it
    else
      var src := RewriteSrc(it.details.value.src.value, s3, baseUrl, isLocalhost);
      it.(details := Some(it.details.value.(src := Some(src))))
  }

  function TransformItems(items: seq<TrackItem>, s3: map<string, string>, baseUrl: string, isLocalhost: bool)
    : (r: seq<TrackItem>)
    ensures |r| == |items|
    ensures forall i :: 0 <= i < |items| ==> r[i] == TransformItem(items[i], s3, baseUrl, isLocalhost)
  {
    if |items| == 0 then []
    else [TransformItem(items[0], s3, baseUrl, isLocalhost)] + TransformItems(items[1..], s3, baseUrl, isLocalhost)
  }

  /**
    `item.display?.to || 0`. A non-numeric `to` cannot reach this point (the
    items are validated) and is read as 0.
   */
  function ItemEnd(it: TrackItem): int {
    if it.display.Some? && it.display.value.to.Num? then it.display.value.to.ms else 0
  }

  /** `items.reduce((max, item) => Math.max(max, end(item)), acc)`. */
  function MaxFrom(acc: int, items: seq<TrackItem>): (r: int)
    decreases |items|
    ensures r >= acc
    ensures forall i :: 0 <= i < |items| ==> ItemEnd(items[i]) <= r
    ensures r == acc || exists i :: 0 <= i < |items| && r == ItemEnd(items[i])
  {
    if |items| == 0 then acc
    else MaxFrom(Max(acc, ItemEnd(items[0])), items[1..])
  }

  /** The video's length in milliseconds: the latest end, and 0 for no items. */
  function MaxDuration(items: seq<TrackItem>): (r: int)
    ensures r >= 0
    ensures forall i :: 0 <= i < |items| ==> ItemEnd(items[i]) <= r
    ensures r == 0 || exists i :: 0 <= i < |items| && r == ItemEnd(items[i])
  {
    MaxFrom(0, items)
  }

  function Entries(items: seq<TrackItem>): (r: seq<Entry>)
    ensures |r| == |items|
    ensures forall i :: 0 <= i < |items| ==> r[i] == Item(items[i])
  {
    if |items| == 0 then [] else [Item(items[0])] + Entries(items[1..])
  }

  /** The POST body the export submits. */
  function RequestOf(d: Design, items: seq<TrackItem>, durationInSeconds: real): (req: RenderRoute.RenderRequest)
    ensures req.trackItems == RenderRoute.Array(Entries(items))
    ensures req.fps == 30 && req.durationInSeconds == durationInSeconds
    ensures req.videoWidth != 0 && req.videoHeight != 0
    ensures d.size.Some? && d.size.value.width != 0 ==> req.videoWidth == d.size.value.width
    ensures d.size.Some? && d.size.value.height != 0 ==> req.videoHeight == d.size.value.height
    ensures req.background.Some? && (d.background.Some? ==> req.background == d.background)
    ensures req.maxRetries == Some(1) && req.framesPerLambda == Some(20)
    ensures req.codec == "h264" && req.imageFormat == "jpeg" && req.privacy == "public"
    ensures req.siteName == RenderRoute.DefaultSiteName
  {
    var width := if d.size.Some? && d.size.value.width != 0 then d.size.value.width else 1080;
    var height := if d.size.Some? && d.size.value.height != 0 then d.size.value.height else 1920;
    RenderRoute.RenderRequest(
      RenderRoute.Array(Entries(items)),
      Some(d.background.GetOr(Root.Background("color", "transparent"))),
      width, height, 30, durationInSeconds,
      "h264", "jpeg", Some(1), Some(20), "public", "video-editor-site")
  }

  /** The render endpoint's answer: an error with its message (possibly empty), or the started job. */
  datatype SubmitReply = Rejected(message: string) | Accepted(renderId: string, bucketName: string, functionName: string)

  datatype Job = Job(renderId: string, bucketName: string, functionName: string)

  /**
    What `startExport` meets: the page origin (`""` off the browser), the
    object URL a JSON export gets, the upload endpoint's map (or failure)
    and the render endpoint's answer.
   */
  datatype ExportEnv = ExportEnv(origin: string, jsonUrl: string, upload: Result<map<string, string>>, submit: SubmitReply)

  /**
    The outcome of `startExport`: the store, the message shown to the user
    on failure, the paths sent for upload, the render request sent and the
    job being polled.
   */
  datatype StartOutcome = StartOutcome(
    state: DownloadState,
    alert: Option<string>,
    uploaded: Option<seq<string>>,
    request: Option<RenderRoute.RenderRequest>,
    job: Option<Job>)

  const UploadFailed: string := "Cannot render: Failed to upload local files to S3"

  /** A thrown error: exporting stops, progress is reset and the message is shown. */
  function Abort(s: DownloadState, message: string, uploaded: Option<seq<string>>,
                 request: Option<RenderRoute.RenderRequest>): (r: StartOutcome)
    ensures !r.state.exporting && r.state.progress == 0 && r.alert == Some(message) && r.job.None?
    ensures r.uploaded == uploaded && r.request == request
  {
    StartOutcome(s.(exporting := false, progress := 0), Some(message), uploaded, request, None)
  }

  /** The items, made renderable, that an export of `d` from `origin` with upload map `s3` sends. */
  function ExportItems(d: Design, origin: string, s3: map<string, string>): seq<TrackItem> {
    TransformItems(ValidTrackItems(ItemsOf(d)), s3, origin, IsLocalhost(origin))
  }

  /** The upload step: the map, or `{}` when there is nothing to upload or the page is not on localhost. */
  function UploadMap(d: Design, env: ExportEnv): (r: Result<map<string, string>>)
    ensures !(IsLocalhost(env.origin) && |LocalFilePaths(ValidTrackItems(ItemsOf(d)))| > 0) ==> r == Ok(map[])
  {
    if IsLocalhost(env.origin) && |LocalFilePaths(ValidTrackItems(ItemsOf(d)))| > 0 then env.upload else Ok(map[])
  }

  /** `startExport`, up to the first status poll. */
  function StartExport(s0: DownloadState, env: ExportEnv): (r: StartOutcome)
    ensures s0.payload.None? ==> r == Abort(s0.(exporting := true, displayProgressModal := true, progress := 0),
                                            "Payload is not defined", None, None)
    ensures s0.payload.Some? && s0.exportType == Json ==>
      && r.state == s0.(exporting := false, displayProgressModal := true, progress := 100,
                        output := Some(Output(env.jsonUrl, "json")))
      && r.request.None? && r.uploaded.None? && r.alert.None?
    ensures s0.payload.Some? && s0.exportType == Mp4 ==>
      r == Mp4Export(s0.(exporting := true, displayProgressModal := true, progress := 0), s0.payload.value, env)
    ensures r.job.Some? ==> r.state.exporting && r.state.progress == 1 && r.alert.None? && r.request.Some?
    ensures r.job.None? ==> !r.state.exporting
  {
    var s := s0.(exporting := true, displayProgressModal := true, progress := 0);
    if s.payload.None? then Abort(s, "Payload is not defined", None, None)
    else if s.exportType == Json then
      StartOutcome(s.(exporting := false, output := Some(Output(env.jsonUrl, "json")), progress := 100), None, None, None, None)
    else Mp4Export(s, s.payload.value, env)
  }

  /**
    The video export of `d`: local files are uploaded first when the page is
    on localhost and there are any; the request carries the rewritten valid
    items and their latest end in seconds; a started job is polled.
   */
  function Mp4Export(s: DownloadState, d: Design, env: ExportEnv): (r: StartOutcome)
    ensures r.uploaded.Some? <==> IsLocalhost(env.origin) && |LocalFilePaths(ValidTrackItems(ItemsOf(d)))| > 0
    ensures r.uploaded.Some? ==> r.uploaded.value == LocalFilePaths(ValidTrackItems(ItemsOf(d)))
    ensures UploadMap(d, env).Err? ==> r.alert == Some(UploadFailed) && r.request.None?
    ensures r.request.Some? ==>
      UploadMap(d, env).Ok? && r.request.value == ExportRequest(d, env.origin, UploadMap(d, env).value)
    ensures r.job.Some? ==> r.state == s.(progress := 1) && r.alert.None? && r.request.Some?
    ensures r.job.Some? ==> r.job.value.renderId != "" && r.job.value.bucketName != "" && r.job.value.functionName != ""
    ensures r.job.None? ==> !r.state.exporting && r.alert.Some?
  {
    var paths := LocalFilePaths(ValidTrackItems(ItemsOf(d)));
    var uploaded := if IsLocalhost(env.origin) && |paths| > 0 then Some(paths) else None;
    match UploadMap(d, env)
    case Err(_) => Abort(s, UploadFailed, uploaded, None)
    case Ok(s3) => Submit(s.(progress := 1), ExportRequest(d, env.origin, s3), uploaded, env.submit)
  }

  /** The render request of an export: the rewritten items, lasting until the latest of them ends. */
  function ExportRequest(d: Design, origin: string, s3: map<string, string>): RenderRoute.RenderRequest {
    var items := ExportItems(d, origin, s3);
    RequestOf(d, items, MaxDuration(items) as real / 1000.0)
  }

  /**
    Sending the render request: a rejection shows its message (or a generic
    one), an answer missing any of its three names is invalid, and only a
    complete answer starts a job.
   */
  function Submit(s: DownloadState, req: RenderRoute.RenderRequest, uploaded: Option<seq<string>>,
                  reply: SubmitReply): (r: StartOutcome)
    ensures r.uploaded == uploaded && r.request == Some(req)
    ensures r.job.Some? <==>
      reply.Accepted? && reply.renderId != "" && reply.bucketName != "" && reply.functionName != ""
    ensures r.job.Some? ==>
      (r.state == s && r.alert.None? && r.job.value == Job(reply.renderId, reply.bucketName, reply.functionName))
    ensures r.job.None? ==> !r.state.exporting && r.alert.Some?
    ensures reply.Rejected? && reply.message != "" ==> r.alert == Some(reply.message)
  {
    match reply
    case Rejected(m) =>
      Abort(s, if m != "" then m else "Failed to submit export request.", uploaded, Some(req))
    case Accepted(renderId, bucketName, functionName) =>
      if renderId == "" || bucketName == "" || functionName == "" then
        Abort(s, "Invalid response from render API", uploaded, Some(req))
      else StartOutcome(s, None, uploaded, Some(req), Some(Job(renderId, bucketName, functionName)))
  }

  /** Items the export sends are all still valid: the renderer's own filter drops none of them. */
  lemma {:induction false} ExportedItemsAllValid(items: seq<TrackItem>, s3: map<string, string>, baseUrl: string,
                                                 isLocalhost: bool)
    requires forall i :: 0 <= i < |items| ==> ExportKeeps(Item(items[i]))
    ensures |Compositor.ValidItems(Entries(TransformItems(items, s3, baseUrl, isLocalhost)))| == |items|
  {
    if |items| > 0 {
      var t := TransformItems(items, s3, baseUrl, isLocalhost);
      assert Entries(t)[1..] == Entries(t[1..]);
      assert t[1..] == TransformItems(items[1..], s3, baseUrl, isLocalhost);
      ExportFilterMatchesRenderer(Entries(t)[0]);
      ExportedItemsAllValid(items[1..], s3, baseUrl, isLocalhost);
    }
  }

  /**
    End to end: for the request an export sends, the render endpoint's props
    size the composition so that every `Sequence` of the renderer's plan ends
    within the video.
   */
  lemma ExportedPlanFits(s0: DownloadState, env: ExportEnv, i: int)
    requires StartExport(s0, env).request.Some?
    requires var req := StartExport(s0, env).request.value;
      var props := RenderRoute.InputProps(req, req.trackItems.entries);
      0 <= i < |Compositor.Plan(props.trackItems, props.fps)|
    ensures var req := StartExport(s0, env).request.value;
      var props := RenderRoute.InputProps(req, req.trackItems.entries);
      var p := Compositor.Plan(props.trackItems, props.fps)[i];
      0 <= p.fromFrame && p.fromFrame + p.durationInFrames <= Root.CalculateMetadata(props).durationInFrames
  {
    var d := s0.payload.value;
    var items := ExportItems(d, env.origin, UploadMap(d, env).value);
    assert StartExport(s0, env).request.value == RequestOf(d, items, MaxDuration(items) as real / 1000.0);
    RequestPlanFits(d, items, i);
  }

  /** The same, for the request built from any items: the length is their latest end, at 30 fps. */
  lemma RequestPlanFits(d: Design, items: seq<TrackItem>, i: int)
    requires var req := RequestOf(d, items, MaxDuration(items) as real / 1000.0);
      var props := RenderRoute.InputProps(req, req.trackItems.entries);
      0 <= i < |Compositor.Plan(props.trackItems, props.fps)|
    ensures var req := RequestOf(d, items, MaxDuration(items) as real / 1000.0);
      var props := RenderRoute.InputProps(req, req.trackItems.entries);
      var p := Compositor.Plan(props.trackItems, props.fps)[i];
      0 <= p.fromFrame && p.fromFrame + p.durationInFrames <= Root.CalculateMetadata(props).durationInFrames
  {
    var req := RequestOf(d, items, MaxDuration(items) as real / 1000.0);
    PropsPlanFits(RenderRoute.InputProps(req, req.trackItems.entries), items, i);
  }

  /** Props carrying `items` and, when some item ends after 0, their latest end as the length. */
  lemma PropsPlanFits(props: Root.CompositionProps, items: seq<TrackItem>, i: int)
    requires props.fps > 0 && props.trackItems == Entries(items)
    requires MaxDuration(items) > 0 ==> props.durationInSeconds == MaxDuration(items) as real / 1000.0
    requires 0 <= i < |Compositor.Plan(props.trackItems, props.fps)|
    ensures var p := Compositor.Plan(props.trackItems, props.fps)[i];
      0 <= p.fromFrame && p.fromFrame + p.durationInFrames <= Root.CalculateMetadata(props).durationInFrames
  {
    var maxDuration := MaxDuration(items);
    ValidEndsWithin(items, maxDuration);
    Compositor.PlanEntryValid(props.trackItems, props.fps, i);
    Root.PlanFitsComposition(props, maxDuration, i);
  }

  /** Every clip the renderer validates out of `items` ends by their latest end. */
  lemma ValidEndsWithin(items: seq<TrackItem>, maxDuration: int)
    requires forall i :: 0 <= i < |items| ==> ItemEnd(items[i]) <= maxDuration
    ensures forall c :: c in Compositor.ValidItems(Entries(items)) ==> c.to <= maxDuration
  {
    forall c | c in Compositor.ValidItems(Entries(items)) ensures c.to <= maxDuration {
      var k :| 0 <= k < |Compositor.ValidItems(Entries(items))| && Compositor.ValidItems(Entries(items))[k] == c;
      assert Item(c.item) in Entries(items);
      var j :| 0 <= j < |items| && Entries(items)[j] == Item(c.item);
      assert ItemEnd(items[j]) == c.to;
    }
  }

  /** One render error as shown: its message, else its stack, else its JSON text. */
  function ErrorText(e: Lambda.RenderError): (t: string)
    ensures e.message != "" ==> t == e.message
    ensures e.message == "" && e.stack != "" ==> t == e.stack
    ensures e.message == "" && e.stack == "" ==> t == e.json
  {
    if e.message != "" then e.message else if e.stack != "" then e.stack else e.json
  }

  function ErrorTexts(errors: seq<Lambda.RenderError>): (r: seq<string>)
    ensures |r| == |errors|
    ensures forall i :: 0 <= i < |errors| ==> r[i] == ErrorText(errors[i])
  {
    if |errors| == 0 then [] else [ErrorText(errors[0])] + ErrorTexts(errors[1..])
  }

  const FailedOnLambda: string := "Render failed on Lambda"
  const FailedPrefix: string := "Render failed:\n"

  /** The failure message: generic with no errors, else the prefix and one line per error. */
  function FailureMessage(errors: seq<Lambda.RenderError>): (m: string)
    ensures |errors| == 0 ==> m == FailedOnLambda
    ensures |errors| > 0 ==> StartsWith(m, FailedPrefix) && m[|FailedPrefix|..] == Join(ErrorTexts(errors), "\n")
  {
    if |errors| == 0 then FailedOnLambda
    else
      var m := FailedPrefix + Join(ErrorTexts(errors), "\n");
      assert m[..|FailedPrefix|] == FailedPrefix;
      m
  }

  /** A single error is reported by itself after the prefix. */
  lemma SingleErrorMessage(e: Lambda.RenderError)
    ensures FailureMessage([e]) == FailedPrefix + ErrorText(e)
  {
    assert FailureMessage([e])[|FailedPrefix|..] == ErrorText(e);
    assert FailureMessage([e])[..|FailedPrefix|] == FailedPrefix;
  }

  /** The status endpoint's answer: a failure with its message (possibly empty), or the progress report. */
  datatype StatusReply = StatusRejected(message: string) | StatusOk(report: Lambda.ProgressReport)

  datatype PollOutcome = PollOutcome(state: DownloadState, alert: Option<string>, pollAgain: bool)

  /** `Math.round((progress || 0) * 100)`. */
  function ProgressPercent(progress: real): (p: int)
    ensures 0.0 <= progress <= 1.0 ==> 0 <= p <= 100
    ensures p == FrameMath.Round(progress * 100.0)
  {
    FrameMath.Round(progress * 100.0)
  }

  /**
    One status poll: the progress is updated from the report; a completed
    render with an output URL finishes the export; a failed or fatally
    errored one aborts with the failure message; anything else (including a
    completed render without a URL) polls again.
   */
  function PollStep(s: DownloadState, reply: StatusReply): (r: PollOutcome)
    ensures reply.StatusRejected? ==>
      && r.state == s.(exporting := false, progress := 0) && !r.pollAgain
      && r.alert == Some(if reply.message != "" then reply.message else "Failed to fetch export status.")
    ensures reply.StatusOk? && reply.report.status == "COMPLETED" && reply.report.outputUrl != "" ==>
      && r.state == s.(exporting := false, output := Some(Output(reply.report.outputUrl, "mp4")), progress := 100)
      && !r.pollAgain && r.alert.None?
    ensures reply.StatusOk? && !(reply.report.status == "COMPLETED" && reply.report.outputUrl != "")
            && (reply.report.status == "FAILED" || reply.report.fatalErrorEncountered) ==>
      && r.state == s.(exporting := false, progress := 0) && !r.pollAgain
      && r.alert == Some(FailureMessage(reply.report.errors))
    ensures r.pollAgain ==> r.state == s.(progress := ProgressPercent(reply.report.progress)) && r.alert.None?
    ensures r.pollAgain <==> reply.StatusOk? && !(reply.report.status == "COMPLETED" && reply.report.outputUrl != "")
                             && reply.report.status != "FAILED" && !reply.report.fatalErrorEncountered
  {
    match reply
    case StatusRejected(m) =>
      PollOutcome(s.(exporting := false, progress := 0),
        Some(if m != "" then m else "Failed to fetch export status."), false)
    case StatusOk(report) =>
      var s1 := s.(progress := ProgressPercent(report.progress));
      if report.status == "COMPLETED" && report.outputUrl != "" then
        PollOutcome(s1.(exporting := false, output := Some(Output(report.outputUrl, "mp4")), progress := 100), None, false)
      else if report.status == "FAILED" || report.fatalErrorEncountered then
        PollOutcome(s1.(exporting := false, progress := 0), Some(FailureMessage(report.errors)), false)
      else PollOutcome(s1, None, true)
  }

  /**
    Against the remote progress as the infrastructure maps it: a finished
    render with an output file completes the export, even when a fatal error
    is also reported; an unfinished one with a fatal error fails it; an
    unfinished one without polls again.
   */
  lemma PollOfRemoteProgress(s: DownloadState, p: Lambda.RemoteProgress)
    ensures var r := PollStep(s, StatusOk(Lambda.Report(p)));
      && (p.done && p.outputFile != "" ==> r.state.output == Some(Output(p.outputFile, "mp4")) && !r.pollAgain)
      && (!p.done && p.fatalErrorEncountered ==> r.alert == Some(FailureMessage(p.errors)) && !r.pollAgain)
      && (!p.done && !p.fatalErrorEncountered ==> r.pollAgain)
  {
  }

  /**
    A render reported finished but without an output file, and without a
    fatal error, keeps the export polling: the store never leaves the
    exporting state on such a report.
   */
  lemma DoneWithoutOutputPollsAgain(s: DownloadState, p: Lambda.RemoteProgress)
    requires p.done && p.outputFile == "" && !p.fatalErrorEncountered
    ensures PollStep(s, StatusOk(Lambda.Report(p))).pollAgain
    ensures PollStep(s, StatusOk(Lambda.Report(p))).state.exporting == s.exporting
  {
  }
}

=== FILE: frame_math.dfy ===
/**
  Conversions between milliseconds and frames. The renderer only ever floors
  (`Math.floor(ms / 1000 * fps)`), the composition length is a ceiling, and
  progress and seek targets use `Math.round`.
 */
module FrameMath {

  /** `Math.floor((ms / 1000) * fps)`, computed exactly. */
  function MsToFrames(ms: int, fps: int): (f: int)
    ensures f * 1000 <= ms * fps < (f + 1) * 1000
  {
    (ms * fps) / 1000
  }

  /** Flooring is monotone: a later time is never at an earlier frame. */
  lemma MsToFramesMonotone(a: int, b: int, fps: int)
    requires a <= b && fps >= 0
    ensures MsToFrames(a, fps) <= MsToFrames(b, fps)
  {
    assert a * fps <= b * fps by {
      assert (b - a) * fps >= 0;
    }
  }

  /** `Math.floor(x)` on a real. */
  function Floor(x: real): (f: int)
    ensures f as real <= x < f as real + 1.0
  {
    x.Floor
  }

  /** `Math.ceil(x)`. */
  function Ceil(x: real): (c: int)
    ensures x <= c as real < x + 1.0
  {
    -((-x).Floor)
  }

  /** `Math.round(x)`: halves round up. */
  function Round(x: real): (r: int)
    ensures x - 0.5 < r as real <= x + 0.5
  {
    (x + 0.5).Floor
  }

  /** The unfloored frame position `(ms / 1000) * fps` used by the editor preview. */
  function FramePosition(ms: int, fps: int): real {
    (ms as real / 1000.0) * (fps as real)
  }

  /** The renderer's frame is the floor of the preview's exact position. */
  lemma FloorOfFramePosition(ms: int, fps: int)
    ensures Floor(FramePosition(ms, fps)) == MsToFrames(ms, fps)
  {
    var f := MsToFrames(ms, fps);
    var x := FramePosition(ms, fps);
    assert x == (ms * fps) as real / 1000.0;
    assert f as real <= x < f as real + 1.0 by {
      assert (f * 1000) as real <= (ms * fps) as real < ((f + 1) * 1000) as real;
    }
  }
}

=== FILE: lambda.dfy ===
/**
  The server-side render infrastructure (`remotion-lambda.ts`): the storage
  bucket, the render function and the deployed site are obtained in that
  order, the site through a one-entry cache; renders are started with
  defaulted options, and the remote progress report is mapped to a status.

  Every remote call is an answer of the `Aws` record; the calls made are
  returned as a trace so that "no remote call" and call order can be stated.
 */
module Lambda {
  import opened Common
  import Root

  /** A deployed site as the remote listing and the deployer report it. */
  datatype Site = Site(id: string, serveUrl: string)

  datatype RenderStarted = RenderStarted(renderId: string, bucketName: string)

  /** One error of a render: its `message`, its `stack` and its JSON text (`""` when absent). */
  datatype RenderError = RenderError(message: string, stack: string, json: string)

  /** What the remote progress query reports; `outputFile` is `""` while there is none. */
  datatype RemoteProgress = RemoteProgress(
    done: bool,
    overallProgress: real,
    outputFile: string,
    fatalErrorEncountered: bool,
    errors: seq<RenderError>)

  /** The options `renderVideo` hands to the remote renderer, after defaulting. */
  datatype RenderInput = RenderInput(
    functionName: string,
    serveUrl: string,
    composition: string,
    inputProps: Root.CompositionProps,
    codec: string,
    imageFormat: string,
    maxRetries: int,
    framesPerLambda: int,
    privacy: string,
    outName: string)

  /**
    The answers of the cloud provider: the bucket, the list of compatible
    function names, the function deployer, the site listing of a bucket, the
    site deployer (bucket and requested name, `""` for none), the render
    starter and the progress query (render id, bucket, function).
   */
  datatype Aws = Aws(
    bucket: Result<string>,
    functions: Result<seq<string>>,
    deployFunction: Result<string>,
    sites: string -> Result<seq<Site>>,
    deploySite: (string, string) -> Result<Site>,
    renderMedia: RenderInput -> Result<RenderStarted>,
    progress: (string, string, string) -> Result<RemoteProgress>)

  /** The remote calls, in the order they are made. */
  datatype Call =
    | GetBucket
    | GetFunctions
    | DeployFunction
    | GetSites(bucket: string)
    | DeploySite(bucket: string, siteName: string)

  /** `cachedSiteInfo`: one slot, not keyed by bucket or name. */
  datatype SiteInfo = SiteInfo(serveUrl: string, siteName: string, bucketName: string)

  datatype SiteStep = SiteStep(result: Result<Site>, cache: Option<SiteInfo>, calls: seq<Call>)

  /** The cached site answers the request: not forced, same bucket, and no name or the same name. */
  predicate CacheHit(cache: Option<SiteInfo>, bucketName: string, siteName: string, force: bool) {
    && !force
    && cache.Some?
    && cache.value.bucketName == bucketName
    && (siteName == "" || cache.value.siteName == siteName)
  }

  /** `sites.find(s => s.id === siteName)`. */
  function FindSite(sites: seq<Site>, id: string): Option<Site> {
    FindFirst(sites, (s: Site) => s.id == id)
  }

  /** The site the lookup step finds; a failed listing counts as finding nothing. */
  function Lookup(listing: Result<seq<Site>>, siteName: string): (r: Option<Site>)
    ensures r.Some? ==> listing.Ok? && r.value in listing.value && r.value.id == siteName
    ensures listing.Err? ==> r.None?
  {
    match listing
    case Err(_) => None
    case Ok(sites) => FindSite(sites, siteName)
  }

  /**
    `deployRemotionSite`: the cached site when it answers the request;
    otherwise, unless forced and when a name is given, an existing site of
    that name in the bucket; otherwise a fresh deployment. Every success
    leaves the returned site in the cache under this bucket; a failure
    leaves the cache as it was.
   */
  function DeployRemotionSite(cache: Option<SiteInfo>, bucketName: string, siteName: string, force: bool, aws: Aws)
    : (r: SiteStep)
    ensures r.calls == [] <==> CacheHit(cache, bucketName, siteName, force)
    ensures CacheHit(cache, bucketName, siteName, force) ==>
      r.result == Ok(Site(cache.value.siteName, cache.value.serveUrl)) && r.cache == cache
    ensures force ==> r.calls == [DeploySite(bucketName, siteName)]
    ensures r.result.Ok? ==> r.cache == Some(SiteInfo(r.result.value.serveUrl, r.result.value.id, bucketName))
    ensures r.result.Err? ==> r.cache == cache
    ensures forall i :: 0 <= i < |r.calls| ==> r.calls[i] in {GetSites(bucketName), DeploySite(bucketName, siteName)}
  {
    if CacheHit(cache, bucketName, siteName, force) then
      SiteStep(Ok(Site(cache.value.siteName, cache.value.serveUrl)), cache, [])
    else
      var lookup := if !force && siteName != "" then [GetSites(bucketName)] else [];
      var existing := if !force && siteName != "" then Lookup(aws.sites(bucketName), siteName) else None;
      if existing.Some? then
        SiteStep(Ok(existing.value), Some(SiteInfo(existing.value.serveUrl, existing.value.id, bucketName)), lookup)
      else
        var calls := lookup + [DeploySite(bucketName, siteName)];
        match aws.deploySite(bucketName, siteName)
        case Err(m) => SiteStep(Err(m), cache, calls)
        case Ok(site) => SiteStep(Ok(site), Some(SiteInfo(site.serveUrl, site.id, bucketName)), calls)
  }

  /** A named site that already exists in the bucket is reused: listed, cached and returned, never deployed. */
  lemma ExistingSiteReused(cache: Option<SiteInfo>, bucketName: string, siteName: string, aws: Aws, sites: seq<Site>, s: Site)
    requires !CacheHit(cache, bucketName, siteName, false) && siteName != ""
    requires aws.sites(bucketName) == Ok(sites) && s in sites && s.id == siteName
    ensures DeployRemotionSite(cache, bucketName, siteName, false, aws).calls == [GetSites(bucketName)]
    ensures DeployRemotionSite(cache, bucketName, siteName, false, aws).result.Ok?
    ensures DeployRemotionSite(cache, bucketName, siteName, false, aws).result.value.id == siteName
  {
    assert FindSite(sites, siteName).Some?;
  }

  /** A listing that fails is swallowed: the site is deployed as if no lookup had been tried. */
  lemma ListingErrorDeploys(cache: Option<SiteInfo>, bucketName: string, siteName: string, aws: Aws)
    requires !CacheHit(cache, bucketName, siteName, false) && siteName != ""
    requires aws.sites(bucketName).Err?
    ensures DeployRemotionSite(cache, bucketName, siteName, false, aws).calls
      == [GetSites(bucketName), DeploySite(bucketName, siteName)]
    ensures DeployRemotionSite(cache, bucketName, siteName, false, aws).result == aws.deploySite(bucketName, siteName)
  {
  }

  /**
    After a success, asking again for the same bucket, unforced, with no name
    or the name just returned, is answered from the cache without a remote call,
    whatever the provider would now answer.
   */
  lemma RepeatHits(cache: Option<SiteInfo>, bucketName: string, siteName: string, force: bool, aws: Aws,
                   again: string, aws2: Aws)
    requires DeployRemotionSite(cache, bucketName, siteName, force, aws).result.Ok?
    requires again == "" || again == DeployRemotionSite(cache, bucketName, siteName, force, aws).result.value.id
    ensures var r := DeployRemotionSite(cache, bucketName, siteName, force, aws);
      var r2 := DeployRemotionSite(r.cache, bucketName, again, false, aws2);
      r2.calls == [] && r2.result == r.result
  {
  }

  /** `clearSiteCache`. */
  function ClearSiteCache(): (c: Option<SiteInfo>)
    ensures forall b, n, f :: !CacheHit(c, b, n, f)
  {
    None
  }

  /** After the cache is cleared the next request always reaches the provider. */
  lemma ClearedCacheMisses(bucketName: string, siteName: string, force: bool, aws: Aws)
    ensures |DeployRemotionSite(ClearSiteCache(), bucketName, siteName, force, aws).calls| > 0
  {
  }

  datatype FunctionStep = FunctionStep(result: Result<string>, calls: seq<Call>)

  const NoFunctionName: string := "Failed to get function name from deployment"

  /**
    `ensureLambdaFunction`: the first compatible function when it has a
    (truthy) name; otherwise a fresh deployment, whose empty name is an error.
   */
  function EnsureLambdaFunction(aws: Aws): (r: FunctionStep)
    ensures r.result.Ok? ==> r.result.value != ""
    ensures |r.calls| > 0 && r.calls[0] == GetFunctions
    ensures DeployFunction in r.calls <==> aws.functions.Ok? && (|aws.functions.value| == 0 || aws.functions.value[0] == "")
    ensures aws.functions.Ok? && |aws.functions.value| > 0 && aws.functions.value[0] != "" ==>
      r.result == Ok(aws.functions.value[0])
    ensures DeployFunction in r.calls && aws.deployFunction == Ok("") ==> r.result == Err(NoFunctionName)
    ensures forall i :: 0 <= i < |r.calls| ==> r.calls[i] in {GetFunctions, DeployFunction}
  {
    match aws.functions
    case Err(m) => FunctionStep(Err(m), [GetFunctions])
    case Ok(names) =>
      if |names| > 0 && names[0] != "" then FunctionStep(Ok(names[0]), [GetFunctions])
      else
        var calls := [GetFunctions, DeployFunction];
        match aws.deployFunction
        case Err(m) => FunctionStep(Err(m), calls)
        case Ok(name) => if name == "" then FunctionStep(Err(NoFunctionName), calls) else FunctionStep(Ok(name), calls)
  }

  datatype Infrastructure = Infrastructure(bucketName: string, functionName: string, serveUrl: string, siteName: string)

  datatype SetupStep = SetupStep(result: Result<Infrastructure>, cache: Option<SiteInfo>, calls: seq<Call>)

  /** `setupRemotionInfrastructure`: bucket, then function, then site; the first failure is thrown on. */
  function SetupRemotionInfrastructure(cache: Option<SiteInfo>, siteName: string, force: bool, aws: Aws): (r: SetupStep)
    ensures |r.calls| > 0 && r.calls[0] == GetBucket
    ensures r.result.Ok? ==>
      && aws.bucket.Ok?
      && r.result.value.bucketName == aws.bucket.value
      && Ok(r.result.value.functionName) == EnsureLambdaFunction(aws).result
      && DeployRemotionSite(cache, aws.bucket.value, siteName, force, aws).result
         == Ok(Site(r.result.value.siteName, r.result.value.serveUrl))
      && r.cache == Some(SiteInfo(r.result.value.serveUrl, r.result.value.siteName, r.result.value.bucketName))
  {
    match aws.bucket
    case Err(m) => SetupStep(Err(m), cache, [GetBucket])
    case Ok(bucketName) =>
      var fn := EnsureLambdaFunction(aws);
      match fn.result
      case Err(m) => SetupStep(Err(m), cache, [GetBucket] + fn.calls)
      case Ok(functionName) =>
        var site := DeployRemotionSite(cache, bucketName, siteName, force, aws);
        var calls := [GetBucket] + fn.calls + site.calls;
        match site.result
        case Err(m) => SetupStep(Err(m), site.cache, calls)
        case Ok(s) => SetupStep(Ok(Infrastructure(bucketName, functionName, s.serveUrl, s.id)), site.cache, calls)
  }

  /** The step a call belongs to: 0 for the bucket, 1 for the function, 2 for the site. */
  function Stage(c: Call): nat {
    match c
    case GetBucket => 0
    case GetFunctions => 1
    case DeployFunction => 1
    case GetSites(_) => 2
    case DeploySite(_, _) => 2
  }

  /**
    Setup never goes back a step: the calls are ordered bucket, function,
    site, and every site call is made on the bucket of the first step.
   */
  lemma SetupOrder(cache: Option<SiteInfo>, siteName: string, force: bool, aws: Aws)
    ensures var calls := SetupRemotionInfrastructure(cache, siteName, force, aws).calls;
      && (forall i, j :: 0 <= i < j < |calls| ==> Stage(calls[i]) <= Stage(calls[j]))
      && (forall i :: 0 <= i < |calls| && Stage(calls[i]) == 2 ==> aws.bucket.Ok? && calls[i].bucket == aws.bucket.value)
  {
    if aws.bucket.Ok? {
      var fn := EnsureLambdaFunction(aws);
      if fn.result.Ok? {
        var site := DeployRemotionSite(cache, aws.bucket.value, siteName, force, aws);
        StagesOrdered(fn.calls, site.calls, aws.bucket.value);
      } else {
        StagesOrdered(fn.calls, [], aws.bucket.value);
        assert [GetBucket] + fn.calls + [] == [GetBucket] + fn.calls;
      }
    }
  }

  /** The bucket call, then function-step calls, then site calls on `bucket`, are in stage order. */
  lemma StagesOrdered(b: seq<Call>, c: seq<Call>, bucket: string)
    requires forall k :: 0 <= k < |b| ==> Stage(b[k]) == 1
    requires forall k :: 0 <= k < |c| ==> Stage(c[k]) == 2 && c[k].bucket == bucket
    ensures var s := [GetBucket] + b + c;
      && (forall i, j :: 0 <= i < j < |s| ==> Stage(s[i]) <= Stage(s[j]))
      && (forall i :: 0 <= i < |s| && Stage(s[i]) == 2 ==> s[i].bucket == bucket)
  {
    var s := [GetBucket] + b + c;
    forall i | 0 <= i < |s| ensures Stage(s[i]) == (if i == 0 then 0 else if i <= |b| then 1 else 2) {
      if 0 < i <= |b| {
        assert s[i] == b[i - 1];
      } else if i > |b| {
        assert s[i] == c[i - 1 - |b|];
      }
    }
    forall i | 0 <= i < |s| && Stage(s[i]) == 2 ensures s[i].bucket == bucket {
      assert s[i] == c[i - 1 - |b|];
    }
  }

  /** The options of `renderVideo`; empty strings and `None` stand for omitted ones. */
  datatype RenderParams = RenderParams(
    functionName: string,
    serveUrl: string,
    composition: string,
    inputProps: Root.CompositionProps,
    codec: string,
    imageFormat: string,
    maxRetries: Option<int>,
    framesPerLambda: Option<int>,
    privacy: string,
    outputPath: string)

  /**
    The defaults of `renderVideo`: the string options fall back with `||`
    (so an empty one is replaced), the numeric ones with `??` (so 0 is kept).
   */
  function RenderOptions(p: RenderParams): (r: RenderInput)
    ensures r.functionName == p.functionName && r.serveUrl == p.serveUrl
    ensures r.composition == p.composition && r.inputProps == p.inputProps && r.outName == p.outputPath
    ensures r.codec != "" && (p.codec != "" ==> r.codec == p.codec) && (p.codec == "" ==> r.codec == "h264")
    ensures r.imageFormat != "" && (p.imageFormat != "" ==> r.imageFormat == p.imageFormat)
    ensures p.imageFormat == "" ==> r.imageFormat == "jpeg"
    ensures r.privacy != "" && (p.privacy != "" ==> r.privacy == p.privacy) && (p.privacy == "" ==> r.privacy == "public")
    ensures p.maxRetries.Some? ==> r.maxRetries == p.maxRetries.value
    ensures p.maxRetries.None? ==> r.maxRetries == 1
    ensures p.framesPerLambda.Some? ==> r.framesPerLambda == p.framesPerLambda.value
    ensures p.framesPerLambda.None? ==> r.framesPerLambda == 20
  {
    RenderInput(
      p.functionName, p.serveUrl, p.composition, p.inputProps,
      if p.codec != "" then p.codec else "h264",
      if p.imageFormat != "" then p.imageFormat else "jpeg",
      p.maxRetries.GetOr(1),
      p.framesPerLambda.GetOr(20),
      if p.privacy != "" then p.privacy else "public",
      p.outputPath)
  }

  /** A request for zero retries is honoured, unlike an empty codec, which is replaced. */
  lemma ZeroRetriesKept(p: RenderParams)
    requires p.maxRetries == Some(0) && p.codec == ""
    ensures RenderOptions(p).maxRetries == 0 && RenderOptions(p).codec == "h264"
  {
  }

  /** `renderVideo`: start the render with the defaulted options. */
  function RenderVideo(p: RenderParams, aws: Aws): Result<RenderStarted> {
    aws.renderMedia(RenderOptions(p))
  }

  /** The progress report `checkRenderProgress` returns; `outputUrl` is the output file. */
  datatype ProgressReport = ProgressReport(
    status: string,
    progress: real,
    outputFile: string,
    outputUrl: string,
    errors: seq<RenderError>,
    fatalErrorEncountered: bool)

  /** `done` wins over a fatal error, a fatal error over anything still running. */
  function StatusOf(p: RemoteProgress): (s: string)
    ensures s in {"COMPLETED", "FAILED", "PROCESSING"}
    ensures s == "COMPLETED" <==> p.done
    ensures s == "FAILED" <==> !p.done && p.fatalErrorEncountered
  {
    if p.done then "COMPLETED" else if p.fatalErrorEncountered then "FAILED" else "PROCESSING"
  }

  function Report(p: RemoteProgress): (r: ProgressReport)
    ensures r.status == StatusOf(p) && r.progress == p.overallProgress
    ensures r.outputUrl == p.outputFile && r.outputFile == p.outputFile
    ensures r.errors == p.errors && r.fatalErrorEncountered == p.fatalErrorEncountered
  {
    ProgressReport(StatusOf(p), p.overallProgress, p.outputFile, p.outputFile, p.errors, p.fatalErrorEncountered)
  }

  /** `checkRenderProgress`: the remote answer mapped to a report; a remote failure is thrown on. */
  function CheckRenderProgress(renderId: string, bucketName: string, functionName: string, aws: Aws)
    : (r: Result<ProgressReport>)
    ensures aws.progress(renderId, bucketName, functionName).Err? <==> r.Err?
    ensures r.Ok? ==> r.value == Report(aws.progress(renderId, bucketName, functionName).value)
  {
    match aws.progress(renderId, bucketName, functionName)
    case Err(m) => Err(m)
    case Ok(p) => Ok(Report(p))
  }
}

=== FILE: preset_caption.dfy ===
/**
  The caption preset label (`preset-caption.tsx`): the caption's style is
  compared with the "none" preset and then with each style preset, both
  completed with fixed defaults first, and the label names the first match.

  The preset tables live outside this component and are parameters.
 */
module PresetCaption {
  import opened Common
  import Strings

  datatype BoxShadow = BoxShadow(color: string, x: real, y: real, blur: real)

  /** A caption style as stored: every field may be missing (`null` or `undefined`). */
  datatype Style = Style(
    appearedColor: Option<string>,
    activeColor: Option<string>,
    activeFillColor: Option<string>,
    color: Option<string>,
    backgroundColor: Option<string>,
    borderColor: Option<string>,
    borderWidth: Option<real>,
    boxShadow: Option<BoxShadow>,
    animation: Option<string>,
    fontFamily: Option<string>,
    fontUrl: Option<string>,
    textTransform: Option<string>,
    textAlign: Option<string>,
    isKeywordColor: Option<string>,
    preservedColorKeyWord: Option<bool>)

  /** A style with every field present. */
  datatype Complete = Complete(
    appearedColor: string,
    activeColor: string,
    activeFillColor: string,
    color: string,
    backgroundColor: string,
    borderColor: string,
    borderWidth: real,
    boxShadow: BoxShadow,
    animation: string,
    fontFamily: string,
    fontUrl: string,
    textTransform: string,
    textAlign: string,
    isKeywordColor: string,
    preservedColorKeyWord: bool)

  const Black: string := "#000000"
  const Transparent: string := "transparent"
  const DefaultFont: string := "Bangers-Regular"
  const DefaultFontUrl: string := "https://fonts.gstatic.com/s/bangers/v13/FeVQS0BTqb0h60ACL5la2bxii28.ttf"

  /** The defaults `sanitize` fills in, field by field. */
  function Defaults(): Complete {
    Complete(Black, Black, Transparent, Black, Transparent, Transparent, 0.0,
      BoxShadow(Transparent, 0.0, 0.0, 0.0), "", DefaultFont, DefaultFontUrl, "none", "center", Transparent, false)
  }

  /** `o ?? dflt` gave `v`: the present value, else the default. */
  predicate Filled<T(==)>(o: Option<T>, v: T, dflt: T) {
    (o.Some? ==> v == o.value) && (o.None? ==> v == dflt)
  }

  /** Every field of `c` is the field of `p` when present and the default's when missing. */
  predicate FillsMissing(p: Style, c: Complete, d: Complete) {
    && Filled(p.appearedColor, c.appearedColor, d.appearedColor)
    && Filled(p.activeColor, c.activeColor, d.activeColor)
    && Filled(p.activeFillColor, c.activeFillColor, d.activeFillColor)
    && Filled(p.color, c.color, d.color)
    && Filled(p.backgroundColor, c.backgroundColor, d.backgroundColor)
    && Filled(p.borderColor, c.borderColor, d.borderColor)
    && Filled(p.borderWidth, c.borderWidth, d.borderWidth)
    && Filled(p.boxShadow, c.boxShadow, d.boxShadow)
    && Filled(p.animation, c.animation, d.animation)
    && Filled(p.fontFamily, c.fontFamily, d.fontFamily)
    && Filled(p.fontUrl, c.fontUrl, d.fontUrl)
    && Filled(p.textTransform, c.textTransform, d.textTransform)
    && Filled(p.textAlign, c.textAlign, d.textAlign)
    && Filled(p.isKeywordColor, c.isKeywordColor, d.isKeywordColor)
    && Filled(p.preservedColorKeyWord, c.preservedColorKeyWord, d.preservedColorKeyWord)
  }

  /** `sanitize`: `??` on every field, so only missing fields are replaced (an empty string is kept). */
  function Sanitize(p: Style): (c: Complete)
    ensures FillsMissing(p, c, Defaults())
  {
    var d := Defaults();
    Complete(
      p.appearedColor.GetOr(d.appearedColor),
      p.activeColor.GetOr(d.activeColor),
      p.activeFillColor.GetOr(d.activeFillColor),
      p.color.GetOr(d.color),
      p.backgroundColor.GetOr(d.backgroundColor),
      p.borderColor.GetOr(d.borderColor),
      p.borderWidth.GetOr(d.borderWidth),
      p.boxShadow.GetOr(d.boxShadow),
      p.animation.GetOr(d.animation),
      p.fontFamily.GetOr(d.fontFamily),
      p.fontUrl.GetOr(d.fontUrl),
      p.textTransform.GetOr(d.textTransform),
      p.textAlign.GetOr(d.textAlign),
      p.isKeywordColor.GetOr(d.isKeywordColor),
      p.preservedColorKeyWord.GetOr(d.preservedColorKeyWord))
  }

  /** A complete style stored with every field present. */
  function Lift(c: Complete): (p: Style)
    ensures p.appearedColor == Some(c.appearedColor) && p.boxShadow == Some(c.boxShadow)
  {
    Style(Some(c.appearedColor), Some(c.activeColor), Some(c.activeFillColor), Some(c.color),
      Some(c.backgroundColor), Some(c.borderColor), Some(c.borderWidth), Some(c.boxShadow),
      Some(c.animation), Some(c.fontFamily), Some(c.fontUrl), Some(c.textTransform), Some(c.textAlign),
      Some(c.isKeywordColor), Some(c.preservedColorKeyWord))
  }

  /** Present values are left untouched: sanitising a fully present style gives it back. */
  lemma SanitizeKeepsPresent(c: Complete)
    ensures Sanitize(Lift(c)) == c
  {
  }

  /** A style with nothing present sanitises to the defaults. */
  lemma SanitizeEmpty()
    ensures Sanitize(Style(None, None, None, None, None, None, None, None, None, None, None, None, None, None, None))
      == Defaults()
  {
  }

  /** `equalBoxShadow`: two missing shadows are equal, one missing one is not, else field by field. */
  function EqualBoxShadow(a: Option<BoxShadow>, b: Option<BoxShadow>): (r: bool)
    ensures a.None? && b.None? ==> r
    ensures a.None? != b.None? ==> !r
    ensures a.Some? && b.Some? ==>
      (r <==> a.value.color == b.value.color && a.value.x == b.value.x && a.value.y == b.value.y
              && a.value.blur == b.value.blur)
  {
    if a.None? && b.None? then true
    else if a.None? || b.None? then false
    else a.value.color == b.value.color && a.value.x == b.value.x && a.value.y == b.value.y && a.value.blur == b.value.blur
  }

  /** The shadow comparison is an equivalence on optional shadows: it is plain equality. */
  lemma EqualBoxShadowIsEquality(a: Option<BoxShadow>, b: Option<BoxShadow>)
    ensures EqualBoxShadow(a, b) <==> a == b
  {
  }

  /** `(s || fallback)` on a possibly missing string. */
  function OrElse(s: Option<string>, fallback: string): (r: string)
    ensures s.Some? && s.value != "" ==> r == s.value
    ensures !(s.Some? && s.value != "") ==> r == fallback
  {
    if s.Some? && s.value != "" then s.value else fallback
  }

  /**
    `matches`: the stored style against a completed preset. Colours, border
    colour and font must be present and equal; a missing border width counts
    as 0; animation, text transform, text alignment, keyword colour and the
    keep-keyword flag are compared after their falsy values take a default.
   */
  predicate Matches(d: Style, p: Complete) {
    && d.appearedColor == Some(p.appearedColor)
    && d.activeColor == Some(p.activeColor)
    && d.activeFillColor == Some(p.activeFillColor)
    && d.color == Some(p.color)
    && d.backgroundColor == Some(p.backgroundColor)
    && d.borderColor == Some(p.borderColor)
    && d.borderWidth.GetOr(0.0) == p.borderWidth
    && EqualBoxShadow(d.boxShadow, Some(p.boxShadow))
    && OrElse(d.animation, "") == OrElse(Some(p.animation), "")
    && d.fontFamily == Some(p.fontFamily)
    && d.fontUrl == Some(p.fontUrl)
    && OrElse(d.textTransform, "none") == OrElse(Some(p.textTransform), "none")
    && OrElse(d.textAlign, "center") == OrElse(Some(p.textAlign), "center")
    && OrElse(d.isKeywordColor, Transparent) == OrElse(Some(p.isKeywordColor), Transparent)
    && d.preservedColorKeyWord.GetOr(false) == p.preservedColorKeyWord
  }

  /** A caption styled with exactly a completed preset matches that preset. */
  lemma AppliedPresetMatches(c: Complete)
    ensures Matches(Lift(c), c)
  {
  }

  /** A caption whose colour is missing matches no preset at all: it is always "Custom" or worse. */
  lemma MissingColorMatchesNothing(d: Style, p: Complete)
    requires d.color.None?
    ensures !Matches(d, p)
  {
  }

  /** The first preset index the style matches, if any (`findIndex`). */
  function FindMatch(d: Style, presets: seq<Style>): (k: int)
    ensures -1 <= k < |presets|
    ensures k >= 0 ==> Matches(d, Sanitize(presets[k]))
    ensures forall j :: 0 <= j < |presets| && (k < 0 || j < k) ==> !Matches(d, Sanitize(presets[j]))
  {
    if |presets| == 0 then -1
    else if Matches(d, Sanitize(presets[0])) then 0
    else
      var k := FindMatch(d, presets[1..]);
      if k < 0 then -1 else k + 1
  }

  /** A caption item: its `details`, possibly missing. */
  datatype CaptionItem = CaptionItem(details: Option<Style>)

  function EmptyStyle(): Style {
    Style(None, None, None, None, None, None, None, None, None, None, None, None, None, None, None)
  }

  /** The style examined: the group's first caption when there is one, else the item itself; missing details are `{}`. */
  function DetailsOf(group: Option<seq<CaptionItem>>, item: CaptionItem): (d: Style)
    ensures group.Some? && |group.value| > 0 && group.value[0].details.Some? ==> d == group.value[0].details.value
    ensures (group.None? || |group.value| == 0) && item.details.Some? ==> d == item.details.value
    ensures (if group.Some? && |group.value| > 0 then group.value[0] else item).details.None? ==> d == EmptyStyle()
  {
    var first := if group.Some? && |group.value| > 0 then group.value[0] else item;
    first.details.GetOr(EmptyStyle())
  }

  /** `"Preset " + (k + 1)`. */
  function PresetName(k: nat): string {
    "Preset " + Strings.NatToString(k + 1)
  }

  /**
    The label: "None" when the none preset matches (whatever else matches
    too); otherwise "Preset k+1" for the first matching style preset `k`;
    otherwise "Custom".
   */
  function Label(d: Style, none: Style, presets: seq<Style>): (name: string)
    ensures name == "None" <==> Matches(d, Sanitize(none))
    ensures name == "Custom" <==>
      !Matches(d, Sanitize(none)) && forall j :: 0 <= j < |presets| ==> !Matches(d, Sanitize(presets[j]))
    ensures forall k :: 0 <= k < |presets| ==>
      (name == PresetName(k) <==>
        !Matches(d, Sanitize(none)) && Matches(d, Sanitize(presets[k]))
        && forall j :: 0 <= j < k ==> !Matches(d, Sanitize(presets[j])))
  {
    if Matches(d, Sanitize(none)) then "None"
    else
      var k := FindMatch(d, presets);
      PresetNamesDistinct();
      if k >= 0 then PresetName(k) else "Custom"
  }

  /** Preset names differ from each other and from the two fixed labels. */
  lemma PresetNamesDistinct()
    ensures forall k: nat :: PresetName(k) != "None" && PresetName(k) != "Custom"
    ensures forall a: nat, b: nat :: PresetName(a) == PresetName(b) ==> a == b
  {
    forall k: nat ensures PresetName(k) != "None" && PresetName(k) != "Custom" {
      assert PresetName(k)[0] == 'P';
    }
    forall a: nat, b: nat | PresetName(a) == PresetName(b) ensures a == b {
      var sa := Strings.NatToString(a + 1);
      var sb := Strings.NatToString(b + 1);
      assert sa == PresetName(a)[7..];
      assert sb == PresetName(b)[7..];
      Strings.NatToStringRoundTrip(a + 1);
      Strings.NatToStringRoundTrip(b + 1);
    }
  }

  /** Applying style preset `k` to a caption that does not match the none preset or any earlier one labels it "Preset k+1". */
  lemma AppliedPresetLabelled(none: Style, presets: seq<Style>, k: nat)
    requires k < |presets|
    requires !Matches(Lift(Sanitize(presets[k])), Sanitize(none))
    requires forall j :: 0 <= j < k ==> !Matches(Lift(Sanitize(presets[k])), Sanitize(presets[j]))
    ensures Label(Lift(Sanitize(presets[k])), none, presets) == PresetName(k)
  {
    AppliedPresetMatches(Sanitize(presets[k]));
  }
}

=== FILE: render_route.dfy ===
/**
  The render endpoint (`/api/remotion/render`): POST validates the body, sets
  up the infrastructure, defaults the composition props and starts a render;
  GET reports the progress of a render.
 */
module RenderRoute {
  import opened Common
  import opened Timeline
  import Root
  import Lambda

  /** `body.trackItems` as the endpoint sees it: missing (or falsy), some non-array value, or an array. */
  datatype ItemsField = Missing | NotArray | Array(entries: seq<Entry>)

  /**
    The POST body. Strings and numbers that are absent, empty or zero are
    `""`/`0`; the two counts read with `??` are `None` only when absent.
   */
  datatype RenderRequest = RenderRequest(
    trackItems: ItemsField,
    background: Option<Root.Background>,
    videoWidth: int,
    videoHeight: int,
    fps: int,
    durationInSeconds: real,
    codec: string,
    imageFormat: string,
    maxRetries: Option<int>,
    framesPerLambda: Option<int>,
    privacy: string,
    siteName: string)

  datatype Body =
    | Failure(message: string)
    | Started(renderId: string, bucketName: string, functionName: string, siteName: string)
    | Progress(report: Lambda.ProgressReport)

  datatype Response = Response(status: int, body: Body)

  /** What a POST leaves behind: the answer, the site cache, the setup calls and the render it started. */
  datatype PostOutcome = PostOutcome(
    response: Response,
    cache: Option<Lambda.SiteInfo>,
    calls: seq<Lambda.Call>,
    rendered: Option<Lambda.RenderInput>)

  const DefaultSiteName: string := "video-editor-site"
  const TrackItemsRequired: string := "trackItems array is required"
  const CredentialsMissing: string :=
    "AWS credentials not configured. Please set AWS_ACCESS_KEY_ID and AWS_SECRET_ACCESS_KEY environment variables."
  const NoServeUrl: string := "Failed to get serve URL from site deployment"

  /**
    The composition props sent to the renderer: the items unchanged and every
    other field defaulted with `||`, so a zero takes the default as well. The
    composition's own default props fill what the request does not carry.
   */
  function InputProps(body: RenderRequest, entries: seq<Entry>): (p: Root.CompositionProps)
    ensures p.trackItems == entries
    ensures p.videoUrl == Root.DefaultProps().videoUrl && p.captions == Root.DefaultProps().captions
    ensures body.background.Some? ==> p.background == body.background.value
    ensures body.background.None? ==> p.background == Root.Background("color", "transparent")
    ensures p.videoWidth != 0 && (body.videoWidth != 0 ==> p.videoWidth == body.videoWidth)
    ensures body.videoWidth == 0 ==> p.videoWidth == 1080
    ensures p.videoHeight != 0 && (body.videoHeight != 0 ==> p.videoHeight == body.videoHeight)
    ensures body.videoHeight == 0 ==> p.videoHeight == 1920
    ensures p.fps != 0 && (body.fps != 0 ==> p.fps == body.fps) && (body.fps == 0 ==> p.fps == 30)
    ensures p.durationInSeconds != 0.0 && (body.durationInSeconds != 0.0 ==> p.durationInSeconds == body.durationInSeconds)
    ensures body.durationInSeconds == 0.0 ==> p.durationInSeconds == 10.0
  {
    var d := Root.DefaultProps();
    Root.CompositionProps(
      d.videoUrl,
      d.captions,
      if body.videoWidth != 0 then body.videoWidth else 1080,
      if body.videoHeight != 0 then body.videoHeight else 1920,
      if body.fps != 0 then body.fps else 30,
      if body.durationInSeconds != 0.0 then body.durationInSeconds else 10.0,
      entries,
      if body.background.Some? then body.background.value else Root.Background("color", "transparent"))
  }

  /** A body that sets nothing but the items gets exactly the composition's defaults. */
  lemma EmptyBodyGetsDefaults(entries: seq<Entry>)
    ensures InputProps(RenderRequest(Array(entries), None, 0, 0, 0, 0.0, "", "", None, None, "", ""), entries)
      == Root.DefaultProps().(trackItems := entries)
  {
  }

  /** The options the endpoint passes to `renderVideo` for a set-up infrastructure. */
  function RenderParamsOf(body: RenderRequest, entries: seq<Entry>, infra: Lambda.Infrastructure): (p: Lambda.RenderParams)
    ensures p.composition == Root.CompositionId
    ensures p.functionName == infra.functionName && p.serveUrl == infra.serveUrl
    ensures p.inputProps == InputProps(body, entries)
    ensures p.maxRetries == body.maxRetries && p.framesPerLambda == body.framesPerLambda
    ensures p.codec == body.codec && p.imageFormat == body.imageFormat && p.privacy == body.privacy
  {
    Lambda.RenderParams(infra.functionName, infra.serveUrl, Root.CompositionId, InputProps(body, entries),
      body.codec, body.imageFormat, body.maxRetries, body.framesPerLambda, body.privacy, "")
  }

  /** The site setup is asked for: the requested one, or the default when none is given. */
  function SiteNameOf(body: RenderRequest): (n: string)
    ensures n != ""
    ensures body.siteName != "" ==> n == body.siteName
  {
    if body.siteName != "" then body.siteName else DefaultSiteName
  }

  /**
    POST: 400 without an items array or without credentials (before any
    remote call); otherwise setup with the requested site name or the default
    one, never forced; a failure or an empty serve URL is a 500; then the
    render, whose id and bucket are answered with setup's function and site.
   */
  function Post(body: RenderRequest, hasCredentials: bool, cache: Option<Lambda.SiteInfo>, aws: Lambda.Aws)
    : (r: PostOutcome)
    ensures !body.trackItems.Array? ==>
      r == PostOutcome(Response(400, Failure(TrackItemsRequired)), cache, [], None)
    ensures body.trackItems.Array? && !hasCredentials ==>
      r == PostOutcome(Response(400, Failure(CredentialsMissing)), cache, [], None)
    ensures r.response.status in {200, 400, 500}
    ensures r.rendered.Some? ==> body.trackItems.Array? && r.rendered.value.composition == Root.CompositionId
    ensures r.rendered.Some? ==> r.rendered.value.inputProps == InputProps(body, body.trackItems.entries)
    ensures r.rendered.Some? ==> r.rendered.value.serveUrl != ""
    ensures r.response.status == 200 ==> r.response.body.Started? && r.rendered.Some?
    ensures body.trackItems.Array? && hasCredentials ==>
      var setup := Lambda.SetupRemotionInfrastructure(cache, SiteNameOf(body), false, aws);
      setup.result.Ok? && setup.result.value.serveUrl != ""
      && aws.renderMedia(Lambda.RenderOptions(RenderParamsOf(body, body.trackItems.entries, setup.result.value))).Ok?
      ==> r.response.status == 200 && r.cache == setup.cache && r.calls == setup.calls
    ensures body.trackItems.Array? && hasCredentials && r.response.status != 200 ==>
      r.response.status == 500 && r.response.body.Failure?
  {
    if !body.trackItems.Array? then PostOutcome(Response(400, Failure(TrackItemsRequired)), cache, [], None)
    else if !hasCredentials then PostOutcome(Response(400, Failure(CredentialsMissing)), cache, [], None)
    else
      var setup := Lambda.SetupRemotionInfrastructure(cache, SiteNameOf(body), false, aws);
      match setup.result
      case Err(m) => PostOutcome(Response(500, Failure(m)), setup.cache, setup.calls, None)
      case Ok(infra) =>
        if infra.serveUrl == "" then PostOutcome(Response(500, Failure(NoServeUrl)), setup.cache, setup.calls, None)
        else
          var params := RenderParamsOf(body, body.trackItems.entries, infra);
          var input := Lambda.RenderOptions(params);
          match Lambda.RenderVideo(params, aws)
          case Err(m) => PostOutcome(Response(500, Failure(m)), setup.cache, setup.calls, Some(input))
          case Ok(started) =>
            PostOutcome(
              Response(200, Started(started.renderId, started.bucketName, infra.functionName, infra.siteName)),
              setup.cache, setup.calls, Some(input))
  }

  /**
    A started render answers with the render's own id and bucket and with
    setup's function and site, and setup was asked for the requested site
    name, or the default one when none was given.
   */
  lemma PostAnswersFromSetupAndRender(body: RenderRequest, hasCredentials: bool, cache: Option<Lambda.SiteInfo>,
                                      aws: Lambda.Aws)
    requires Post(body, hasCredentials, cache, aws).response.status == 200
    ensures var setup := Lambda.SetupRemotionInfrastructure(cache, SiteNameOf(body), false, aws);
      var r := Post(body, hasCredentials, cache, aws);
      && setup.result.Ok?
      && r.response.body.functionName == setup.result.value.functionName
      && r.response.body.siteName == setup.result.value.siteName
      && aws.renderMedia(r.rendered.value)
         == Ok(Lambda.RenderStarted(r.response.body.renderId, r.response.body.bucketName))
  {
  }

  /** The render options the endpoint ends up with: its own `??` defaults agree with `renderVideo`'s. */
  lemma RenderedDefaults(body: RenderRequest, hasCredentials: bool, cache: Option<Lambda.SiteInfo>, aws: Lambda.Aws)
    requires Post(body, hasCredentials, cache, aws).rendered.Some?
    ensures var input := Post(body, hasCredentials, cache, aws).rendered.value;
      && input.maxRetries == body.maxRetries.GetOr(1)
      && input.framesPerLambda == body.framesPerLambda.GetOr(20)
      && input.codec == (if body.codec != "" then body.codec else "h264")
      && input.imageFormat == (if body.imageFormat != "" then body.imageFormat else "jpeg")
      && input.privacy == (if body.privacy != "" then body.privacy else "public")
  {
    var infra := Lambda.SetupRemotionInfrastructure(cache, SiteNameOf(body), false, aws).result.value;
    var params := RenderParamsOf(body, body.trackItems.entries, infra);
    assert Post(body, hasCredentials, cache, aws).rendered.value == Lambda.RenderOptions(params);
  }

  /** GET: 400 unless all three parameters are given (non-empty); otherwise the progress report or a 500. */
  function Get(renderId: string, bucketName: string, functionName: string, aws: Lambda.Aws): (r: Response)
    ensures (renderId == "" || bucketName == "" || functionName == "") <==> r.status == 400
    ensures r.status == 200 <==> r.status != 400 && aws.progress(renderId, bucketName, functionName).Ok?
    ensures r.status == 200 ==>
      r.body == Progress(Lambda.Report(aws.progress(renderId, bucketName, functionName).value))
  {
    if renderId == "" || bucketName == "" || functionName == "" then
      Response(400, Failure("renderId, bucketName, and functionName parameters are required"))
    else
      match Lambda.CheckRenderProgress(renderId, bucketName, functionName, aws)
      case Err(m) => Response(500, Failure(m))
      case Ok(report) => Response(200, Progress(report))
  }
}

=== FILE: root.dfy ===
/**
  The `VideoWithCaptions` composition registration: its default props, its
  static size and length, and `calculateMetadata`, which sizes the
  composition from the props a render is started with.
 */
module Root {
  import opened Common
  import opened Timeline
  import FrameMath
  import Compositor

  datatype Background = Background(kind: string, value: string)

  /** `VideoCompositionProps`; the caption list is carried but never read by the core. */
  datatype CompositionProps = CompositionProps(
    videoUrl: string,
    captions: seq<Entry>,
    videoWidth: int,
    videoHeight: int,
    fps: int,
    durationInSeconds: real,
    trackItems: seq<Entry>,
    background: Background)

  datatype Metadata = Metadata(fps: int, width: int, height: int, durationInFrames: int, props: CompositionProps)

  const CompositionId: string := "VideoWithCaptions"

  function DefaultProps(): CompositionProps {
    CompositionProps("", [], 1080, 1920, 30, 10.0, [], Background("color", "transparent"))
  }

  /** The statically registered composition, used until `calculateMetadata` runs. */
  function StaticMetadata(): Metadata {
    Metadata(30, 1080, 1920, 300, DefaultProps())
  }

  /**
    `calculateMetadata`: the length is the least whole number of frames that
    covers `durationInSeconds`; rate and size come from the props, which are
    passed through unchanged.
   */
  function CalculateMetadata(props: CompositionProps): (m: Metadata)
    ensures m.fps == props.fps && m.width == props.videoWidth && m.height == props.videoHeight
    ensures m.props == props
    ensures props.durationInSeconds * (props.fps as real) <= m.durationInFrames as real
    ensures (m.durationInFrames - 1) as real < props.durationInSeconds * (props.fps as real)
  {
    Metadata(props.fps, props.videoWidth, props.videoHeight,
      FrameMath.Ceil(props.durationInSeconds * (props.fps as real)), props)
  }

  /** The default props reproduce the static registration exactly: 10 s at 30 fps is 300 frames. */
  lemma DefaultsAgree()
    ensures CalculateMetadata(DefaultProps()) == StaticMetadata()
  {
    assert 10.0 * (30 as real) == 300.0;
  }

  /**
    When `durationInSeconds` is `maxDuration / 1000` for a `maxDuration` at
    least every item's end, no `Sequence` of the plan ends after the last
    frame of the composition.
   */
  lemma PlanFitsComposition(props: CompositionProps, maxDuration: int, i: int)
    requires props.fps > 0
    requires props.durationInSeconds == maxDuration as real / 1000.0
    requires forall c :: c in Compositor.ValidItems(props.trackItems) ==> c.to <= maxDuration
    requires 0 <= i < |Compositor.Plan(props.trackItems, props.fps)|
    ensures var p := Compositor.Plan(props.trackItems, props.fps)[i];
      0 <= p.fromFrame && p.fromFrame + p.durationInFrames <= CalculateMetadata(props).durationInFrames
  {
    Compositor.PlanEntryValid(props.trackItems, props.fps, i);
    ValidClipFits(props, maxDuration, Compositor.Plan(props.trackItems, props.fps)[i].clip);
  }

  lemma ValidClipFits(props: CompositionProps, maxDuration: int, c: Clip)
    requires props.fps > 0
    requires props.durationInSeconds == maxDuration as real / 1000.0
    requires WellFormed(c) && c.to <= maxDuration
    ensures var p := Compositor.Place(c, props.fps);
      0 <= p.fromFrame && p.fromFrame + p.durationInFrames <= CalculateMetadata(props).durationInFrames
  {
    ClipFitsFrames(c, maxDuration, props.durationInSeconds, props.fps, CalculateMetadata(props).durationInFrames);
  }

  /** One clip ending by `maxDuration` ms lies within `total` frames when `total` covers `maxDuration`. */
  lemma ClipFitsFrames(c: Clip, maxDuration: int, seconds: real, fps: int, total: int)
    requires WellFormed(c) && c.to <= maxDuration && fps > 0
    requires seconds == maxDuration as real / 1000.0
    requires seconds * (fps as real) <= total as real
    ensures 0 <= Compositor.Place(c, fps).fromFrame
    ensures Compositor.Place(c, fps).fromFrame + Compositor.Place(c, fps).durationInFrames <= total
  {
    FrameMath.MsToFramesMonotone(c.to, maxDuration, fps);
    FrameMath.MsToFramesMonotone(0, c.from, fps);
    FrameMath.FloorOfFramePosition(maxDuration, fps);
    assert FrameMath.FramePosition(maxDuration, fps) == seconds * (fps as real);
  }
}

=== FILE: source_window.dfy ===
/**
  Which part of a video or audio source plays, and with which playback
  parameters: once in the offline renderer (`RenderVideo`, `RenderAudio`),
  which works in whole frames, and once in the editor preview, which works in
  unfloored frame positions and reads JavaScript truthiness differently.
 */
module SourceWindow {
  import opened Common
  import opened Timeline
  import Strings
  import FrameMath

  /** `src.startsWith('http') ? src : staticFile(src)`. */
  datatype MediaSource = Remote(url: string) | Static(path: string)

  function ResolveSource(src: string): (m: MediaSource)
    ensures m.Remote? <==> Strings.StartsWith(src, "http")
    ensures m == Remote(src) || m == Static(src)
  {
    if Strings.StartsWith(src, "http") then Remote(src) else Static(src)
  }

  /** A number is truthy unless it is 0 (NaN is not modelled). */
  predicate Truthy(n: Option<int>) {
    n.Some? && n.value != 0
  }

  /** `trim?.from !== undefined || trim?.to !== undefined`. */
  predicate TrimGiven(trim: Option<Trim>) {
    trim.Some? && (trim.value.from.Some? || trim.value.to.Some?)
  }

  /** `startFrom` and `endAt` in whole source frames; `endAt == None` leaves the end open. */
  datatype Window = Window(startFrom: int, endAt: Option<int>)

  /**
    The window both offline renderers compute for an item on display
    `[from, to)` ms: the floored trim bounds when a trim bound is defined (a
    falsy `trim.from` starts at 0, a falsy `trim.to` leaves the end open),
    and otherwise the display length, so that the source never plays past
    the item's slot.
   */
  function RendererWindow(from: int, to: int, trim: Option<Trim>, fps: int): (w: Window)
    ensures !TrimGiven(trim) ==> w.startFrom == 0 && w.endAt.Some?
    ensures !TrimGiven(trim) ==> w.endAt.value * 1000 <= (to - from) * fps < (w.endAt.value + 1) * 1000
    ensures TrimGiven(trim) && Truthy(trim.value.from) ==>
      w.startFrom * 1000 <= trim.value.from.value * fps < (w.startFrom + 1) * 1000
    ensures TrimGiven(trim) && !Truthy(trim.value.from) ==> w.startFrom == 0
    ensures TrimGiven(trim) ==> (w.endAt.Some? <==> Truthy(trim.value.to))
    ensures TrimGiven(trim) && Truthy(trim.value.to) ==>
      w.endAt.value * 1000 <= trim.value.to.value * fps < (w.endAt.value + 1) * 1000
  {
    if TrimGiven(trim) then
      var t := trim.value;
      Window(
        if Truthy(t.from) then FrameMath.MsToFrames(t.from.value, fps) else 0,
        if Truthy(t.to) then Some(FrameMath.MsToFrames(t.to.value, fps)) else None)
    else
      Window(0, Some(FrameMath.MsToFrames(to - from, fps)))
  }

  /** With a trim the window depends on the trim and the frame rate only, never on the display slot. */
  lemma TrimmedWindowIgnoresDisplay(from1: int, to1: int, from2: int, to2: int, trim: Option<Trim>, fps: int)
    requires TrimGiven(trim)
    ensures RendererWindow(from1, to1, trim, fps) == RendererWindow(from2, to2, trim, fps)
  {
  }

  /** Without a trim the played part never lasts longer than the item's place on the timeline. */
  lemma UntrimmedFitsSlot(c: Clip, fps: int)
    requires WellFormed(c) && fps > 0 && !TrimGiven(c.item.trim)
    ensures var w := RendererWindow(c.from, c.to, c.item.trim, fps);
      0 <= w.endAt.value && w.endAt.value * 1000 <= (c.to - c.from) * fps
  {
    var w := RendererWindow(c.from, c.to, c.item.trim, fps);
    var e := w.endAt.value;
    var span := (c.to - c.from) * fps;
    assert span > 0;
    assert span < (e + 1) * 1000;
    assert e + 1 > 0;
  }

  /** The props handed to Remotion's `<Video>` by the offline renderer. */
  datatype RenderedVideo = RenderedVideo(src: MediaSource, volume: real, playbackRate: real, window: Window, crop: Crop)

  /** The props handed to Remotion's `<Audio>` by the offline renderer. */
  datatype RenderedAudio = RenderedAudio(src: MediaSource, volume: real, playbackRate: real, window: Window)

  /** Destructuring default `volume = 100`: only an undefined volume is replaced; the prop is `volume / 100`. */
  function RenderVolume(d: Details): (v: real)
    ensures d.volume.None? ==> v == 1.0
    ensures d.volume.Some? ==> v * 100.0 == d.volume.value
  {
    d.volume.GetOr(100.0) / 100.0
  }

  /** Destructuring default `playbackRate = 1`: only an undefined rate is replaced, so 0 stays 0. */
  function RenderRate(it: TrackItem): (r: real)
    ensures it.playbackRate.None? ==> r == 1.0
    ensures it.playbackRate.Some? ==> r == it.playbackRate.value
  {
    it.playbackRate.GetOr(1.0)
  }

  /** The item has details with a source, so both renderers can read it. */
  predicate HasSource(it: TrackItem) {
    it.details.Some? && it.details.value.src.Some?
  }

  /**
    `RenderVideo` for a placed clip. `None` stands for the `TypeError` that
    destructuring a missing `details`, or calling `startsWith` on a missing
    `src`, throws.
   */
  function RenderVideo(c: Clip, fps: int): (r: Option<RenderedVideo>)
    ensures r.Some? <==> HasSource(c.item)
    ensures r.Some? ==> var d := c.item.details.value;
      && r.value.src == ResolveSource(d.src.value)
      && r.value.window == RendererWindow(c.from, c.to, c.item.trim, fps)
      && r.value.crop == (if d.crop.Some? then d.crop.value else Crop(0.0, 0.0, d.width, d.height))
      && r.value.volume == RenderVolume(d)
      && r.value.playbackRate == RenderRate(c.item)
  {
    if c.item.details.None? || c.item.details.value.src.None? then None
    else
      var d := c.item.details.value;
      var crop := if d.crop.Some? then d.crop.value else Crop(0.0, 0.0, d.width, d.height);
      Some(RenderedVideo(ResolveSource(d.src.value), RenderVolume(d), RenderRate(c.item),
        RendererWindow(c.from, c.to, c.item.trim, fps), crop))
  }

  /** `RenderAudio` for a placed clip; `None` as for `RenderVideo`. */
  function RenderAudio(c: Clip, fps: int): (r: Option<RenderedAudio>)
    ensures r.Some? <==> HasSource(c.item)
    ensures r.Some? ==> var d := c.item.details.value;
      && r.value.src == ResolveSource(d.src.value)
      && r.value.window == RendererWindow(c.from, c.to, c.item.trim, fps)
      && r.value.volume == RenderVolume(d)
      && r.value.playbackRate == RenderRate(c.item)
  {
    if c.item.details.None? || c.item.details.value.src.None? then None
    else
      var d := c.item.details.value;
      Some(RenderedAudio(ResolveSource(d.src.value), RenderVolume(d), RenderRate(c.item),
        RendererWindow(c.from, c.to, c.item.trim, fps)))
  }

  /** The two renderers agree on source, window, volume and rate for the same item. */
  lemma AudioMatchesVideo(c: Clip, fps: int)
    requires HasSource(c.item)
    ensures var v := RenderVideo(c, fps).value; var a := RenderAudio(c, fps).value;
      a.src == v.src && a.window == v.window && a.volume == v.volume && a.playbackRate == v.playbackRate
  {
  }

  /** The playback rate never moves the window: two items differing only in rate get the same one. */
  lemma RateDoesNotMoveWindow(c: Clip, rate: Option<real>, fps: int)
    requires HasSource(c.item)
    ensures var c2 := c.(item := c.item.(playbackRate := rate));
      RenderVideo(c2, fps).value.window == RenderVideo(c, fps).value.window
  {
  }

  // ---- The editor preview ----

  /**
    What the browser environment decides about a source: whether the code runs
    server-side, the page's origin, and `new URL(src, origin).origin`
    (`None` when the URL constructor throws).
   */
  datatype Browser = Browser(serverSide: bool, pageOrigin: string, originOf: string -> Option<string>)

  /** The prefix of the same-origin proxy route. */
  const ProxyPrefix: string := "/api/uploads/url?u="

  /** The source resolves to another origin than the page's, seen from the browser. */
  predicate CrossOrigin(src: string, env: Browser) {
    !env.serverSide && src != "" && env.originOf(src).Some? && env.originOf(src).value != env.pageOrigin
  }

  /**
    The preview's source: unchanged server-side, when empty, when the URL
    cannot be parsed, or when it is same-origin; otherwise routed through the
    proxy with the source percent-encoded by `encode` (`encodeURIComponent`).
   */
  function EffectiveSrc(src: string, env: Browser, encode: string -> string): (r: string)
    ensures CrossOrigin(src, env) ==> r == ProxyPrefix + encode(src)
    ensures !CrossOrigin(src, env) ==> r == src
  {
    if env.serverSide || src == "" then src
    else
      var o := env.originOf(src);
      if o.Some? && o.value != env.pageOrigin then ProxyPrefix + encode(src) else src
  }

  /** The props of the preview's `<Video>`. `startFrom`/`endAt` are `None` when not set. */
  datatype PreviewVideo = PreviewVideo(
    src: Option<string>,
    volume: real,
    playbackRate: real,
    startFrom: Option<real>,
    endAt: Option<real>,
    currentFrame: real,
    crop: Crop)

  /** `item.playbackRate || 1`: a missing rate and a rate of 0 both become 1. */
  function PreviewRate(it: TrackItem): (r: real)
    ensures r != 0.0
    ensures it.playbackRate.Some? && it.playbackRate.value != 0.0 ==> r == it.playbackRate.value
  {
    if it.playbackRate.Some? && it.playbackRate.value != 0.0 then it.playbackRate.value else 1.0
  }

  /** `typeof trim.from === "number"`: the bound is set exactly when it is a number, 0 included. */
  function PreviewBound(trim: Option<Trim>, bound: Trim -> Option<int>, fps: int): (b: Option<real>)
    ensures b.Some? <==> trim.Some? && bound(trim.value).Some?
    ensures b.Some? ==> b.value == FrameMath.FramePosition(bound(trim.value).value, fps)
  {
    if trim.Some? && bound(trim.value).Some? then Some(FrameMath.FramePosition(bound(trim.value).value, fps))
    else None
  }

  /**
    The preview `Video` item at global frame `frame`. `None` stands for the
    `TypeError` a missing `details` throws.
   */
  function Preview(c: Clip, frame: int, fps: int, env: Browser, encode: string -> string): (r: Option<PreviewVideo>)
    ensures r.Some? <==> c.item.details.Some?
    ensures r.Some? ==> var d := c.item.details.value;
      && (d.src.None? ==> r.value.src.None?)
      && (d.src.Some? ==> r.value.src == Some(EffectiveSrc(d.src.value, env, encode)))
      && r.value.volume == (if d.volume.Some? then d.volume.value / 100.0 else 1.0)
      && r.value.playbackRate == PreviewRate(c.item)
      && r.value.startFrom == PreviewBound(c.item.trim, (t: Trim) => t.from, fps)
      && r.value.endAt == PreviewBound(c.item.trim, (t: Trim) => t.to, fps)
      && r.value.currentFrame + FrameMath.FramePosition(c.from, fps) == frame as real
  {
    if c.item.details.None? then None
    else
      var d := c.item.details.value;
      var crop := if d.crop.Some? then d.crop.value else Crop(0.0, 0.0, d.width, d.height);
      Some(PreviewVideo(
        if d.src.Some? then Some(EffectiveSrc(d.src.value, env, encode)) else None,
        if d.volume.Some? then d.volume.value / 100.0 else 1.0,
        PreviewRate(c.item),
        PreviewBound(c.item.trim, (t: Trim) => t.from, fps),
        PreviewBound(c.item.trim, (t: Trim) => t.to, fps),
        frame as real - FrameMath.FramePosition(c.from, fps),
        crop))
  }

  // ---- Where preview and render agree and where they part ----

  /** A nonzero trim start: the renderer plays from the floor of the preview's start. */
  lemma StartFloorsPreview(c: Clip, frame: int, fps: int, env: Browser, encode: string -> string)
    requires HasSource(c.item) && c.item.trim.Some? && Truthy(c.item.trim.value.from)
    ensures var p := Preview(c, frame, fps, env, encode).value;
      p.startFrom.Some? && FrameMath.Floor(p.startFrom.value) == RenderVideo(c, fps).value.window.startFrom
  {
    FrameMath.FloorOfFramePosition(c.item.trim.value.from.value, fps);
  }

  /** A nonzero trim end: the renderer stops at the floor of the preview's end. */
  lemma EndFloorsPreview(c: Clip, frame: int, fps: int, env: Browser, encode: string -> string)
    requires HasSource(c.item) && c.item.trim.Some? && Truthy(c.item.trim.value.to)
    ensures var p := Preview(c, frame, fps, env, encode).value;
      var w := RenderVideo(c, fps).value.window;
      p.endAt.Some? && w.endAt.Some? && FrameMath.Floor(p.endAt.value) == w.endAt.value
  {
    FrameMath.FloorOfFramePosition(c.item.trim.value.to.value, fps);
  }

  /** `trim.to = 0`: the preview stops at frame 0 while the renderer plays to the end of the source. */
  lemma ZeroTrimEndDiverges(c: Clip, frame: int, fps: int, env: Browser, encode: string -> string)
    requires HasSource(c.item) && c.item.trim.Some? && c.item.trim.value.to == Some(0)
    ensures Preview(c, frame, fps, env, encode).value.endAt == Some(0.0)
    ensures RenderVideo(c, fps).value.window.endAt.None?
  {
    assert FrameMath.FramePosition(0, fps) == 0.0;
  }

  /** No trim: the renderer clamps to the display length, the preview sets neither bound. */
  lemma UntrimmedDiverges(c: Clip, frame: int, fps: int, env: Browser, encode: string -> string)
    requires HasSource(c.item) && c.item.trim.None?
    ensures var p := Preview(c, frame, fps, env, encode).value;
      p.startFrom.None? && p.endAt.None?
    ensures var w := RenderVideo(c, fps).value.window;
      w.startFrom == 0 && w.endAt.Some?
  {
  }

  /** A rate of 0 is kept by the renderer and replaced by 1 in the preview; any other given rate agrees. */
  lemma RateAgreesUnlessZero(c: Clip, frame: int, fps: int, env: Browser, encode: string -> string)
    requires HasSource(c.item)
    ensures var p := Preview(c, frame, fps, env, encode).value;
      var v := RenderVideo(c, fps).value;
      p.playbackRate == v.playbackRate <==> c.item.playbackRate != Some(0.0)
  {
  }

  /** Both sides read volume the same way: `v / 100` when given, full volume when not. */
  lemma VolumeAgrees(c: Clip, frame: int, fps: int, env: Browser, encode: string -> string)
    requires HasSource(c.item)
    ensures Preview(c, frame, fps, env, encode).value.volume == RenderVideo(c, fps).value.volume
  {
  }

  /** At the item's first frame the preview's local frame is minus the fractional remainder, in `(-1, 0]`. */
  lemma CurrentFrameAtStart(c: Clip, fps: int, env: Browser, encode: string -> string)
    requires c.item.details.Some?
    ensures var p := Preview(c, FrameMath.MsToFrames(c.from, fps), fps, env, encode).value;
      -1.0 < p.currentFrame <= 0.0
  {
    FrameMath.FloorOfFramePosition(c.from, fps);
  }
}

=== FILE: stable_sort.dfy ===
/**
  A stable sort by an integer key. JavaScript's `Array.prototype.sort` is
  stable, so with a comparator of the form `key(a) - key(b)` its result is fully
  determined: ascending by key, equal keys in their input order. Both the
  compositor's z-order and the audio cache's least-recently-used eviction are
  instances.
 */
module StableSort {

  ghost predicate SortedBy<T>(s: seq<T>, key: T -> int) {
    forall i, j :: 0 <= i < j < |s| ==> key(s[i]) <= key(s[j])
  }

  /** A sorted sequence stays sorted with an element in front that is no greater than any of it. */
  lemma SortedCons<T>(x: T, rest: seq<T>, key: T -> int)
    requires SortedBy(rest, key)
    requires forall j :: 0 <= j < |rest| ==> key(x) <= key(rest[j])
    ensures SortedBy([x] + rest, key)
  {
    var r := [x] + rest;
    forall i, j | 0 <= i < j < |r| ensures key(r[i]) <= key(r[j]) {
      if i > 0 {
        assert r[i] == rest[i - 1] && r[j] == rest[j - 1];
      } else {
        assert r[j] == rest[j - 1];
      }
    }
  }

  /** The elements of `s` whose key is `k`, in their order in `s`. */
  function WithKey<T>(s: seq<T>, key: T -> int, k: int): (r: seq<T>)
    ensures |r| <= |s|
  {
    if |s| == 0 then []
    else (if key(s[0]) == k then [s[0]] else []) + WithKey(s[1..], key, k)
  }

  lemma {:induction false} WithKeyAppend<T>(a: seq<T>, b: seq<T>, key: T -> int, k: int)
    ensures WithKey(a + b, key, k) == WithKey(a, key, k) + WithKey(b, key, k)
  {
    if |a| == 0 {
      assert a + b == b;
    } else {
      var ab := a + b;
      var head := if key(a[0]) == k then [a[0]] else [];
      assert ab[0] == a[0];
      assert ab[1..] == a[1..] + b;
      assert WithKey(ab, key, k) == head + WithKey(a[1..] + b, key, k);
      WithKeyAppend(a[1..], b, key, k);
      assert WithKey(a, key, k) == head + WithKey(a[1..], key, k);
    }
  }

  /** Puts `x` in front of the first element whose key is not smaller. */
  function Insert<T>(x: T, s: seq<T>, key: T -> int): (r: seq<T>)
    ensures |r| == |s| + 1
  {
    if |s| == 0 || key(x) <= key(s[0]) then
      [x] + s
    else
      [s[0]] + Insert(x, s[1..], key)
  }

  /** Inserting adds exactly `x`. */
  lemma {:induction false} InsertPermutes<T>(x: T, s: seq<T>, key: T -> int)
    ensures multiset(Insert(x, s, key)) == multiset(s) + multiset{x}
  {
    if |s| > 0 && key(x) > key(s[0]) {
      InsertPermutes(x, s[1..], key);
      assert s == [s[0]] + s[1..];
    }
  }

  lemma {:induction false} InsertSorted<T>(x: T, s: seq<T>, key: T -> int)
    requires SortedBy(s, key)
    ensures SortedBy(Insert(x, s, key), key)
  {
    if |s| == 0 || key(x) <= key(s[0]) {
    } else {
      var rest := Insert(x, s[1..], key);
      InsertSorted(x, s[1..], key);
      InsertPermutes(x, s[1..], key);
      var r := [s[0]] + rest;
      assert r == Insert(x, s, key);
      forall j | 0 <= j < |rest|
        ensures key(s[0]) <= key(rest[j])
      {
        assert rest[j] in multiset(rest);
        assert rest[j] in multiset(s[1..]) + multiset{x};
        if rest[j] != x {
          assert rest[j] in s[1..];
          var i :| 0 <= i < |s[1..]| && s[1..][i] == rest[j];
          assert s[i + 1] == rest[j];
        }
      }
      forall i, j | 0 <= i < j < |r|
        ensures key(r[i]) <= key(r[j])
      {
        if i > 0 {
          assert r[i] == rest[i - 1] && r[j] == rest[j - 1];
        } else {
          assert r[j] == rest[j - 1];
        }
      }
    }
  }

  /** The keyed elements of a sequence with `x` in front. */
  lemma WithKeyCons<T>(x: T, s: seq<T>, key: T -> int, k: int)
    ensures WithKey([x] + s, key, k) == (if key(x) == k then [x] else []) + WithKey(s, key, k)
  {
    assert ([x] + s)[0] == x;
    assert ([x] + s)[1..] == s;
  }

  /** Inserting `x` adds it in front of the elements with the same key. */
  lemma {:induction false} InsertWithKey<T>(x: T, s: seq<T>, key: T -> int, k: int)
    ensures WithKey(Insert(x, s, key), key, k) == (if key(x) == k then [x] else []) + WithKey(s, key, k)
  {
    if |s| == 0 || key(x) <= key(s[0]) {
      WithKeyCons(x, s, key, k);
    } else {
      var rest := Insert(x, s[1..], key);
      InsertWithKey(x, s[1..], key, k);
      WithKeyCons(s[0], rest, key, k);
      WithKeyCons(s[0], s[1..], key, k);
      assert [s[0]] + s[1..] == s;
    }
  }

  /** Insertion sort: ascending by key, stable. */
  function Sort<T>(s: seq<T>, key: T -> int): (r: seq<T>)
    ensures |r| == |s|
    ensures SortedBy(r, key)
    ensures multiset(r) == multiset(s)
    ensures forall k :: WithKey(r, key, k) == WithKey(s, key, k)
  {
    if |s| == 0 then []
    else
      assert s == [s[0]] + s[1..];
      var sorted := Sort(s[1..], key);
      InsertSorted(s[0], sorted, key);
      InsertPermutes(s[0], sorted, key);
      assert forall k :: WithKey(Insert(s[0], sorted, key), key, k) == WithKey(s, key, k) by {
        forall k ensures WithKey(Insert(s[0], sorted, key), key, k) == WithKey(s, key, k) {
          InsertWithKey(s[0], sorted, key, k);
        }
      }
      Insert(s[0], sorted, key)
  }
}

=== FILE: strings.dfy ===
/**
  String operations the routes and stores rely on: prefix and substring tests,
  the filename sanitiser shared by the upload and transcription routes, and the
  slice of Node's `path` module (`basename`, `extname`) applied to slash-free
  names.
 */
module Strings {

  predicate StartsWith(s: string, prefix: string) {
    |prefix| <= |s| && s[..|prefix|] == prefix
  }

  /** `String.prototype.includes`. */
  predicate Contains(s: string, sub: string)
    decreases |s|
  {
    StartsWith(s, sub) || (|s| > 0 && Contains(s[1..], sub))
  }

  lemma {:induction false} ContainsAt(s: string, sub: string, i: nat)
    requires i + |sub| <= |s| && s[i..i + |sub|] == sub
    ensures Contains(s, sub)
    decreases i
  {
    if i > 0 {
      assert s[1..][i - 1..i - 1 + |sub|] == s[i..i + |sub|];
      ContainsAt(s[1..], sub, i - 1);
    }
  }

  /** The characters the pattern `[a-zA-Z0-9._-]` accepts. */
  predicate IsSafeChar(c: char) {
    ('a' <= c <= 'z') || ('A' <= c <= 'Z') || ('0' <= c <= '9') || c == '.' || c == '_' || c == '-'
  }

  predicate IsSafeName(s: string) {
    forall i :: 0 <= i < |s| ==> IsSafeChar(s[i])
  }

  lemma SafeConcat(a: string, b: string)
    requires IsSafeName(a) && IsSafeName(b)
    ensures IsSafeName(a + b)
  {
    forall i | 0 <= i < |a + b| ensures IsSafeChar((a + b)[i]) {
      if i >= |a| {
        assert (a + b)[i] == b[i - |a|];
      }
    }
  }

  /** `name.replace(/[^a-zA-Z0-9._-]/g, "_")`: every other character becomes `_`. */
  function ToSafeFilename(name: string): (r: string)
    ensures |r| == |name|
    ensures IsSafeName(r)
    ensures forall i :: 0 <= i < |name| && IsSafeChar(name[i]) ==> r[i] == name[i]
    ensures forall i :: 0 <= i < |name| && !IsSafeChar(name[i]) ==> r[i] == '_'
  {
    if |name| == 0 then []
    else [if IsSafeChar(name[0]) then name[0] else '_'] + ToSafeFilename(name[1..])
  }

  /** Sanitising twice is sanitising once. */
  lemma ToSafeFilenameIdempotent(name: string)
    ensures ToSafeFilename(ToSafeFilename(name)) == ToSafeFilename(name)
  {
    SafeNameUnchanged(ToSafeFilename(name));
  }

  /** A name that is already safe is left as it is. */
  lemma SafeNameUnchanged(name: string)
    requires IsSafeName(name)
    ensures ToSafeFilename(name) == name
  {
  }

  /** The text after the last `/`: the last element of `s.split('/')`. */
  function LastSegment(s: string): (r: string)
    ensures '/' !in r
    ensures |r| <= |s| && s[|s| - |r|..] == r
    ensures |r| < |s| ==> s[|s| - |r| - 1] == '/'
  {
    if |s| == 0 then []
    else if s[|s| - 1] == '/' then []
    else LastSegment(s[..|s| - 1]) + [s[|s| - 1]]
  }

  /** `s` with its trailing slashes removed. */
  function TrimTrailingSlashes(s: string): (r: string)
    ensures |r| <= |s| && s[..|r|] == r
    ensures |r| > 0 ==> r[|r| - 1] != '/'
    ensures forall i :: |r| <= i < |s| ==> s[i] == '/'
  {
    if |s| > 0 && s[|s| - 1] == '/' then TrimTrailingSlashes(s[..|s| - 1]) else s
  }

  /** Node's `path.basename(p)` on a POSIX path: the last segment, ignoring trailing slashes. */
  function BaseName(p: string): (r: string)
    ensures '/' !in r
  {
    LastSegment(TrimTrailingSlashes(p))
  }

  /** Index of the last `.` in `s[..n]`, or -1 when there is none. */
  function LastDotBefore(s: string, n: nat): (k: int)
    requires n <= |s|
    ensures -1 <= k < n
    ensures k >= 0 ==> s[k] == '.'
    ensures forall i :: k < i < n ==> s[i] != '.'
  {
    if n == 0 then -1
    else if s[n - 1] == '.' then n - 1
    else LastDotBefore(s, n - 1)
  }

  /**
    Node's `path.extname` on a name without `/`: from the last `.` to the end,
    except that a name with no dot, a name whose only leading character is the
    last dot (`.bashrc`), and `..` have no extension.
   */
  function ExtName(name: string): (ext: string)
    requires '/' !in name
    ensures |ext| <= |name| && name[|name| - |ext|..] == ext
    ensures ext != [] ==> ext[0] == '.' && |ext| < |name|
    ensures forall i :: 1 <= i < |ext| ==> ext[i] != '.'
    ensures (forall i :: 0 <= i < |name| ==> name[i] != '.') ==> ext == []
  {
    var k := LastDotBefore(name, |name|);
    if k <= 0 || name == ".." then [] else name[k..]
  }

  /** `path.basename(name, path.extname(name))` on a name without `/`. */
  function StemName(name: string): (stem: string)
    requires '/' !in name
    ensures stem + ExtName(name) == name
  {
    name[..|name| - |ExtName(name)|]
  }

  /** ASCII part of `String.prototype.toLowerCase`. */
  function ToLowerAscii(s: string): (r: string)
    ensures |r| == |s|
    ensures forall i :: 0 <= i < |s| ==> ('A' <= s[i] <= 'Z' ==> r[i] as int == s[i] as int + 32)
    ensures forall i :: 0 <= i < |s| ==> (!('A' <= s[i] <= 'Z') ==> r[i] == s[i])
  {
    if |s| == 0 then []
    else [if 'A' <= s[0] <= 'Z' then (s[0] as int + 32) as char else s[0]] + ToLowerAscii(s[1..])
  }

  predicate IsDigit(c: char) { '0' <= c <= '9' }

  function DigitChar(d: nat): (c: char)
    requires d < 10
    ensures IsDigit(c)
  {
    ('0' as int + d) as char
  }

  /** The decimal text of a non-negative integer, as `String(n)` prints it. */
  function NatToString(n: nat): (r: string)
    ensures |r| > 0
    ensures forall i :: 0 <= i < |r| ==> IsDigit(r[i])
    ensures |r| > 1 ==> r[0] != '0'
    decreases n
  {
    if n < 10 then [DigitChar(n)]
    else NatToString(n / 10) + [DigitChar(n % 10)]
  }

  /** Reading the decimal text back: the partner of `NatToString`. */
  function ParseDigits(s: string): nat
    requires forall i :: 0 <= i < |s| ==> IsDigit(s[i])
  {
    if |s| == 0 then 0
    else
      assert IsDigit(s[|s| - 1]);
      10 * ParseDigits(s[..|s| - 1]) + (s[|s| - 1] as int - '0' as int)
  }

  lemma {:induction false} NatToStringRoundTrip(n: nat)
    ensures ParseDigits(NatToString(n)) == n
    decreases n
  {
    if n >= 10 {
      var s := NatToString(n);
      assert s[..|s| - 1] == NatToString(n / 10);
      NatToStringRoundTrip(n / 10);
    }
  }
}

=== FILE: timeline.dfy ===
/**
  The track-item data model as it arrives from the editor's project JSON:
  untyped enough that the validators have something to reject.

  Times are integer milliseconds on the master timeline; frame rates are
  integer frames per second.
 */
module Timeline {
  import opened Common

  /** A display bound as the validators see it: missing, a number, or some other JSON value. */
  datatype Field = Undefined | Num(ms: int) | NonNumeric

  /** `display`: where the item sits on the master timeline. */
  datatype Display = Display(from: Field, to: Field)

  /** `trim`: which part of the source media plays; a bound is `None` when undefined. */
  datatype Trim = Trim(from: Option<int>, to: Option<int>)

  datatype Crop = Crop(x: real, y: real, width: real, height: real)

  /**
    The `details` fields the core reads. `src` is `None` when absent; the
    renderers call a string method on it, the export tests it for
    truthiness. `volume` is on a 0..100 scale.
   */
  datatype Details = Details(src: Option<string>, volume: Option<real>, width: real, height: real, crop: Option<Crop>)

  /** One element of `trackItems`. `id` and `type` are `""` when missing. */
  datatype TrackItem = TrackItem(
    id: string,
    kind: string,
    display: Option<Display>,
    trim: Option<Trim>,
    playbackRate: Option<real>,
    details: Option<Details>)

  /** An element of an untyped JSON array: an object, or anything else (`null`, a string, a number). */
  datatype Entry = Item(item: TrackItem) | NotObject

  /** The five item types the renderer knows, and everything else. */
  datatype ItemType = Video | Audio | Image | Text | Caption | Unknown

  function TypeOf(kind: string): (t: ItemType)
    ensures t == Unknown <==> kind !in {"video", "audio", "image", "text", "caption"}
  {
    if kind == "video" then Video
    else if kind == "audio" then Audio
    else if kind == "image" then Image
    else if kind == "text" then Text
    else if kind == "caption" then Caption
    else Unknown
  }

  /**
    A validated item: an object with a truthy id and type and numeric display
    bounds `0 <= from < to`, kept together with the bounds it was validated with.
   */
  datatype Clip = Clip(item: TrackItem, from: int, to: int)

  ghost predicate WellFormed(c: Clip) {
    && c.item.id != ""
    && c.item.kind != ""
    && c.item.display == Some(Display(Num(c.from), Num(c.to)))
    && 0 <= c.from < c.to
  }
}

=== FILE: timeline_events.dfy ===
/**
  The editor's timeline event handlers (`use-timeline-events.ts`): deleting
  the selected layers from the timeline state, and driving the player on
  seek, seek-by, play, pause and toggle events.
 */
module TimelineEvents {
  import opened Common
  import opened Timeline
  import FrameMath

  /** A timeline track: the ids of the items on it, plus its own fields, which deletion never touches. */
  datatype Track = Track(id: string, kind: string, items: seq<string>, magnetic: bool)

  /** The parts of the editor state a deletion reads and writes. */
  datatype EditorState = EditorState(
    trackItemIds: seq<string>,
    trackItemsMap: map<string, TrackItem>,
    tracks: seq<Track>,
    activeIds: seq<string>)

  /** A state update handed to the state manager, with its history options. */
  datatype Update = Update(state: EditorState, updateHistory: bool, kind: string)

  function Without(ids: seq<string>, removed: seq<string>): (r: seq<string>)
    ensures forall i :: 0 <= i < |r| ==> r[i] in ids && r[i] !in removed
    ensures forall i :: 0 <= i < |ids| && ids[i] !in removed ==> ids[i] in r
  {
    FilterContents(ids, (id: string) => id !in removed);
    Filter(ids, (id: string) => id !in removed)
  }

  /** Each track with its deleted items filtered out, every other field kept. */
  function PruneTracks(tracks: seq<Track>, removed: seq<string>): (r: seq<Track>)
    ensures |r| == |tracks|
    ensures forall i :: 0 <= i < |tracks| ==>
      r[i] == tracks[i].(items := Without(tracks[i].items, removed))
  {
    if |tracks| == 0 then []
    else [tracks[0].(items := Without(tracks[0].items, removed))] + PruneTracks(tracks[1..], removed)
  }

  /**
    `LAYER_DELETE`: without a state manager, or with nothing selected, no
    update; otherwise the selected ids leave the id list, the item map and
    every track, the selection is cleared, and the update is recorded in the
    history as a layer deletion.
   */
  function LayerDelete(st: Option<EditorState>): (u: Option<Update>)
    ensures u.Some? <==> st.Some? && |st.value.activeIds| > 0
    ensures u.Some? ==> u.value.updateHistory && u.value.kind == "layer:delete" && u.value.state.activeIds == []
    ensures u.Some? ==> |u.value.state.tracks| == |st.value.tracks|
    ensures u.Some? ==> forall k :: k in u.value.state.trackItemsMap <==>
      k in st.value.trackItemsMap && k !in st.value.activeIds
    ensures u.Some? ==> forall k :: k in u.value.state.trackItemsMap ==>
      u.value.state.trackItemsMap[k] == st.value.trackItemsMap[k]
  {
    if st.None? || |st.value.activeIds| == 0 then None
    else
      var s := st.value;
      var active := s.activeIds;
      Some(Update(
        EditorState(
          Without(s.trackItemIds, active),
          map k | k in s.trackItemsMap && k !in active :: s.trackItemsMap[k],
          PruneTracks(s.tracks, active),
          []),
        true,
        "layer:delete"))
  }

  /** After a deletion no deleted id is referenced anywhere: not in the id list, the map, or any track. */
  lemma DeletedEverywhere(st: EditorState, id: string)
    requires id in st.activeIds
    ensures var u := LayerDelete(Some(st)).value.state;
      && id !in u.trackItemIds
      && id !in u.trackItemsMap
      && forall t :: 0 <= t < |u.tracks| ==> id !in u.tracks[t].items
  {
  }

  /** Ids that were not selected survive in the id list, in their old order, and keep their tracks' other fields. */
  lemma SurvivorsKept(st: EditorState)
    requires |st.activeIds| > 0
    ensures var u := LayerDelete(Some(st)).value.state;
      && u.trackItemIds == Filter(st.trackItemIds, (id: string) => id !in st.activeIds)
      && forall t :: 0 <= t < |u.tracks| ==>
        u.tracks[t].id == st.tracks[t].id && u.tracks[t].kind == st.tracks[t].kind
        && u.tracks[t].magnetic == st.tracks[t].magnetic
        && u.tracks[t].items == Filter(st.tracks[t].items, (id: string) => id !in st.activeIds)
  {
  }

  /** The deletion clears the selection, so deleting again right away does nothing. */
  lemma DeleteThenDeleteIsNoop(st: EditorState)
    requires |st.activeIds| > 0
    ensures LayerDelete(Some(LayerDelete(Some(st)).value.state)).None?
  {
  }

  /** The player as the handlers see it; `frame` is the safe current frame. */
  datatype Player = Player(frame: real, playing: bool)

  /** Player and timeline events; a payload value that is not a number is `None`. */
  datatype Event =
    | TimelineSeek(time: Option<real>)
    | PlayerSeek(time: Option<real>)
    | Play
    | Pause
    | TogglePlay
    | SeekBy(frames: Option<real>)

  /** `(time / 1000) * fps`: the frame a seek to `time` milliseconds lands on. */
  function SeekTarget(time: real, fps: int): (f: real)
    ensures f * 1000.0 == time * (fps as real)
  {
    (time / 1000.0) * (fps as real)
  }

  /**
    The player after one event. Without a player nothing happens; a seek
    with a numeric time or a seek-by with a numeric count moves the frame,
    and a non-numeric one is ignored.
   */
  function Handle(p: Option<Player>, e: Event, fps: int): (r: Option<Player>)
    ensures p.None? ==> r.None?
    ensures p.Some? ==> r.Some?
    ensures p.Some? && (e.TimelineSeek? || e.PlayerSeek?) && e.time.Some? ==>
      r.value == p.value.(frame := SeekTarget(e.time.value, fps))
    ensures p.Some? && e.SeekBy? && e.frames.Some? ==>
      r.value == p.value.(frame := FrameMath.Round(p.value.frame) as real + e.frames.value)
    ensures p.Some? && (e.Play? || e.Pause?) ==> r.value == p.value.(playing := e.Play?)
    ensures p.Some? && e.TogglePlay? ==> r.value == p.value.(playing := !p.value.playing)
    ensures p.Some? && !e.Play? && !e.Pause? && !e.TogglePlay? ==> r.value.playing == p.value.playing
  {
    match p
    case None => None
    case Some(pl) =>
      match e
      case TimelineSeek(time) => if time.Some? then Some(pl.(frame := SeekTarget(time.value, fps))) else p
      case PlayerSeek(time) => if time.Some? then Some(pl.(frame := SeekTarget(time.value, fps))) else p
      case Play => Some(pl.(playing := true))
      case Pause => Some(pl.(playing := false))
      case TogglePlay => if pl.playing then Some(pl.(playing := false)) else Some(pl.(playing := true))
      case SeekBy(frames) =>
        if frames.Some? then Some(pl.(frame := FrameMath.Round(pl.frame) as real + frames.value)) else p
  }

  /** Toggling twice restores the playing state. */
  lemma ToggleTwice(p: Player, fps: int)
    ensures Handle(Handle(Some(p), TogglePlay, fps), TogglePlay, fps) == Some(p)
  {
  }

  /** A seek to a whole number of milliseconds lands on the preview's exact frame position for that time. */
  lemma SeekMatchesFramePosition(p: Player, ms: int, fps: int)
    ensures Handle(Some(p), PlayerSeek(Some(ms as real)), fps).value.frame == FrameMath.FramePosition(ms, fps)
  {
  }

  /** Two whole-frame steps compose: stepping by `a` then by `b` is stepping by `a + b`. */
  lemma SeekByComposes(p: Player, a: int, b: int, fps: int)
    ensures Handle(Handle(Some(p), SeekBy(Some(a as real)), fps), SeekBy(Some(b as real)), fps)
      == Handle(Some(p), SeekBy(Some((a + b) as real)), fps)
  {
    var n := FrameMath.Round(p.frame);
    assert FrameMath.Round(n as real + a as real) == n + a;
  }
}

=== FILE: transcribe_route.dfy ===
/**
  The transcription endpoint (`/api/transcribe`): the uploaded file named by
  the last segment of the media URL is sent to the speech-to-text service,
  and its words come back inline, as a `data:` URL holding the JSON result.

  URL decoding, the file system (whether a name exists, whether it reads as
  a file), the speech service, JSON serialisation and base64 encoding are
  parameters.
 */
module TranscribeRoute {
  import opened Common
  import opened Strings

  /** A word as the speech service reports it, times in seconds. */
  datatype ServiceWord = ServiceWord(word: string, start: real, end: real)

  /** The service's answer; `words` is missing when it reported none. Segments are kept as their JSON text. */
  datatype Transcription = Transcription(
    words: Option<seq<ServiceWord>>, text: string, duration: real, language: string, segments: string)

  /** The service's own fields, copied into the result for reference. */
  datatype Original = Original(text: string, duration: real, language: string, segments: string)

  /** A word of the caption data the editor reads. */
  datatype CaptionWord = CaptionWord(word: string, start: real, end: real, confidence: real)

  /** The JSON the endpoint encodes: the source URL, the words, and the service's own fields. */
  datatype Transformed = Transformed(sourceUrl: string, words: seq<CaptionWord>, original: Original)

  /** The result the endpoint encodes for a service answer about `mediaUrl`. */
  function TransformedOf(mediaUrl: string, t: Transcription): (d: Transformed)
    ensures d.sourceUrl == mediaUrl
    ensures t.words.None? ==> d.words == []
    ensures t.words.Some? ==> |d.words| == |t.words.value|
    ensures d.original == Original(t.text, t.duration, t.language, t.segments)
  {
    Transformed(mediaUrl, CaptionWords(t.words.GetOr([])), Original(t.text, t.duration, t.language, t.segments))
  }

  /** What is sent to the service besides the file contents. */
  datatype ServiceRequest = ServiceRequest(
    fileName: string,
    mimeType: string,
    model: string,
    responseFormat: string,
    granularities: seq<string>,
    language: Option<string>)

  /** A service failure: an API error with its HTTP status (0 when none), or any other error. */
  datatype Failure = ApiError(status: int, message: string) | OtherError(message: string)

  datatype Env = Env(
    hasApiKey: bool,
    decode: string -> Option<string>,
    fileExists: string -> bool,
    readable: string -> bool,
    transcribe: ServiceRequest -> Result<Transcription>,
    failure: ServiceRequest -> Failure,
    json: Transformed -> string,
    base64: string -> string)

  datatype Body = Error(error: string) | Transcribed(url: string)

  datatype Response = Response(status: int, body: Body)

  /** The media type announced for an extension (already lowercased); unknown ones are sent as MPEG audio. */
  function MimeType(ext: string): (m: string)
    ensures ext !in {".mp4", ".mov", ".webm", ".mp3", ".wav", ".m4a"} ==> m == "audio/mpeg"
    ensures ext == ".mp4" ==> m == "video/mp4"
    ensures ext == ".mov" ==> m == "video/quicktime"
    ensures ext == ".webm" ==> m == "video/webm"
    ensures ext == ".wav" ==> m == "audio/wav"
    ensures ext == ".m4a" ==> m == "audio/mp4"
  {
    if ext == ".mp4" then "video/mp4"
    else if ext == ".mov" then "video/quicktime"
    else if ext == ".webm" then "video/webm"
    else if ext == ".mp3" then "audio/mpeg"
    else if ext == ".wav" then "audio/wav"
    else if ext == ".m4a" then "audio/mp4"
    else "audio/mpeg"
  }

  /** Whatever the extension, the file is announced as audio or video. */
  lemma MimeTypeIsMedia(ext: string)
    ensures StartsWith(MimeType(ext), "audio/") || StartsWith(MimeType(ext), "video/")
  {
    var m := MimeType(ext);
    if m[0] == 'a' {
      assert m[..6] == "audio/";
    } else {
      assert m[..6] == "video/";
    }
  }

  /** The service's words as caption words: one per word, in order, times copied, full confidence. */
  function CaptionWords(ws: seq<ServiceWord>): (r: seq<CaptionWord>)
    ensures |r| == |ws|
    ensures forall i {:trigger r[i]} :: 0 <= i < |ws| ==>
      r[i].word == ws[i].word && r[i].start == ws[i].start && r[i].end == ws[i].end && r[i].confidence == 1.0
  {
    if |ws| == 0 then [] else [CaptionWord(ws[0].word, ws[0].start, ws[0].end, 1.0)] + CaptionWords(ws[1..])
  }

  /** Mapping words is done word by word, so it distributes over concatenation. */
  lemma CaptionWordsAppend(a: seq<ServiceWord>, b: seq<ServiceWord>)
    ensures CaptionWords(a + b) == CaptionWords(a) + CaptionWords(b)
  {
    var whole, parts := CaptionWords(a + b), CaptionWords(a) + CaptionWords(b);
    forall i | 0 <= i < |whole|
      ensures whole[i] == parts[i]
    {
      var w := if i < |a| then a[i] else b[i - |a|];
      assert (a + b)[i] == w;
    }
  }

  /** The name the file is looked up under: the decoded last URL segment, sanitised. */
  function SafeFileName(mediaUrl: string, decode: string -> Option<string>): (r: Option<string>)
    ensures r.Some? <==> decode(LastSegment(mediaUrl)).Some?
    ensures r.Some? ==> IsSafeName(r.value) && |r.value| == |decode(LastSegment(mediaUrl)).value|
  {
    match decode(LastSegment(mediaUrl))
    case None => None
    case Some(name) => Some(ToSafeFilename(name))
  }

  /** The request to the service: the safe file name, its media type, and the language lowercased when given. */
  function ServiceRequestFor(safeName: string, targetLanguage: string): (q: ServiceRequest)
    requires '/' !in safeName
    ensures q.fileName == safeName && q.mimeType == MimeType(ToLowerAscii(ExtName(safeName)))
    ensures q.model == "whisper-1" && q.responseFormat == "verbose_json" && q.granularities == ["word", "segment"]
    ensures q.language.Some? <==> targetLanguage != ""
    ensures q.language.Some? ==> q.language.value == ToLowerAscii(targetLanguage)
  {
    ServiceRequest(safeName, MimeType(ToLowerAscii(ExtName(safeName))), "whisper-1", "verbose_json",
      ["word", "segment"], if targetLanguage != "" then Some(ToLowerAscii(targetLanguage)) else None)
  }

  const DataUrlPrefix: string := "data:application/json;base64,"

  /** The status a service failure answers with: an API error's own status when it has one, 500 otherwise. */
  function FailureStatus(f: Failure): (s: int)
    ensures f.ApiError? && f.status != 0 ==> s == f.status
    ensures f.OtherError? || f.status == 0 ==> s == 500
  {
    match f
    case ApiError(status, _) => if status != 0 then status else 500
    case OtherError(_) => 500
  }

  /**
    POST: 400 without a URL, 500 without an API key, 404 when the file is
    not there, and otherwise the transcription as a `data:` URL. A failed
    decode or a failed read (a directory such as `.` passes the existence
    check) is a 500; a service error answers with its own status, or 500.
   */
  function Post(mediaUrl: string, targetLanguage: string, env: Env): (r: Response)
    ensures mediaUrl == "" ==> r == Response(400, Error("Media URL is required"))
    ensures mediaUrl != "" && !env.hasApiKey ==> r == Response(500, Error("OpenAI API key is not configured"))
    ensures mediaUrl != "" && env.hasApiKey && SafeFileName(mediaUrl, env.decode).None? ==>
      r == Response(500, Error("Failed to transcribe media"))
    ensures (mediaUrl != "" && env.hasApiKey && SafeFileName(mediaUrl, env.decode).Some?
             && !env.fileExists(SafeFileName(mediaUrl, env.decode).value)) ==>
      r == Response(404, Error("Media file not found"))
    ensures (mediaUrl != "" && env.hasApiKey && SafeFileName(mediaUrl, env.decode).Some?
             && env.fileExists(SafeFileName(mediaUrl, env.decode).value)
             && !env.readable(SafeFileName(mediaUrl, env.decode).value)) ==>
      r == Response(500, Error("Failed to transcribe media"))
    ensures r.body.Transcribed? ==> r.status == 200 && StartsWith(r.body.url, DataUrlPrefix)
    ensures mediaUrl != "" && env.hasApiKey ==>
      var name := SafeFileName(mediaUrl, env.decode);
      name.Some? && env.fileExists(name.value) && env.readable(name.value) ==>
        var q := ServiceRequestFor(name.value, targetLanguage);
        && (env.transcribe(q).Ok? ==> r.status == 200 && r.body.Transcribed?)
        && (env.transcribe(q).Err? ==> r.body.Error? && r.status == FailureStatus(env.failure(q)))
        && (env.transcribe(q).Err? && env.failure(q).OtherError? ==> r == Response(500, Error("Failed to transcribe media")))
    ensures r.body.Transcribed? ==>
      && mediaUrl != "" && env.hasApiKey
      && var name := SafeFileName(mediaUrl, env.decode);
      && name.Some? && env.fileExists(name.value) && env.readable(name.value)
      && var t := env.transcribe(ServiceRequestFor(name.value, targetLanguage));
      && t.Ok?
      && r.body.url[|DataUrlPrefix|..]
         == env.base64(env.json(TransformedOf(mediaUrl, t.value)))
  {
    if mediaUrl == "" then Response(400, Error("Media URL is required"))
    else if !env.hasApiKey then Response(500, Error("OpenAI API key is not configured"))
    else
      match SafeFileName(mediaUrl, env.decode)
      case None => Response(500, Error("Failed to transcribe media"))
      case Some(name) =>
        if !env.fileExists(name) then Response(404, Error("Media file not found"))
        else if !env.readable(name) then Response(500, Error("Failed to transcribe media"))
        else
          var q := ServiceRequestFor(name, targetLanguage);
          match env.transcribe(q)
          case Err(_) =>
            (match env.failure(q)
             case ApiError(_, _) => Response(FailureStatus(env.failure(q)), Error("OpenAI API error"))
             case OtherError(_) => Response(500, Error("Failed to transcribe media")))
          case Ok(t) =>
            var data := TransformedOf(mediaUrl, t);
            var url := DataUrlPrefix + env.base64(env.json(data));
            assert url[..|DataUrlPrefix|] == DataUrlPrefix;
            assert url[|DataUrlPrefix|..] == env.base64(env.json(data));
            Response(200, Transcribed(url))
  }

  /**
    A file stored by the upload endpoint under a safe name is found again from
    its URL: when the URL encoding of the name has no `/` and decodes back to
    it, the name looked up is the stored name.
   */
  lemma FindsUploadedFile(unique: string, encode: string -> string, decode: string -> Option<string>)
    requires IsSafeName(unique)
    requires '/' !in encode(unique) && decode(encode(unique)) == Some(unique)
    ensures SafeFileName("/api/uploads/file/" + encode(unique), decode) == Some(unique)
  {
    var url := "/api/uploads/file/" + encode(unique);
    LastSegmentOfSuffix("/api/uploads/file/", encode(unique));
    SafeNameUnchanged(unique);
  }

  /** The last segment of `prefix + s` is `s` when `prefix` ends in `/` and `s` has none. */
  lemma {:induction false} LastSegmentOfSuffix(prefix: string, s: string)
    requires |prefix| > 0 && prefix[|prefix| - 1] == '/' && '/' !in s
    ensures LastSegment(prefix + s) == s
    decreases |s|
  {
    if |s| == 0 {
      assert prefix + s == prefix;
    } else {
      var t := prefix + s;
      assert t[..|t| - 1] == prefix + s[..|s| - 1];
      assert t[|t| - 1] == s[|s| - 1];
      LastSegmentOfSuffix(prefix, s[..|s| - 1]);
      assert s[..|s| - 1] + [s[|s| - 1]] == s;
    }
  }
}

=== FILE: upload_media_route.dfy ===
/**
  The S3 upload endpoint (`/api/remotion/upload-media`): each local upload
  named in the request is copied to the render bucket under a timestamped
  key, and the answer maps each path that was copied to its public URL.

  The bucket lookup, the file system, the clock and the S3 client are
  parameters.
 */
module UploadMediaRoute {
  import opened Common
  import opened Strings
  import TranscribeRoute
  import Export

  /** `body.filePaths`: missing (or falsy), some non-array value, or an array. */
  datatype PathsField = Missing | NotArray | Array(paths: seq<string>)

  /**
    `regionSetting` is the configured region (`""` when unset); `stamp` is
    the clock reading taken for the path at a given position; `putError` is
    the message of a failed read or upload of (bucket, key, content type).
   */
  datatype Env = Env(
    hasCredentials: bool,
    regionSetting: string,
    bucket: Result<string>,
    fileExists: string -> bool,
    stamp: nat -> nat,
    putError: (string, string, string) -> Option<string>)

  datatype Body = Failure(message: string) | Uploaded(uploadedUrls: map<string, string>)

  datatype Response = Response(status: int, body: Body)

  const PathsRequired: string := "filePaths array is required"

  function Region(setting: string): (r: string)
    ensures r != ""
    ensures setting != "" ==> r == setting
  {
    if setting != "" then setting else "us-east-1"
  }

  /** The content type stored with an object, from its (lowercased) extension; unknown ones are generic bytes. */
  function ContentType(ext: string): (t: string)
    ensures ext == ".png" ==> t == "image/png"
    ensures ext == ".jpg" || ext == ".jpeg" ==> t == "image/jpeg"
    ensures ext !in {".mp4", ".mov", ".webm", ".mp3", ".wav", ".png", ".jpg", ".jpeg"} ==> t == "application/octet-stream"
  {
    if ext == ".mp4" then "video/mp4"
    else if ext == ".mov" then "video/quicktime"
    else if ext == ".webm" then "video/webm"
    else if ext == ".mp3" then "audio/mpeg"
    else if ext == ".wav" then "audio/wav"
    else if ext == ".png" then "image/png"
    else if ext == ".jpg" || ext == ".jpeg" then "image/jpeg"
    else "application/octet-stream"
  }

  /** For the audio and video extensions both know, S3 stores the type the transcription endpoint announces. */
  lemma ContentTypeAgreesWithTranscription(ext: string)
    requires ext in {".mp4", ".mov", ".webm", ".mp3", ".wav"}
    ensures ContentType(ext) == TranscribeRoute.MimeType(ext)
  {
  }

  /** The object key: under `uploads/`, the timestamp, a dash, then the file name. */
  function S3Key(stamp: nat, filename: string): (key: string)
    ensures StartsWith(key, "uploads/") && |key| > |filename|
    ensures key[|key| - |filename|..] == filename && key[|key| - |filename| - 1] == '-'
  {
    var key := "uploads/" + NatToString(stamp) + "-" + filename;
    assert key[..8] == "uploads/";
    key
  }

  /** The public URL of an object: the bucket's virtual-hosted address in the region, then the key. */
  function PublicUrl(bucket: string, region: string, key: string): (url: string)
    ensures StartsWith(url, "https://") && |url| > |key|
    ensures url[|url| - |key|..] == key
  {
    var url := "https://" + bucket + ".s3." + region + ".amazonaws.com/" + key;
    assert url[..8] == "https://";
    url
  }

  /**
    The path at position `k`: nothing when its last segment is empty, no such
    upload exists, or the copy fails; otherwise the public URL of the copy,
    whose key ends with the file name.
   */
  function UploadOne(filePath: string, k: nat, bucket: string, region: string, env: Env): (r: Option<string>)
    ensures r.Some? <==>
      && var name := LastSegment(filePath);
      && name != "" && env.fileExists(name)
      && env.putError(bucket, S3Key(env.stamp(k), name), ContentType(ToLowerAscii(ExtName(name)))).None?
    ensures r.Some? ==> r.value == PublicUrl(bucket, region, S3Key(env.stamp(k), LastSegment(filePath)))
  {
    var name := LastSegment(filePath);
    if name == "" || !env.fileExists(name) then None
    else
      var key := S3Key(env.stamp(k), name);
      if env.putError(bucket, key, ContentType(ToLowerAscii(ExtName(name)))).Some? then None
      else Some(PublicUrl(bucket, region, key))
  }

  /** The present values of `f` along `paths`, in order, into a map from path to value; later positions overwrite earlier ones. */
  function Collect(paths: seq<string>, f: nat -> Option<string>): map<string, string>
    decreases |paths|
  {
    if |paths| == 0 then map[]
    else
      var last := |paths| - 1;
      var m := Collect(paths[..last], f);
      match f(last)
      case None => m
      case Some(v) => m[paths[last] := v]
  }

  /** The last position of `p` in `paths` where `f` has a value, or -1 when there is none. */
  function LastPresent(paths: seq<string>, f: nat -> Option<string>, p: string): (k: int)
    ensures -1 <= k < |paths|
    ensures k >= 0 ==> paths[k] == p && f(k).Some?
    ensures forall l :: k < l < |paths| && paths[l] == p ==> f(l).None?
    decreases |paths|
  {
    if |paths| == 0 then -1
    else
      var last := |paths| - 1;
      if paths[last] == p && f(last).Some? then last
      else
        var k := LastPresent(paths[..last], f, p);
        assert forall l :: k < l < last ==> paths[..last][l] == paths[l];
        k
  }

  /**
    A path is a key of the collected map exactly when `f` has a value at one
    of its positions, and its value is the one at the last such position:
    a path listed twice keeps the value of its last successful copy.
   */
  lemma {:induction false} CollectIsLastPresent(paths: seq<string>, f: nat -> Option<string>, p: string)
    ensures p in Collect(paths, f) <==> LastPresent(paths, f, p) >= 0
    ensures p in Collect(paths, f) ==> Collect(paths, f)[p] == f(LastPresent(paths, f, p)).value
    decreases |paths|
  {
    if |paths| > 0 {
      CollectIsLastPresent(paths[..|paths| - 1], f, p);
    }
  }

  /** Every key of the collected map is one of the paths. */
  lemma CollectKeysListed(paths: seq<string>, f: nat -> Option<string>, p: string)
    requires p in Collect(paths, f)
    ensures p in paths
  {
    CollectIsLastPresent(paths, f, p);
  }

  /** The URLs of the copies of `paths`, keyed by path. */
  function UploadAll(paths: seq<string>, bucket: string, region: string, env: Env): map<string, string> {
    Collect(paths, UploadAt(paths, bucket, region, env))
  }

  function UploadAt(paths: seq<string>, bucket: string, region: string, env: Env): nat -> Option<string> {
    (k: nat) => if k < |paths| then UploadOne(paths[k], k, bucket, region, env) else None
  }

  /**
    The answered map has a key for exactly the listed paths that were copied
    at least once, and each key's URL is the public URL of its last copy:
    an `https` address in the bucket, under a key ending with the file name.
   */
  lemma UploadedUrls(paths: seq<string>, bucket: string, region: string, env: Env, p: string)
    ensures var k := LastPresent(paths, UploadAt(paths, bucket, region, env), p);
      && (p in UploadAll(paths, bucket, region, env) <==> k >= 0)
      && (k >= 0 ==>
        && UploadAll(paths, bucket, region, env)[p] == PublicUrl(bucket, region, S3Key(env.stamp(k), LastSegment(p)))
        && StartsWith(UploadAll(paths, bucket, region, env)[p], "https://"))
  {
    CollectIsLastPresent(paths, UploadAt(paths, bucket, region, env), p);
  }

  /**
    POST: 400 without a non-empty path array, then 400 without credentials;
    a failed bucket lookup is a 500 with its message; otherwise the map of
    the paths that were copied.
   */
  function Post(paths: PathsField, env: Env): (r: Response)
    ensures !paths.Array? || |paths.paths| == 0 ==> r == Response(400, Failure(PathsRequired))
    ensures paths.Array? && |paths.paths| > 0 && !env.hasCredentials ==>
      r == Response(400, Failure("AWS credentials not configured"))
    ensures r.body.Uploaded? <==> paths.Array? && |paths.paths| > 0 && env.hasCredentials && env.bucket.Ok?
    ensures r.body.Uploaded? ==>
      r.status == 200 && r.body.uploadedUrls == UploadAll(paths.paths, env.bucket.value, Region(env.regionSetting), env)
  {
    if !paths.Array? || |paths.paths| == 0 then Response(400, Failure(PathsRequired))
    else if !env.hasCredentials then Response(400, Failure("AWS credentials not configured"))
    else
      match env.bucket
      case Err(message) => Response(500, Failure(message))
      case Ok(bucket) => Response(200, Uploaded(UploadAll(paths.paths, bucket, Region(env.regionSetting), env)))
  }

  /**
    Every URL the endpoint answers is a non-empty `https` address, so the
    export, which swaps each uploaded local source for its URL, leaves no
    source of a copied file pointing at the local file server.
   */
  lemma CopiedSourcesLeaveLocalServer(paths: PathsField, env: Env, src: string, baseUrl: string)
    requires Post(paths, env).body.Uploaded?
    requires src != "" && src in Post(paths, env).body.uploadedUrls
    ensures Export.S3Hit(Post(paths, env).body.uploadedUrls, src)
    ensures !Export.IsLocalPath(Export.RewriteSrc(src, Post(paths, env).body.uploadedUrls, baseUrl, true))
  {
    var m := Post(paths, env).body.uploadedUrls;
    UploadedUrls(paths.paths, env.bucket.value, Region(env.regionSetting), env, src);
    var url := m[src];
    assert url[..8] == "https://";
    assert url[0] == 'h';
    assert Export.LocalPrefix[0] == '/';
    Export.UploadedNoLongerLocal(src, m, baseUrl);
  }
}

=== FILE: upload_url_route.dfy ===
/**
  The URL import endpoint (`/api/uploads/url`): POST downloads each given URL
  into the uploads folder, skipping any that fail, and answers with what was
  stored; GET proxies one external URL.

  The network, URL parsing, the clock, the random suffixes, URL encoding and
  the file system are parameters.
 */
module UploadUrlRoute {
  import opened Common
  import opened Strings
  import UploadsRoute

  /** An upstream response: its status, whether it is ok (2xx), its content type header (`""` when absent), and whether it has a body. */
  datatype Fetched = Fetched(ok: bool, status: nat, contentType: string, hasBody: bool)

  /** `body.urls`: missing (or falsy), some non-array value, or an array. */
  datatype UrlsField = Missing | NotArray | Array(urls: seq<string>)

  /**
    The world the endpoint talks to. `fetch` fails when the request throws;
    `pathname` is `None` when the URL does not parse; `stamp` and `rand` give
    the clock reading and random suffix used for the URL at a given position;
    `writeError` is the message of a failed read or write of the file.
   */
  datatype Env = Env(
    mkdirError: Option<string>,
    uploadsDir: string,
    fetch: string -> Result<Fetched>,
    pathname: string -> Option<string>,
    stamp: nat -> nat,
    rand: nat -> string,
    encode: string -> string,
    writeError: string -> Option<string>)

  datatype Downloaded = Downloaded(
    fileName: string,
    filePath: string,
    contentType: string,
    originalUrl: string,
    folder: string,
    url: string)

  datatype Body = Error(error: string) | Uploads(uploads: seq<Downloaded>)

  datatype Response = Response(status: int, body: Body)

  /** The safe name a download is named after: the last segment of its path, or `download.bin` when that is empty. */
  function DownloadName(pathname: string): (r: string)
    ensures IsSafeName(r) && |r| > 0
    ensures BaseName(pathname) != "" ==> r == ToSafeFilename(BaseName(pathname))
    ensures BaseName(pathname) == "" ==> r == "download.bin"
  {
    var b := BaseName(pathname);
    DefaultNameIsSafe();
    ToSafeFilename(if b != "" then b else "download.bin")
  }

  lemma DefaultNameIsSafe()
    ensures ToSafeFilename("download.bin") == "download.bin"
  {
    var d := "download.bin";
    assert forall i :: 0 <= i < |d| ==> IsSafeChar(d[i]);
    SafeNameUnchanged(d);
  }

  /** The name the download of the URL at position `k` with path `pathname` is stored under. */
  function StoredName(pathname: string, k: nat, env: Env): string {
    UploadsRoute.UniqueName(DownloadName(pathname), env.stamp(k), env.rand(k))
  }

  /**
    The URL at position `k`: nothing when the fetch throws or is not ok, the
    URL does not parse, or the file cannot be written; otherwise the record
    of the stored file, which remembers the URL it came from.
   */
  function Download(u: string, k: nat, env: Env): (d: Option<Downloaded>)
    ensures d.Some? <==>
      && env.fetch(u).Ok? && env.fetch(u).value.ok && env.pathname(u).Some?
      && env.writeError(env.uploadsDir + "/" + StoredName(env.pathname(u).value, k, env)).None?
    ensures d.Some? ==>
      && d.value.originalUrl == u
      && d.value.fileName == StoredName(env.pathname(u).value, k, env)
      && d.value.url == UploadsRoute.FileUrlPrefix + env.encode(d.value.fileName)
      && d.value.folder == UploadsRoute.UploadsFolder
    ensures d.Some? && env.fetch(u).value.contentType != "" ==> d.value.contentType == env.fetch(u).value.contentType
    ensures d.Some? && env.fetch(u).value.contentType == "" ==> d.value.contentType == UploadsRoute.OctetStream
  {
    match env.fetch(u)
    case Err(_) => None
    case Ok(res) =>
      if !res.ok then None
      else
        var contentType := if res.contentType != "" then res.contentType else UploadsRoute.OctetStream;
        match env.pathname(u)
        case None => None
        case Some(path) =>
          var unique := StoredName(path, k, env);
          var filePath := env.uploadsDir + "/" + unique;
          if env.writeError(filePath).Some? then None
          else Some(Downloaded(unique, filePath, contentType, u, UploadsRoute.UploadsFolder,
            UploadsRoute.FileUrlPrefix + env.encode(unique)))
  }

  /** A downloaded file is stored under a safe name, whatever the URL's path. */
  lemma DownloadedNameSafe(u: string, k: nat, env: Env)
    requires Download(u, k, env).Some? && UploadsRoute.IsRandomSuffix(env.rand(k))
    ensures IsSafeName(Download(u, k, env).value.fileName)
  {
  }

  /** `from` lists positions below `n` in strictly increasing order. */
  predicate Increasing(from: seq<nat>, n: nat) {
    (forall j :: 0 <= j < |from| ==> from[j] < n)
    && (forall j, l :: 0 <= j < l < |from| ==> from[j] < from[l])
  }

  /**
    The present values of `f(0)`, …, `f(n-1)`, in order. `from[j]` is the
    position `results[j]` came from: positions increase, each gives at most
    one result, and exactly the positions with a value give one.
   */
  method CollectPresent<T>(n: nat, f: nat -> Option<T>) returns (results: seq<T>, from: seq<nat>)
    ensures |results| == |from| && Increasing(from, n)
    ensures forall j :: 0 <= j < |from| ==> f(from[j]) == Some(results[j])
    ensures forall k :: 0 <= k < n && f(k).Some? ==> k in from
  {
    results, from := [], [];
    var i := 0;
    while i < n
      invariant 0 <= i <= n
      invariant |results| == |from| && Increasing(from, i)
      invariant forall j :: 0 <= j < |from| ==> f(from[j]) == Some(results[j])
      invariant forall k :: 0 <= k < i && f(k).Some? ==> k in from
    {
      var d := f(i);
      if d.Some? {
        IncreasingExtend(from, i);
        results, from := results + [d.value], from + [i];
      }
      i := i + 1;
    }
  }

  /**
    The downloads of `urls`, one at a time in order: the results are in the
    order of the URLs, each URL gives at most one, and exactly the URLs whose
    download succeeds give one.
   */
  method DownloadAll(urls: seq<string>, env: Env) returns (results: seq<Downloaded>, from: seq<nat>)
    ensures |results| == |from| && Increasing(from, |urls|)
    ensures forall j :: 0 <= j < |results| ==>
      Download(urls[from[j]], from[j], env) == Some(results[j])
    ensures forall k :: 0 <= k < |urls| && Download(urls[k], k, env).Some? ==> k in from
    ensures forall j :: 0 <= j < |results| ==> results[j].originalUrl == urls[from[j]]
  {
    results, from := CollectPresent(|urls|, (k: nat) => if k < |urls| then Download(urls[k], k, env) else None);
  }

  /**
    POST: 400 without a user id, or without a non-empty URL array; a 500 when
    the uploads folder cannot be created; otherwise the successful downloads
    in URL order, failures left out.
   */
  method Post(userId: string, urls: UrlsField, env: Env) returns (r: Response, from: seq<nat>)
    ensures userId == "" ==> r == Response(400, Error("userId is required"))
    ensures userId != "" && (!urls.Array? || |urls.urls| == 0) ==>
      r == Response(400, Error("urls array is required and must not be empty"))
    ensures userId != "" && urls.Array? && |urls.urls| > 0 && env.mkdirError.Some? ==>
      r == Response(500, Error("Internal server error"))
    ensures r.body.Uploads? <==> userId != "" && urls.Array? && |urls.urls| > 0 && env.mkdirError.None?
    ensures r.body.Uploads? ==>
      && r.status == 200
      && |r.body.uploads| == |from| && Increasing(from, |urls.urls|)
      && (forall j :: 0 <= j < |from| ==> Download(urls.urls[from[j]], from[j], env) == Some(r.body.uploads[j]))
      && (forall k :: 0 <= k < |urls.urls| && Download(urls.urls[k], k, env).Some? ==> k in from)
  {
    from := [];
    if userId == "" {
      r := Response(400, Error("userId is required"));
    } else if !urls.Array? || |urls.urls| == 0 {
      r := Response(400, Error("urls array is required and must not be empty"));
    } else if env.mkdirError.Some? {
      r := Response(500, Error("Internal server error"));
    } else {
      var results;
      results, from := DownloadAll(urls.urls, env);
      r := Response(200, Uploads(results));
    }
  }

  lemma IncreasingExtend(from: seq<nat>, i: nat)
    requires Increasing(from, i)
    ensures Increasing(from + [i], i + 1)
  {
  }

  /** When every URL downloads, there is one result per URL, each from the URL at the same position. */
  lemma AllSucceedKeepsPositions(urls: seq<string>, env: Env, results: seq<Downloaded>, from: seq<nat>)
    requires forall k :: 0 <= k < |urls| ==> Download(urls[k], k, env).Some?
    requires |results| == |from| && Increasing(from, |urls|)
    requires forall k :: 0 <= k < |urls| ==> k in from
    ensures from == seq(|urls|, k => k)
    ensures |results| == |urls|
  {
    IncreasingCovering(from, |urls|);
  }

  /** A strictly increasing list of positions below `n` has at most `n` entries. */
  lemma {:induction false} LengthBound(from: seq<nat>, n: nat)
    requires Increasing(from, n)
    ensures |from| <= n
    decreases |from|
  {
    if |from| > 0 {
      var last := |from| - 1;
      var init := from[..last];
      forall j | 0 <= j < |init| ensures init[j] < from[last] {
        assert init[j] == from[j];
      }
      LengthBound(init, from[last]);
    }
  }

  /** A strictly increasing list of positions below `n` that includes each of them is `0, 1, …, n-1`. */
  lemma {:induction false} IncreasingCovering(from: seq<nat>, n: nat)
    requires Increasing(from, n)
    requires forall k :: 0 <= k < n ==> k in from
    ensures from == seq(n, k => k)
    decreases n
  {
    if n == 0 {
      LengthBound(from, n);
    } else {
      assert n - 1 in from;
      var last := |from| - 1;
      forall j | 0 <= j < |from| ensures from[j] <= from[last] {
        if j < last {
          assert from[j] < from[last];
        }
      }
      assert from[last] == n - 1;
      var init := from[..last];
      forall k | 0 <= k < n - 1 ensures k in init {
        assert k in from;
        var j :| 0 <= j < |from| && from[j] == k;
        assert j != last;
        assert init[j] == k;
      }
      IncreasingCovering(init, n - 1);
      assert from == init + [n - 1];
      assert |from| == n;
      forall j | 0 <= j < n ensures from[j] == seq(n, k => k)[j] {
        if j < n - 1 {
          assert from[j] == init[j];
        }
      }
    }
  }

  /** The answer of the proxy: an error with a status, or the upstream body passed through with headers. */
  datatype ProxyResponse =
    | ProxyError(status: int, error: string)
    | Stream(contentType: string, cacheControl: string)

  /**
    A status `Response.json` refuses: outside 200..599 (a `RangeError`), or
    a null-body status, 204, 205 or 304 (a `TypeError`), as section 6.4 of
    the Fetch standard requires of a response given a body.
   */
  predicate Refused(status: int) {
    status < 200 || status > 599 || status in {204, 205, 304}
  }

  /**
    GET: 400 without `u`; when the upstream is not ok or has no body, an
    error answered with the upstream's status; a 500 when anything throws,
    including that error answer itself when the upstream's status is one a
    JSON response cannot carry (`refused` gives the thrown message);
    otherwise the upstream body, never cached, with the upstream content
    type or a generic one.
   */
  function Get(u: string, fetch: string -> Result<Fetched>, refused: nat -> string): (r: ProxyResponse)
    ensures u == "" ==> r == ProxyError(400, "Missing 'u' query param")
    ensures u != "" && fetch(u).Err? ==> r == ProxyError(500, fetch(u).message)
    ensures r.Stream? <==> u != "" && fetch(u).Ok? && fetch(u).value.ok && fetch(u).value.hasBody
    ensures u != "" && fetch(u).Ok? && !r.Stream? && !Refused(fetch(u).value.status) ==>
      r == ProxyError(fetch(u).value.status, "Upstream error " + NatToString(fetch(u).value.status))
    ensures u != "" && fetch(u).Ok? && !r.Stream? && Refused(fetch(u).value.status) ==>
      r == ProxyError(500, refused(fetch(u).value.status))
    ensures r.Stream? ==> r.cacheControl == "no-store" && r.contentType != ""
    ensures r.Stream? && fetch(u).value.contentType != "" ==> r.contentType == fetch(u).value.contentType
  {
    if u == "" then ProxyError(400, "Missing 'u' query param")
    else
      match fetch(u)
      case Err(message) => ProxyError(500, message)
      case Ok(upstream) =>
        if !upstream.ok || !upstream.hasBody then
          if Refused(upstream.status) then ProxyError(500, refused(upstream.status))
          else ProxyError(upstream.status, "Upstream error " + NatToString(upstream.status))
        else
          Stream(if upstream.contentType != "" then upstream.contentType else UploadsRoute.OctetStream, "no-store")
  }

  /**
    Every error the proxy answers carries a status a JSON response can have;
    in particular an upstream 204, 205 or 304, which fetch always delivers
    without a body, is answered 500, never with its own status.
   */
  lemma ProxyErrorStatusCarried(u: string, fetch: string -> Result<Fetched>, refused: nat -> string)
    ensures Get(u, fetch, refused).ProxyError? ==> !Refused(Get(u, fetch, refused).status)
    ensures u != "" && fetch(u).Ok? && fetch(u).value.status in {204, 205, 304} && !fetch(u).value.hasBody ==>
      Get(u, fetch, refused) == ProxyError(500, refused(fetch(u).value.status))
  {
  }
}

=== FILE: uploads_route.dfy ===
/**
  The local upload endpoint (`/api/uploads`): a multipart upload is stored in
  the uploads folder under a unique safe name and answered with the URL the
  file endpoint serves it from; a JSON body is echoed back.

  The clock, the random suffix, URL encoding and the file system are
  parameters.
 */
module UploadsRoute {
  import opened Common
  import opened Strings

  const UploadsFolder: string := "_uploads"
  const FileUrlPrefix: string := "/api/uploads/file/"
  const OctetStream: string := "application/octet-stream"

  /**
    The characters `Math.random().toString(36).slice(2, 8)` can produce: at
    most six base-36 digits.
   */
  predicate IsRandomSuffix(r: string) {
    |r| <= 6 && forall i :: 0 <= i < |r| ==> IsDigit(r[i]) || 'a' <= r[i] <= 'z'
  }

  /**
    The name a file is stored under: the stem of its safe name, a dash, the
    timestamp, the random suffix, and the extension last. It stays safe, it
    keeps the stem in front, and it is longer than the safe name by exactly
    the inserted part.
   */
  function UniqueName(safeName: string, stamp: nat, rand: string): (u: string)
    requires IsSafeName(safeName)
    ensures IsRandomSuffix(rand) ==> IsSafeName(u)
    ensures StartsWith(u, StemName(safeName) + "-")
    ensures |u| == |safeName| + 1 + |NatToString(stamp)| + |rand|
    ensures u[|u| - |ExtName(safeName)|..] == ExtName(safeName)
  {
    var stem := StemName(safeName);
    var ext := ExtName(safeName);
    var u := stem + "-" + NatToString(stamp) + rand + ext;
    assert u[..|stem + "-"|] == stem + "-";
    assert u[|u| - |ext|..] == ext;
    UniquePartsSafe(safeName, stamp, rand);
    u
  }

  lemma UniquePartsSafe(safeName: string, stamp: nat, rand: string)
    requires IsSafeName(safeName)
    ensures IsRandomSuffix(rand) ==> IsSafeName(StemName(safeName) + "-" + NatToString(stamp) + rand + ExtName(safeName))
  {
    if !IsRandomSuffix(rand) {
      return;
    }
    var stem := StemName(safeName);
    var ext := ExtName(safeName);
    assert stem + ext == safeName;
    assert forall i :: 0 <= i < |stem| ==> stem[i] == safeName[i];
    assert forall i :: 0 <= i < |ext| ==> ext[i] == safeName[|stem| + i];
    var digits := NatToString(stamp);
    assert IsSafeName("-");
    SafeConcat(stem, "-");
    SafeConcat(stem + "-", digits);
    SafeConcat(stem + "-" + digits, rand);
    SafeConcat(stem + "-" + digits + rand, ext);
  }

  /** `k` is the last dot of `s[..n]` when `s[k]` is a dot and no dot follows it before `n`. */
  lemma {:induction false} LastDotIs(s: string, k: nat, n: nat)
    requires k < n <= |s| && s[k] == '.'
    requires forall i :: k < i < n ==> s[i] != '.'
    ensures LastDotBefore(s, n) == k
    decreases n
  {
    if n - 1 != k {
      LastDotIs(s, k, n - 1);
    }
  }

  /**
    The stored name has the same extension as the uploaded one, so the type
    later derived from the extension is the uploaded file's type. (A name
    without an extension can gain one: `..` becomes `..-<stamp><rand>`.)
   */
  lemma UniqueNameKeepsExtension(safeName: string, stamp: nat, rand: string)
    requires IsSafeName(safeName) && IsRandomSuffix(rand)
    requires ExtName(safeName) != []
    ensures var u := UniqueName(safeName, stamp, rand);
      '/' !in u && ExtName(u) == ExtName(safeName)
  {
    var u := UniqueName(safeName, stamp, rand);
    var ext := ExtName(safeName);
    var k := |u| - |ext|;
    assert u[k..] == ext;
    assert u[k] == '.';
    forall i | k < i < |u| ensures u[i] != '.' {
      assert u[i] == ext[i - k];
    }
    LastDotIs(u, k, |u|);
    assert k > 0 by {
      assert |StemName(safeName) + "-"| > 0;
    }
    assert u[|StemName(safeName)|] == '-';
  }

  datatype UploadedFile = UploadedFile(name: string, kind: string)

  /** What the endpoint answers for a stored file. */
  datatype Stored = Stored(fileName: string, filePath: string, contentType: string, url: string, folder: string)

  datatype Body = Error(error: string) | Uploads(uploads: seq<Stored>) | Echo(upload: string)

  datatype Response = Response(status: int, body: Body)

  /** The form's `file` entry: absent, a plain string field, or a file. */
  datatype FormEntry = NoEntry | TextEntry(text: string) | FileEntry(file: UploadedFile)

  /**
    The request as the endpoint reads it: the content type header (`""` when
    absent), the parsed form's `file` entry (or the error parsing the form
    threw), and the JSON body (or the error parsing it threw).
   */
  datatype Request = Request(contentType: string, form: Result<FormEntry>, json: Result<string>)

  /**
    The clock reading, the random suffix, URL encoding, the outcome of
    writing a file (an error message on failure), and the message of the
    `TypeError` thrown when `arrayBuffer` is called on a string entry.
   */
  datatype Env = Env(
    uploadsDir: string,
    stamp: nat,
    rand: string,
    encode: string -> string,
    writeError: string -> Option<string>,
    notAFunction: string)

  /** The record of one stored upload. */
  function StoredFile(file: UploadedFile, env: Env): (s: Stored)
    ensures var safe := ToSafeFilename(if file.name != "" then file.name else "upload.bin");
      && s.fileName == UniqueName(safe, env.stamp, env.rand)
      && s.url == FileUrlPrefix + env.encode(s.fileName)
      && s.filePath == env.uploadsDir + "/" + s.fileName
    ensures s.folder == UploadsFolder
    ensures file.kind != "" ==> s.contentType == file.kind
    ensures file.kind == "" ==> s.contentType == OctetStream
  {
    var safe := ToSafeFilename(if file.name != "" then file.name else "upload.bin");
    var unique := UniqueName(safe, env.stamp, env.rand);
    Stored(unique, env.uploadsDir + "/" + unique, if file.kind != "" then file.kind else OctetStream,
      FileUrlPrefix + env.encode(unique), UploadsFolder)
  }

  /** The multipart path found a file to store. */
  predicate HasFile(req: Request) {
    req.form.Ok? && req.form.value.FileEntry?
  }

  /**
    POST: a multipart request (checked first) stores its file, or is a 400
    when the entry is missing or an empty string; a JSON request is echoed;
    anything else is a 415. A form that does not parse, a non-empty string
    entry (it has no `arrayBuffer`), a failed write or an unparsable JSON
    body is a 500 with the thrown error's message.
   */
  function Post(req: Request, env: Env): (r: Response)
    ensures Contains(req.contentType, "multipart/form-data") && req.form.Err? ==>
      r == Response(500, Error(req.form.message))
    ensures Contains(req.contentType, "multipart/form-data") && req.form.Ok?
            && (req.form.value.NoEntry? || req.form.value == TextEntry("")) ==>
      r == Response(400, Error("file is required"))
    ensures Contains(req.contentType, "multipart/form-data") && req.form.Ok?
            && req.form.value.TextEntry? && req.form.value.text != "" ==>
      r == Response(500, Error(env.notAFunction))
    ensures !Contains(req.contentType, "multipart/form-data") && !Contains(req.contentType, "application/json") ==>
      r == Response(415, Error("Unsupported Content-Type"))
    ensures r.body.Uploads? <==>
      Contains(req.contentType, "multipart/form-data") && HasFile(req)
      && env.writeError(StoredFile(req.form.value.file, env).filePath).None?
    ensures r.body.Uploads? ==> r.status == 200 && r.body.uploads == [StoredFile(req.form.value.file, env)]
    ensures r.body.Echo? <==>
      !Contains(req.contentType, "multipart/form-data") && Contains(req.contentType, "application/json")
      && req.json.Ok?
    ensures r.body.Echo? ==> r.status == 200 && r.body.upload == req.json.value
    ensures r.body.Error? ==> r.status in {400, 415, 500}
  {
    if Contains(req.contentType, "multipart/form-data") then
      match req.form
      case Err(message) => Response(500, Error(message))
      case Ok(NoEntry) => Response(400, Error("file is required"))
      case Ok(TextEntry(text)) =>
        if text == "" then Response(400, Error("file is required"))
        else Response(500, Error(env.notAFunction))
      case Ok(FileEntry(file)) =>
        var stored := StoredFile(file, env);
        match env.writeError(stored.filePath)
        case Some(message) => Response(500, Error(message))
        case None => Response(200, Uploads([stored]))
    else if Contains(req.contentType, "application/json") then
      match req.json
      case Err(message) => Response(500, Error(message))
      case Ok(body) => Response(200, Echo(body))
    else Response(415, Error("Unsupported Content-Type"))
  }

  /** The stored name of any upload is a safe name, whatever the client called the file. */
  lemma StoredNameIsSafe(req: Request, env: Env)
    requires IsRandomSuffix(env.rand)
    requires Post(req, env).body.Uploads?
    ensures IsSafeName(Post(req, env).body.uploads[0].fileName)
    ensures StartsWith(Post(req, env).body.uploads[0].url, FileUrlPrefix)
  {
    var s := Post(req, env).body.uploads[0];
    assert s.url[..|FileUrlPrefix|] == FileUrlPrefix;
  }
}
